=== FILE: README.md ===
# pyar active-record core in Dafny

This project models the core of pyar, a small active-record layer:

- **Record state** (`Model`). A model instance holds a plain field map in which names starting with `_` are refused. Reading a name follows Python's order: an instance attribute (a nested model), then a class attribute of that name, then the field map, and `None` for anything unset. Assigning to a field whose class attribute is a model class wraps the value in a new instance of that class. The instance also keeps an origin snapshot and an `is_new` flag. The module covers the `get_data`/`to_dict` views and the rule that derives the resource name from a CamelCase class name.
- **Adapter configuration and type guards** (`Adapter`). The config store supports add, get, remove and clear, each with its error on a missing key. The model-type check guards read, create, update and delete.
- **Adapter registry** (`Registry`). A name-to-adapter map with a default slot under `None`.
- **MySQL adapter** (`MySql`):
  - SELECT assembly, the WHERE builder and `:name` parameter substitution.
  - Column filtering of a record's fields.
  - INSERT, UPDATE and DELETE text, with the "Nothing to insert." and "Nothing to update." failures.
  - `execute` and its error path, and the transaction statements.
- **SQL model** (`SqlModel`):
  - The finders: `find`, `find_one`, `count`, `find_by_id` and `find_by_query`.
  - The transactional write path of `create`, `update` (optionally cascading into related models), `delete` and `save`. Each one produces the `'; '`-joined audit trail stored as the class's last query, plus its effects on `is_new` and the primary key.
- **Relations** (`Relations`):
  - Key defaulting by relation kind, and the owner's relation value.
  - The finder filters, either direct or through a join resource.
  - The load itself, and the per-owner cache.
- **JIRA reader** (`Jira`). The URL built from host, resource and query parameters, the status check, and hydrating the decoded body into records.

As written, the adapter's read guard refuses every model class, so every read raises (see "## Findings"). The MySQL read, the finders, `count` and the relation loads are modelled with the corrected guard, `Adapter.ReadGuard`. Likewise, the JIRA read as written calls `has_config`, which no adapter defines; `Jira.Read` models the corrected read.

Everything is a pure function over immutable values. Python dicts are ordered association lists (`Dicts.Dict`), because insertion order decides column order, conjunct order and query-string order. Exceptions are `Errors.Result` values. The per-class `_last_query` and the adapter's last query live in an explicit `SqlModel.World`.

Several things are inputs rather than computed:

- The MySQL driver (`MySql.Driver`): the column set of a table, and whether a statement succeeds (with its rows and last insert id) or raises an integrity error.
- The escaping functions of the driver library (`MySql.Escaper`).
- The HTTP response (`Jira.Server`).

## Model

| member | source | states |
|---|---|---|
| Model.Truthy | pyar/model.py:446 | Python `bool(v)`: false exactly for None, False, 0, the empty string, the empty list and the empty dict; a model instance is true |
| Model.SetIsNew | pyar/model.py:439-446 | only the flag changes, and it becomes Python `bool(value)` of the argument |
| Model.NewRecord | pyar/model.py:170-183 | class and `is_new` are as given; the origin is the given dict, or empty for a non-dict argument; a non-dict gives an empty record; any `_`-prefixed key makes construction fail, and a field-name error always names such a key; a built record is well-formed (`Model.WellFormed`) |
| Model.SetData | pyar/model.py:185-196 | a `_`-prefixed key anywhere in the data guarantees failure, and a field-name error always names a `_`-prefixed key; class, `is_new` and origin are never changed; a well-formed record stays well-formed |
| Model.SetEntriesAppend | pyar/model.py:193-196 | assigning fresh plain keys in order appends them to the field map in that order, without failure |
| Model.SetAttr | pyar/model.py:246-265 | a plain field is stored in the field map and nested models are untouched; a field whose class attribute is a model class holds a new instance of that class built from the value with the owner's current `is_new`, succeeds exactly when that construction does, and leaves the plain map; a `_` name never changes the field map; a non-class, non-None class attribute raises TypeError; the empty name raises IndexError; a well-formed record stays well-formed |
| Model.SetAttrFrame | pyar/model.py:255-263 | assigning one field leaves every other field and nested model as it was |
| Model.ClassLevel | pyar/model.py:255-258 | a class attribute read through an instance: `None` exactly when the class has no such attribute or declares it `None`, otherwise that class attribute |
| Model.GetAttr | pyar/model.py:267-276 | an instance attribute (nested model) wins; then a class attribute of that name shadows the field map, reading `None` when it is `None`; only without one does the plain field map answer, and an unset name reads `None` |
| Model.SetAttrGetAttr | pyar/model.py:246-276 | after a successful assignment the name reads the value when the class has no attribute of that name, the new nested instance for a model class, `None` for a class attribute that is `None`, and the class itself for a plain class |
| Model.DelAttr | pyar/model.py:278-288 | succeeds exactly when the name is a field or an instance attribute, otherwise AttributeError for that name; a field is removed from the map with the instance attributes untouched, else the instance attribute is removed with the map untouched; every other name keeps its field and attribute |
| Model.DelAttrThenGet | pyar/model.py:278-288 | after deleting from a well-formed record, the record stays well-formed and the name reads what the class gives: `None` when the class has no attribute of that name or it is `None` |
| Model.GetData | pyar/model.py:211-223 | without models, exactly the plain field map; with models, the keys are the plain keys plus the nested-model keys, and every entry comes from one of the two |
| Model.GetDataHasNested | pyar/model.py:220-221 | with models, every nested model appears under its own name |
| Model.GetDataAsWritten | pyar/model.py:218-223 | as written, the merged view becomes the record's own field map |
| Model.GetDataAsWrittenLeaks | pyar/model.py:218-223 | after one `get_data(True)`, `get_data(False)` returns a nested model that the plain map never held |
| Model.ToDict | pyar/model.py:232-244 | the keys are those of `get_data`, no value is a model instance, and plain values are unchanged |
| Model.ToDictNested | pyar/model.py:241-242 | each nested model is replaced by its own `to_dict`, recursively |
| Model.NewRecordRoundTrip | pyar/model.py:170-196 | building from a dict of plain fields yields that dict as both the field map and the origin, with no nested model; a field the class does not shadow reads its value, and a name outside the dict reads what the class gives (`None` when it has no attribute of that name) |
| Model.GetResource | pyar/model.py:448-457 | `_resource_` when set; otherwise the derived name holds no upper-case letter |
| Model.DerivedResourceOfWords | pyar/model.py:454-455 | a class name made of CamelCase words gets those words, lower-cased, joined by `_` (`ProjectUser` gives `project_user`) |
| Model.WordsOfConcat | pyar/model.py:455 | the `[A-Z][a-z]*` scan of a concatenation of CamelCase words finds exactly those words |
| Model.FindOneOf | pyar/model.py:358-365 | `None` exactly when nothing was found, else the first record |
| Model.Str | pyar/adapters/jira.py:42 | Python `str(v)`: a string is itself, `None` is `None`, and a non-negative integer is its decimal digits, which read back as the integer |
| Adapter.AddConfig | pyar/adapter.py:66-76 | the key reads the new value (a re-add replaces), every other key is unchanged, and keys stay distinct |
| Adapter.NewConfigStoresKwargs | pyar/adapter.py:58-64 | the constructor's config is exactly its keyword arguments |
| Adapter.NewConfig | pyar/adapter.py:58-64 | the config holds no key twice and has no more entries than there were keyword arguments |
| Adapter.GetConfig | pyar/adapter.py:78-88 | no key gives the whole map; a present key gives its value; an absent key is the config-key error |
| Adapter.AddThenGetConfig | pyar/adapter.py:66-88 | after adding, the key reads the value and every other key reads as before |
| Adapter.RmConfig | pyar/adapter.py:90-100 | succeeds exactly when the key is present, returns its value, removes it and keeps every other key; otherwise the config-key error |
| Adapter.AddThenRmConfig | pyar/adapter.py:66-100 | removing a just-added key returns the added value and restores every other key |
| Adapter.ClearConfig | pyar/adapter.py:102-107 | afterwards every key lookup is the config-key error |
| Adapter.CheckModelType | pyar/adapter.py:119-128 | accepts exactly model instances; anything else is ModelTypeException |
| Adapter.ReadGuardAsWritten | pyar/adapter.py:130-135 | as written, the read guard accepts only model instances |
| Adapter.ReadGuardAsWrittenRejectsClasses | pyar/adapter.py:127-128 | as written, every model class passed to `read` is refused |
| Adapter.ReadGuard | pyar/adapter.py:130-135 | corrected: `read` accepts exactly model classes and refuses anything else with ModelTypeException |
| Adapter.WriteGuard | pyar/adapter.py:137-156 | create, update and delete accept exactly model instances |
| Registry.AddAdapter | pyar/base.py:28-41 | a non-adapter is refused with AdapterTypeException; otherwise the name maps to the adapter and every other name is unchanged |
| Registry.GetAdapter | pyar/base.py:43-54 | succeeds exactly for a registered name and returns its adapter; otherwise AdapterNotExistsException for that name |
| Registry.AddThenGet | pyar/base.py:38-54 | after registering, the name gives the adapter and other names give what they gave before |
| Registry.ReRegisterReplaces | pyar/base.py:41 | registering a name twice keeps only the second adapter |
| Registry.DefaultSlot | pyar/base.py:29-54 | an adapter registered without a name is returned when asked without a name |
| MySql.Execute | pyar/adapters/mysql.py:72-91 | the statement becomes the last query whatever happens; an integrity error becomes the execute error with its detail; otherwise the cursor is returned |
| MySql.StartTransaction | pyar/adapters/mysql.py:244-249 | the last query is `START TRANSACTION`, which fails exactly when the driver refuses it |
| MySql.Commit | pyar/adapters/mysql.py:251-257 | the last query is `COMMIT` |
| MySql.Rollback | pyar/adapters/mysql.py:259-265 | the last query is `ROLLBACK` |
| MySql.InItems | pyar/adapters/mysql.py:187 | one escaped `str` text per list element, in order, unquoted |
| MySql.Condition | pyar/adapters/mysql.py:183-189 | every condition starts with `res.key `; a list gives `IN (v1,v2,...)`, anything else the placeholder `= :key` |
| MySql.InListRoundTrip | pyar/adapters/mysql.py:187 | the IN list splits at commas back into the escaped elements, when no element holds a comma |
| MySql.Conditions | pyar/adapters/mysql.py:183-189 | one condition per keyword filter, in filter order |
| MySql.BuildWhere | pyar/adapters/mysql.py:166-192 | empty exactly when there is no explicit condition and no filter; otherwise ` WHERE ` and the explicit condition and the filter conditions joined by ` AND ` |
| MySql.WherePartIsJoin | pyar/adapters/mysql.py:178-190 | the incremental construction equals one AND-join of all conjuncts |
| MySql.SelectQuery | pyar/adapters/mysql.py:132-152 | the statement starts with the SELECT head for the projection, DISTINCT and resource |
| MySql.SelectHead | pyar/adapters/mysql.py:133-145 | the default projection is `res.*`, and DISTINCT comes before the projection |
| MySql.SelectIgnoresOrder | pyar/adapters/mysql.py:94-152 | the ordering argument never changes the statement |
| MySql.SelectWithLimit | pyar/adapters/mysql.py:132-152 | with only a limit, the statement is `SELECT res.* FROM res LIMIT n` |
| MySql.FirstMatch | pyar/adapters/mysql.py:158-159 | the alternation picks the first parameter, in dictionary order, whose `:name` matches at that position, and none when no name matches |
| MySql.Substitute | pyar/adapters/mysql.py:156-159 | with no parameters, or in text without a colon, substitution leaves the text unchanged |
| MySql.SubstituteNoColon | pyar/adapters/mysql.py:156-159 | text without a colon passes substitution unchanged |
| MySql.SubstitutePlaceholder | pyar/adapters/mysql.py:158-159 | a placeholder that only its own name matches is replaced by that parameter's escaped value |
| MySql.SubstitutePrefix | pyar/adapters/mysql.py:158-159 | colon-free text ahead of the rest is copied as it is |
| MySql.SubstituteRender | pyar/adapters/mysql.py:156-159 | text made of colon-free pieces and `:name` placeholders, each naming a parameter, with no parameter name a proper prefix of another: every placeholder is replaced by its parameter's value and the rest is copied |
| MySql.PrefixFreeMatch | pyar/adapters/mysql.py:158 | when no parameter name is a proper prefix of another, only the placeholder's own name matches at `:name` |
| MySql.EscapeDict | pyar/adapters/mysql.py:157 | keys and order are kept and every value is escaped |
| MySql.EscapeDictGet | pyar/adapters/mysql.py:157 | a name looks up the escaped value of what it looked up before, and is absent exactly when it was |
| MySql.Bindings | pyar/adapters/mysql.py:154-157 | the bound names are those of the parameters merged with the keyword filters |
| MySql.MergedParam | pyar/adapters/mysql.py:154-157 | a name is bound to the escaped keyword filter of that name when there is one, otherwise to the escaped parameter, and is unbound when neither has it |
| MySql.ReadStatement | pyar/adapters/mysql.py:132-159 | with no parameters and no keyword filters, the statement is the raw query exactly as given, or else the SELECT template with no filter conditions, untouched by substitution |
| MySql.RawQueryFilled | pyar/adapters/mysql.py:132-159 | a raw query of colon-free text and placeholders, each naming a parameter or a keyword filter, with prefix-free merged names: every placeholder is bound, and the statement is the query with each placeholder replaced by its escaped bound value |
| MySql.RawQueryBypass | pyar/adapters/mysql.py:132 | with a raw query, no template argument reaches the statement |
| MySql.SingleFilterStatement | pyar/adapters/mysql.py:132-159 | one scalar filter with a limit of one gives `SELECT res.* FROM res WHERE res.key = <escaped value> LIMIT 1` |
| MySql.BoundConditionStatement | pyar/adapters/mysql.py:132-159 | a join and an explicit condition with one bound parameter give the SELECT with the join and the escaped value in place of the placeholder |
| MySql.Hydrate | pyar/adapters/mysql.py:161-162 | one record per row, in order, each of the class and not new; the read fails only if some row cannot become a record |
| MySql.Read | pyar/adapters/mysql.py:130-164 | under the corrected read guard (`Adapter.ReadGuard`): a non-class argument is refused with nothing executed; otherwise the built statement is the last query; when the driver answers with rows the result is `Hydrate` of exactly those rows (`model_cls(row, False)` per row, in order), and an integrity error is the execute error carrying its detail; every record read is of the class and not new |
| MySql.ModelData | pyar/adapters/mysql.py:233-242 | exactly the escaped plain fields whose names are columns; empty exactly when no field is a column (field order is stated by the three lemmas below) |
| MySql.ModelDataConcat | pyar/adapters/mysql.py:233-242 | the column data of front + back fields is the front's column data followed by the back's |
| MySql.ModelDataOne | pyar/adapters/mysql.py:233-242 | one field gives itself with its escaped value when it names a column, and nothing otherwise |
| MySql.ModelDataKeepsOrder | pyar/adapters/mysql.py:233-242 | two column fields keep their record order in the column data, each with its escaped value, between the column data of the fields around them |
| MySql.InsertStatement | pyar/adapters/mysql.py:281-285 | the statement is `INSERT INTO res (cols) VALUES (vals)`, where the column list and the value list are the comma-joined names and escaped values of the data, in the same order |
| MySql.InsertListsRoundTrip | pyar/adapters/mysql.py:281-285 | the column and value lists split back position by position into the filtered data, when nothing holds a comma |
| MySql.Assignments | pyar/adapters/mysql.py:306 | one `k = v` per filtered field, in order |
| MySql.UpdateStatement | pyar/adapters/mysql.py:304-309 | the statement is `UPDATE res SET` followed by the comma-joined `name = value` assignments of the data in order, and ends with ` WHERE pk = id`, a condition on the key alone |
| MySql.DeleteStatement | pyar/adapters/mysql.py:323-327 | the full `DELETE FROM res WHERE pk = id LIMIT 1` shape: between the `DELETE FROM res WHERE ` head and the ` LIMIT 1` tail stands exactly the key condition `pk = id` |
| MySql.IdText | pyar/adapters/mysql.py:323-327 | the escaped `str` of the record's key as getattr reads it: with no class attribute or instance attribute of the key's name, the escaped `str` of the stored key field (decimal digits for a non-negative integer), or of `None` when the key is unset |
| MySql.PkOf | pyar/sql_model.py:56-62 | `_pk_` when set, otherwise `id` |
| MySql.Create | pyar/adapters/mysql.py:267-288 | a non-instance is refused; no column field means "Nothing to insert." with the column lookup as last query and no INSERT; otherwise the INSERT of the filtered data is executed |
| MySql.Update | pyar/adapters/mysql.py:290-312 | as `create`, with "Nothing to update." and the UPDATE keyed by the primary key and the escaped id |
| MySql.Delete | pyar/adapters/mysql.py:314-330 | a non-instance is refused; otherwise the DELETE keyed by the primary key is executed |
| MySql.NothingToInsertIssuesNoInsert | pyar/adapters/mysql.py:276-279 | a record with no column field fails with "Nothing to insert." and the last query is the column lookup |
| SqlModel.Find | pyar/sql_model.py:75-122 | under the corrected read guard: the adapter's last query is the read statement; on success the class remembers it, on failure the class's last query is unchanged; the records are `Hydrate` of the rows the driver returned for that statement, and an integrity error is the execute error; every record is not new |
| SqlModel.FindOne | pyar/sql_model.py:163-208 | under the corrected read guard: `find` with a limit of one, returning its first record or `None` |
| SqlModel.FindOneLimitsToOne | pyar/sql_model.py:198 | whatever limit is passed, `find_one` issues the read with limit 1 |
| SqlModel.CountOptions | pyar/sql_model.py:150-158 | the projection is `COUNT(*) AS count_rows`, the limit is 1, and every other option is the caller's |
| SqlModel.Count | pyar/sql_model.py:124-161 | under the corrected read guard: the `count_rows` field of the one row, or 0 when no row comes back; fails exactly when the read fails |
| SqlModel.CountStatement | pyar/sql_model.py:150-161 | the caller's projection and limit never reach the statement |
| SqlModel.IdFilter | pyar/sql_model.py:218 | a list id filters as itself, anything else as its `str` |
| SqlModel.FindById | pyar/sql_model.py:210-218 | under the corrected read guard: the statement is the read filtered on the primary key alone, with the id's filter value and a limit of one row; the result is the first record hydrated from the returned rows, or `None` when no row comes back, and an integrity error is the execute error; a found record is not new |
| SqlModel.FindByIdIntegerStatement | pyar/sql_model.py:210-218 | an integer id reads `SELECT res.* FROM res WHERE res.pk = <escaped id text> LIMIT 1` |
| SqlModel.FindByQuery | pyar/sql_model.py:220-231 | under the corrected read guard: a raw query with no parameters runs as given; the records are `Hydrate` of the rows returned for the raw query's statement, and an integrity error is the execute error; every record is not new |
| SqlModel.Finish | pyar/sql_model.py:289-293 | the trail is kept and is closed by the closing statement exactly when transactional |
| SqlModel.Create | pyar/sql_model.py:259-294 | the record keeps its class, and a successful create leaves it not new |
| SqlModel.Inserted | pyar/sql_model.py:274-294 | the record is no longer new; on success the class's trail ends with the insert, then COMMIT when transactional |
| SqlModel.InsertedKey | pyar/sql_model.py:274-275 | after a successful insert, the primary-key field holds the insert id, and reading it gives the id unless a class attribute of that name hides it (then the class's value, `None` for a `None` attribute) |
| SqlModel.CreateSucceeds | pyar/sql_model.py:259-294 | a successful create returns true, clears `is_new`, stores the insert id in the key field (which reads it unless a class attribute of that name hides it), and stores the trail `START TRANSACTION; INSERT ...; COMMIT`, or the INSERT alone when not transactional |
| SqlModel.CreateFails | pyar/sql_model.py:278-287 | a failing create raises the execute error, leaves the record untouched, and stores the trail ending with the failing statement, then ROLLBACK when transactional |
| SqlModel.Fail | pyar/sql_model.py:319-328 | the same error is raised, the trail ends with the failing statement (then ROLLBACK when transactional) and becomes the class's last query |
| SqlModel.Settle | pyar/sql_model.py:315-335 | succeeds exactly when the cascade did; success stores the trail with COMMIT when transactional; an execute failure is handled as in the `except` block |
| SqlModel.UpdateRelations | pyar/sql_model.py:315-318 | a successful cascade only appends to the trail |
| SqlModel.UpdateSkipsNonModels | pyar/sql_model.py:244-250 | with no single-model relation, updating with relations is updating without them |
| SqlModel.UpdateCascadeTrail | pyar/sql_model.py:296-335 | with one related model, the trail is START, the UPDATE, the related class's own trail and COMMIT; if the related update fails, the trail is START, the UPDATE, the failing statement and ROLLBACK, and the same error is raised |
| SqlModel.UpdateSucceeds | pyar/sql_model.py:296-335 | with no related model to cascade to, a successful UPDATE returns true and stores the trail `START TRANSACTION; UPDATE ...; COMMIT`, or the UPDATE alone when not transactional |
| SqlModel.UpdateFails | pyar/sql_model.py:296-335 | with nothing to write or a rejected UPDATE, the execute error is raised and the trail ends with the failing statement (the column lookup or the UPDATE), then ROLLBACK when transactional |
| SqlModel.Update | pyar/sql_model.py:296-335 | a successful update records a last query for the class |
| SqlModel.Delete | pyar/sql_model.py:337-347 | a failing DELETE raises the execute error carrying the driver's detail, with the record and the class's last query unchanged; otherwise the DELETE is the class's last query, the connection commits and the record is new again; `del_attr(pk)` then removes the key field (from the field map, or else the nested models) with every other field, the class and the origin kept, and fails with AttributeError, the record only reset to new, exactly when there is no key field |
| SqlModel.DeleteThenGet | pyar/sql_model.py:344-347 | after a successful delete of a well-formed record, the record is new, still well-formed, and its key reads what the class gives (None unless the class declares it) |
| SqlModel.Save | pyar/model.py:388-396 | a new record is created; any other is updated, keeps its state, and the result and world are those of the update |
| SqlModel.SaveThenSaveUpdates | pyar/model.py:393-396 | after a successful save of a new record, saving again updates |
| Relations.RelationKey | pyar/sql_model.py:512-560 | an explicit relation key wins; otherwise has-many and has-one use the owner's key and belongs-to uses `<targetResource>_<targetPk>` |
| Relations.ForeignKey | pyar/sql_model.py:512-560 | an explicit foreign key wins; otherwise has-many and has-one use `<ownerResource>_<ownerPk>` and belongs-to uses the target's key |
| Relations.DefaultKeysPairUp | pyar/sql_model.py:512-560 | the defaults of a has-many from A to B and a belongs-to from B to A pair the same two columns, crosswise |
| Relations.RelationValue | pyar/sql_model.py:426-434 | the owner's relation-key attribute as `getattr` reads it, failing with RelationFieldNotExistsException exactly when it reads `None` |
| Relations.Extend | pyar/sql_model.py:453-465 | an unset option becomes the fragment; a set one is kept in front, followed by the separator; the fragment always ends the result |
| Relations.ThroughKeys | pyar/sql_model.py:443-471 | unset through-keys default to the target's key column, the target's key and the owner's key column |
| Relations.PrepareFilters | pyar/sql_model.py:436-479 | without a through hop, the foreign key is filtered on the value and the other filters are kept; with one, the LEFT JOIN and the `(thr.trk = :foreign_key)` condition are appended, `foreign_key` is bound to the value, and everything else is unchanged |
| Relations.Load | pyar/sql_model.py:495-566 | under the corrected read guard: a `None` relation value fails before any query; otherwise has-many yields exactly `find`'s records, and the other kinds `find_one`'s record or `None`, both on the prepared filters with `LoadOptions`, with the same world and the same error; every loaded record is not new |
| Relations.LoadOptions | pyar/sql_model.py:520-522 | every declared finder option is passed on except `having`, which is dropped |
| Relations.LoadIgnoresHaving | pyar/sql_model.py:520-566 | a relation's declared `having` never changes its load |
| Relations.LoadOneIgnoresLimit | pyar/sql_model.py:542-566 | a has-one or belongs-to load is the same whatever limit the relation declares |
| Relations.DirectLoadStatement | pyar/sql_model.py:529-566 | a plain belongs-to or has-one reads `SELECT t.* FROM t WHERE t.fk = <escaped value> LIMIT 1` |
| Relations.ThroughLoadStatement | pyar/sql_model.py:436-522 | a has-many-through reads the target LEFT JOINed to the join resource, filtered on `(thr.trk = <escaped value>)` |
| Relations.Resolve | pyar/sql_model.py:481-493 | a cached owner gets its cached value with no query; a successful load is cached for that owner only; a failed load caches nothing |
| Relations.ResolveOnce | pyar/sql_model.py:488-493 | after a successful load, resolving again for that owner gives the same value with no query |
| Relations.FailureNotCached | pyar/sql_model.py:488-493 | after a failed load, resolving again loads again |
| Jira.AddLastSlash | pyar/adapters/jira.py:46-54 | the result ends with `/` and extends the input; text already ending in `/` is unchanged, and anything else gains exactly one character |
| Jira.AddLastSlashIdempotent | pyar/adapters/jira.py:54 | adding the last slash twice is adding it once |
| Jira.HostText | pyar/adapters/jira.py:38 | a missing host is the config-key error, and a host that is not text is TypeError |
| Jira.BaseUrl | pyar/adapters/jira.py:37-39 | a leading `/` gives the resource minus that slash, plus a slash, with the host unused; otherwise host, slash, resource and a final slash |
| Jira.GetUrl | pyar/adapters/jira.py:28-44 | an empty resource is IndexError; no parameters add no `?`; otherwise `?` and the unencoded `key=value` pairs joined by `&` |
| Jira.QueryPairs | pyar/adapters/jira.py:42 | one `key=str(value)` per parameter, in order |
| Jira.LeadingSlashIgnoresHost | pyar/adapters/jira.py:38 | with a leading `/` the URL is the same under any configuration, even one without a host |
| Jira.RelativeUnderHost | pyar/adapters/jira.py:37-42 | without a leading `/` the URL starts with the host and a slash |
| Jira.QueryRoundTrip | pyar/adapters/jira.py:41-42 | the text after `?` splits at `&` back into the pairs, when no key or value holds `&` |
| Jira.Items | pyar/adapters/jira.py:99-103 | an object is one item, a list is its elements, and a non-iterable body is TypeError |
| Jira.HydrateItems | pyar/adapters/jira.py:103-104 | one record per item, in order; succeeds exactly when every item can become a record |
| Jira.ReadAsWritten | pyar/adapters/jira.py:82-85 | as written, every read fails: a missing `verify` setting is the config-key error, and otherwise the call to the undefined `has_config` is AttributeError |
| Jira.ReadAsWrittenFailsWhereReadSucceeds | pyar/adapters/jira.py:82-85 | wherever the corrected read succeeds, the read as written raises AttributeError on `has_config` |
| Jira.ReadAsWrittenWitness | pyar/adapters/jira.py:82-108 | a configured host and `verify`, resource `issue` and a server answering 200 with `[]`: the corrected read returns no records, the read as written raises AttributeError |
| Jira.Read | pyar/adapters/jira.py:75-108 | a missing `verify` setting fails first, then a configured user without a password; a URL error propagates; a status other than 200 raises the execute error carrying the status; a 200 response yields `HydrateItems` of the body's items (`model_cls(item, False)` per item, in order), or the items error of a body that cannot be iterated; every record read is of the class and not new |
| Jira.Credentials | pyar/adapters/jira.py:85-89 | succeeds exactly when both user and password are configured, failing on the first one missing |
| Jira.ObjectReadsAsList | pyar/adapters/jira.py:100-101 | a single JSON object is read exactly as a one-element list holding it |
| Jira.ListReadsEachItem | pyar/adapters/jira.py:103-104 | a list body gives one record per element, each with that element's fields as its origin |

## Left out

- The MySQL connection, cursors and `__del__` are left out: I/O. The column set and each statement's outcome are inputs. `SHOW COLUMNS` always succeeds.
- Driver exceptions other than `IntegrityError` are left out. They escape `execute` uncaught and nothing here handles them.
- `escape_string` and `escape_dict` of the driver library are opaque functions (`MySql.Escaper`): the library's code is not part of this model.
- `requests.get`, the `verify`/`auth` request arguments and JSON decoding are left out. The status code and the decoded body are inputs (`Jira.Server`). The credentials are only looked up.
- Jira.Read: models the corrected read, with `has_config` read as "the key is configured". As written, `has_config` is defined on no adapter class, so every read fails (see "## Findings", `Jira.ReadAsWritten`).
- The last result (`_last_result`, `get_last_result`, the JIRA last response) is left out: it is a cursor or response object with no logic of its own.
- Metaclass registration and `PyAR.add_model`/`get_model` are left out, as are string-named relation targets. They are replaced by the `Classes` table of class declarations.
- The relation cache is keyed by a number standing for `hash(owner)`. Python's object identity is not modelled.
- `get_data_models` of the SQL model (pyar/sql_model.py:237-250) reads each relation property, which loads it. `update` receives those loaded values as a `SqlModel.Node` tree rather than loading them itself.
- The class-level and shared mutable state is left out:
  - Mutable default arguments (`params=dict()`).
  - The descriptor's `joins`, `where` and `kwargs`, which accumulate across loads.
  - The through-keys written back into the descriptor.

  Each load starts from the declared options, so the cross-call accumulation is not reproduced.
- Regular-expression metacharacters in parameter names are left out: names are matched literally.
- The `str` of lists, dicts and model instances is approximate: string escaping inside `repr` is not modelled, and instances render without an address. Strings, integers, booleans and `None` are exact. Floats are not among the modelled values.
- The `get_resource(False)` call shape in the MySQL adapter, and the broken imports across revisions, are left out. The logic is modelled; the call signature and the import graph are not.
- The MySQL adapter's own `__check_model_type` is left out: it is name-mangled and never called.
- The demo script, the package wiring and the exception classes are left out; the exception classes become `Errors.Error`.
- List-valued filters are escaped but not quoted (pyar/adapters/mysql.py:187), and the model follows the code. Such an IN list holds valid SQL only for numeric members.
- Model.SetAttr: a non-class class attribute is always treated as raising TypeError. Python instead stores the value as a plain field when reading that attribute from the instance yields `None` (for example, a relation property that finds nothing).
- SqlModel.Create: the contract states only that the class is kept and that a successful create is not new. The full behaviour is stated by `SqlModel.CreateSucceeds` and `SqlModel.CreateFails`.
- SqlModel.Update: the contract states only that a successful update records a last query for the class. The trail is stated by `SqlModel.UpdateSucceeds` and `SqlModel.UpdateFails` without a cascade, and by `SqlModel.UpdateCascadeTrail` for one related model.
- SqlModel.UpdateRelations: the contract states only that a successful cascade extends the trail. The one-relation case is stated exactly by `SqlModel.UpdateCascadeTrail`.
- MySql.SelectQuery: the contract fixes only the SELECT head. The remaining clauses are stated by `MySql.SelectWithLimit`, `MySql.SingleFilterStatement` and `MySql.BoundConditionStatement` for the shapes the finders use.
- Model.GetResource: for a class name that is not a run of CamelCase words, the contract states only that the derived name holds no upper-case letter.
- Model.GetAttr: a class attribute other than a model class, a plain class or `None` reads as an opaque value (`VClassAttr`). Python would return the attribute itself, and a relation property would load the relation; relations are resolved by `Relations.Resolve` instead. Such an opaque value counts as true and is never `None`, so a falsy constant declared on the class is not modelled.
- Model.DelAttr: a `_`-named instance attribute that holds anything but a model is not kept by `setattr`. Reading it gives what the class gives, and deleting it raises AttributeError; Python keeps it, so reading returns it and deleting succeeds.
- Model.GetData: `get_data(True)` and `to_dict` of an SQL model go through that model's own `get_data_models` (pyar/sql_model.py:237-250), which reads the relation properties and so loads them, and ignores wrapped nested models. `Model.GetData` and `Model.ToDict` model the base version (pyar/model.py:198-244) only.
- One adapter: `SqlModel.World` holds a single MySQL adapter that serves the reads and the writes of every class. The per-class `_read_adapter_`/`_write_adapter_` names (pyar/model.py:312-348) and the AdapterNotExistsException of an unregistered name are not modelled. The `except` block of `update` reads the outer class's write adapter (pyar/sql_model.py:320-321); with one adapter this is the adapter the failing statement ran on.
- Keyword filters are always filters. In Python, a filter passed to a finder or declared on a relation under the name of a finder option (`query`, `limit`, ...) binds to that option instead.
- Integers are unbounded; Python's integers are too, so there is no wrap-around to model.

## Findings

| source | as written | input that shows it | evidently intended | confidence | as-written member | corrected member |
|---|---|---|---|---|---|---|
| pyar/model.py:218-223 | `get_data(True)` merges the nested models into the live field map, not into a copy | a `Project` whose `owner` field holds a nested `User`: after `get_data(True)`, `get_data(False)` (and so the INSERT/UPDATE column data) contains `owner` | return a merged copy and leave the field map alone | not executed | Model.GetDataAsWritten (Model.GetDataAsWrittenLeaks) | Model.GetData |
| pyar/adapters/jira.py:85 | `read` calls `self.has_config('user')`, but no adapter class defines `has_config`, so every read that gets past the `verify` lookup raises AttributeError | a `JiraAdapter` configured with a host and `verify`, reading resource `issue` from a server answering 200 with `[]` | test whether the `user` setting is configured, then request the URL | not executed | Jira.ReadAsWritten (Jira.ReadAsWrittenFailsWhereReadSucceeds, Jira.ReadAsWrittenWitness) | Jira.Read |
| pyar/adapter.py:127-128 | the read guard tests `isinstance(model_cls, IModel)`, but `find` passes the model class (pyar/model.py:356), so every read raises ModelTypeException | `User.find()` for any model class `User` | accept a model class in `read` | not executed | Adapter.ReadGuardAsWritten (Adapter.ReadGuardAsWrittenRejectsClasses) | Adapter.ReadGuard |

=== FILE: adapter.dfy ===
/** The adapter base (pyar/adapter.py): a key/value configuration store
    whose lookups fail loudly on a missing key, and the type guard every
    adapter operation runs before anything else. */
module Adapter {
  import opened Errors
  import opened Dicts
  import opened Model

  /** An adapter's configuration, in insertion order. */
  type Config = Dict<string, Value>

  /** `add_config(key, value)`: sets the key, replacing an earlier value in
      place. */
  function AddConfig(c: Config, key: string, value: Value): (r: Config)
    ensures Get(r, key) == Some(value)
    ensures forall k :: k != key ==> Get(r, k) == Get(c, k)
    ensures Distinct(c) ==> Distinct(r)
  {
    assert Distinct(c) ==> Distinct(Put(c, key, value)) by {
      if Distinct(c) { PutDistinct(c, key, value); }
    }
    Put(c, key, value)
  }

  /** The constructor: an empty configuration and then one `add_config`
      per keyword argument, in order. */
  function NewConfig(kwargs: Dict<string, Value>): (c: Config)
    ensures Distinct(c)
    ensures |c| <= |kwargs|
  {
    if kwargs == [] then []
    else
      var init := kwargs[..|kwargs| - 1];
      var last := kwargs[|kwargs| - 1];
      var prev := NewConfig(init);
      PutShape(prev, last.0, last.1);
      AddConfig(prev, last.0, last.1)
  }

  /** Keyword arguments never repeat a name, so the configuration the
      constructor builds is exactly the keyword arguments, in their order. */
  lemma {:induction false} NewConfigStoresKwargs(kwargs: Dict<string, Value>)
    requires Distinct(kwargs)
    ensures NewConfig(kwargs) == kwargs
  {
    if kwargs != [] {
      var init := kwargs[..|kwargs| - 1];
      var last := kwargs[|kwargs| - 1];
      assert kwargs == init + [last];
      assert Distinct(init);
      NewConfigStoresKwargs(init);
      assert !HasKey(init, last.0) by {
        forall j | 0 <= j < |init| ensures Keys(init)[j] != last.0 {
          assert init[j] == kwargs[j];
        }
      }
      PutShape(init, last.0, last.1);
    }
  }

  /** What `get_config` returns: the whole map when no key is given, else
      one value. */
  datatype ConfigView = Whole(entries: Config) | One(value: Value)

  /** `get_config(key)`: a missing key is a config-key error; no key at
      all returns the whole map. */
  function GetConfig(c: Config, key: Option<string>): (r: Result<ConfigView>)
    ensures key.None? ==> r == Ok(Whole(c))
    ensures key.Some? && HasKey(c, key.value) ==> r == Ok(One(Get(c, key.value).value))
    ensures key.Some? && !HasKey(c, key.value) ==> r == Err(AdapterConfigKey(key.value))
  {
    match key
    case None => Ok(Whole(c))
    case Some(k) =>
      match Get(c, k)
      case Some(v) => Ok(One(v))
      case None => Err(AdapterConfigKey(k))
  }

  /** Reading a key after setting it gives the value set. */
  lemma AddThenGetConfig(c: Config, key: string, value: Value, other: string)
    requires other != key
    ensures GetConfig(AddConfig(c, key, value), Some(key)) == Ok(One(value))
    ensures GetConfig(AddConfig(c, key, value), Some(other)) == GetConfig(c, Some(other))
  {
  }

  /** `rm_config(key)`: the removed value and the configuration without the
      key; a missing key is a config-key error. */
  function RmConfig(c: Config, key: string): (r: Result<(Config, Value)>)
    ensures r.Ok? <==> HasKey(c, key)
    ensures r.Ok? ==> Some(r.value.1) == Get(c, key) && !HasKey(r.value.0, key)
    ensures r.Ok? ==> forall k :: k != key ==> Get(r.value.0, k) == Get(c, k)
    ensures r.Err? ==> r.error == AdapterConfigKey(key)
  {
    match Get(c, key)
    case Some(v) => Ok((Remove(c, key), v))
    case None => Err(AdapterConfigKey(key))
  }

  /** Removing a key that was just added restores the other keys and hands
      back the added value. */
  lemma AddThenRmConfig(c: Config, key: string, value: Value)
    ensures RmConfig(AddConfig(c, key, value), key).Ok?
    ensures RmConfig(AddConfig(c, key, value), key).value.1 == value
    ensures forall k :: k != key ==> Get(RmConfig(AddConfig(c, key, value), key).value.0, k) == Get(c, k)
  {
  }

  /** `clear_config()`: afterwards every key lookup fails. */
  function ClearConfig(c: Config): (r: Config)
    ensures forall k :: GetConfig(r, Some(k)) == Err(AdapterConfigKey(k))
  {
    []
  }

  /** What an adapter operation can be handed: an instance of a model, a
      model class, or anything else. */
  datatype Arg = ModelInstance(rec: Record) | ModelClassObject(cls: string) | OtherObject

  /** The type guard as written: only an instance of a model passes. */
  function CheckModelType(a: Arg): (r: Result<Record>)
    ensures r.Ok? <==> a.ModelInstance?
    ensures r.Ok? ==> r.value == a.rec
    ensures r.Err? ==> r.error == ModelType
  {
    if a.ModelInstance? then Ok(a.rec) else Err(ModelType)
  }

  /** The guard `read` runs as written.  `find` hands `read` the model
      class itself, which is not an instance of a model. */
  function ReadGuardAsWritten(a: Arg): (r: Result<string>)
    ensures r.Err? ==> r.error == ModelType
    ensures r.Ok? ==> a.ModelInstance? && r.value == a.rec.cls
  {
    var rec :- CheckModelType(a);
    Ok(rec.cls)
  }

  /** Every read a model class issues is rejected by the guard as written. */
  lemma ReadGuardAsWrittenRejectsClasses(cls: string)
    ensures ReadGuardAsWritten(ModelClassObject(cls)) == Err(ModelType)
  {
  }

  /** The guard `read` evidently intends: a model class passes and
      anything else is a model-type error. */
  function ReadGuard(a: Arg): (r: Result<string>)
    ensures r.Ok? <==> a.ModelClassObject?
    ensures r.Ok? ==> r.value == a.cls
    ensures r.Err? ==> r.error == ModelType
  {
    if a.ModelClassObject? then Ok(a.cls) else Err(ModelType)
  }

  /** The guard of `create`, `update` and `delete`, which receive the
      instance. */
  function WriteGuard(a: Arg): (r: Result<Record>)
    ensures r.Ok? <==> a.ModelInstance?
    ensures r.Ok? ==> r.value == a.rec
    ensures r.Err? ==> r.error == ModelType
  {
    CheckModelType(a)
  }
}

=== FILE: dicts.dfy ===
/** Python dictionaries as insertion-ordered association lists.
    The order matters to the library: it decides the column order of an
    INSERT, the order of WHERE conjuncts and of URL query pairs.  A Python
    dict never holds a key twice; `Distinct` states that, and the operations
    below keep it. */
module Dicts {
  import opened Errors

  type Dict<K(==,!new), V(!new)> = seq<(K, V)>

  function Keys<K(==,!new), V(!new)>(d: Dict<K, V>): (ks: seq<K>)
    ensures |ks| == |d|
    ensures forall i :: 0 <= i < |d| ==> ks[i] == d[i].0
  {
    if d == [] then [] else [d[0].0] + Keys(d[1..])
  }

  function Values<K(==,!new), V(!new)>(d: Dict<K, V>): (vs: seq<V>)
    ensures |vs| == |d|
    ensures forall i :: 0 <= i < |d| ==> vs[i] == d[i].1
  {
    if d == [] then [] else [d[0].1] + Values(d[1..])
  }

  /** No key occurs twice. */
  predicate Distinct<K(==,!new), V(!new)>(d: Dict<K, V>) {
    forall i, j :: 0 <= i < j < |d| ==> d[i].0 != d[j].0
  }

  predicate HasKey<K(==,!new), V(!new)>(d: Dict<K, V>, k: K) {
    k in Keys(d)
  }

  /** `d[k]` if present (Python `d.get(k)`); the first entry wins, which is
      the only entry when `Distinct(d)`. */
  function Get<K(==,!new), V(!new)>(d: Dict<K, V>, k: K): (r: Option<V>)
    ensures r.Some? <==> HasKey(d, k)
    ensures r.Some? ==> (k, r.value) in d
  {
    if d == [] then None
    else if d[0].0 == k then Some(d[0].1)
    else
      assert Keys(d) == [d[0].0] + Keys(d[1..]);
      Get(d[1..], k)
  }

  /** `d[k] = v`: an existing key keeps its position, a new key goes last. */
  function Put<K(==,!new), V(!new)>(d: Dict<K, V>, k: K, v: V): (r: Dict<K, V>)
    ensures Get(r, k) == Some(v)
    ensures forall j :: j != k ==> Get(r, j) == Get(d, j)
  {
    if d == [] then [(k, v)]
    else if d[0].0 == k then [(k, v)] + d[1..]
    else
      var rest := Put(d[1..], k, v);
      var r := [d[0]] + rest;
      assert r[0] == d[0] && r[1..] == rest;
      r
  }

  /** The keys of `Put(d, k, v)`: those of `d` and `k`. */
  lemma PutHasKey<K(!new), V(!new)>(d: Dict<K, V>, k: K, v: V)
    ensures forall j :: HasKey(Put(d, k, v), j) <==> j == k || HasKey(d, j)
  {
    forall j ensures HasKey(Put(d, k, v), j) <==> j == k || HasKey(d, j) {
      assert Get(Put(d, k, v), j).Some? <==> HasKey(Put(d, k, v), j);
      assert Get(d, j).Some? <==> HasKey(d, j);
    }
  }

  /** The keys of `Remove(d, k)`: those of `d` but `k`. */
  lemma RemoveHasKey<K(!new), V(!new)>(d: Dict<K, V>, k: K)
    ensures forall j :: HasKey(Remove(d, k), j) <==> j != k && HasKey(d, j)
  {
    forall j ensures HasKey(Remove(d, k), j) <==> j != k && HasKey(d, j) {
      assert Get(Remove(d, k), j).Some? <==> HasKey(Remove(d, k), j);
      assert Get(d, j).Some? <==> HasKey(d, j);
    }
  }

  /** The keys of a dictionary with one more entry in front. */
  lemma KeysCons<K(!new), V(!new)>(x: (K, V), d: Dict<K, V>)
    ensures Keys([x] + d) == [x.0] + Keys(d)
  {
    assert ([x] + d)[1..] == d;
  }

  /** Where `Put` places the key: in its old slot, or appended at the end. */
  lemma PutShape<K(!new), V(!new)>(d: Dict<K, V>, k: K, v: V)
    ensures HasKey(d, k) ==> Keys(Put(d, k, v)) == Keys(d)
    ensures !HasKey(d, k) ==> Put(d, k, v) == d + [(k, v)]
  {
    if HasKey(d, k) { PutKeepsKeys(d, k, v); } else { PutAppends(d, k, v); }
  }

  /** Putting a present key leaves the key sequence as it was. */
  lemma {:induction false} PutKeepsKeys<K(!new), V(!new)>(d: Dict<K, V>, k: K, v: V)
    requires HasKey(d, k)
    ensures Keys(Put(d, k, v)) == Keys(d)
  {
    KeysCons(d[0], d[1..]);
    assert d == [d[0]] + d[1..];
    if d[0].0 == k {
      KeysCons((k, v), d[1..]);
    } else {
      var rest := Put(d[1..], k, v);
      PutKeepsKeys(d[1..], k, v);
      assert Put(d, k, v) == [d[0]] + rest;
      KeysCons(d[0], rest);
    }
  }

  /** Putting an absent key appends it. */
  lemma {:induction false} PutAppends<K(!new), V(!new)>(d: Dict<K, V>, k: K, v: V)
    requires !HasKey(d, k)
    ensures Put(d, k, v) == d + [(k, v)]
  {
    if d != [] {
      KeysCons(d[0], d[1..]);
      assert d == [d[0]] + d[1..];
      PutAppends(d[1..], k, v);
    }
  }

  /** `Put` keeps a dictionary free of repeated keys. */
  lemma PutDistinct<K(!new), V(!new)>(d: Dict<K, V>, k: K, v: V)
    requires Distinct(d)
    ensures Distinct(Put(d, k, v))
  {
    PutShape(d, k, v);
    var r := Put(d, k, v);
    if HasKey(d, k) {
      assert Keys(r) == Keys(d);
      forall i, j | 0 <= i < j < |r| ensures r[i].0 != r[j].0 {
        assert Keys(r)[i] == Keys(d)[i] && Keys(r)[j] == Keys(d)[j];
      }
    }
  }

  /** `del d[k]` / `d.pop(k)` without the error: every entry for `k` goes,
      the others keep their order. */
  function Remove<K(==,!new), V(!new)>(d: Dict<K, V>, k: K): (r: Dict<K, V>)
    ensures !HasKey(r, k)
    ensures forall j :: j != k ==> Get(r, j) == Get(d, j)
    ensures forall e :: e in r <==> e in d && e.0 != k
  {
    if d == [] then []
    else
      assert Keys(d) == [d[0].0] + Keys(d[1..]);
      var rest := Remove(d[1..], k);
      if d[0].0 == k then rest
      else
        assert Keys([d[0]] + rest) == [d[0].0] + Keys(rest);
        [d[0]] + rest
  }

  /** Python `d.update(e)`: the entries of `e` are put into `d` in order. */
  function Update<K(==,!new), V(!new)>(d: Dict<K, V>, e: Dict<K, V>): (r: Dict<K, V>)
    ensures forall k :: HasKey(r, k) <==> HasKey(d, k) || HasKey(e, k)
    ensures forall k :: !HasKey(e, k) ==> Get(r, k) == Get(d, k)
    ensures forall x :: x in r ==> x in d || x in e
    ensures Distinct(d) ==> Distinct(r)
    decreases |e|
  {
    if e == [] then d
    else
      var d' := Put(d, e[0].0, e[0].1);
      KeysCons(e[0], e[1..]);
      assert e == [e[0]] + e[1..];
      PutHasKey(d, e[0].0, e[0].1);
      PutEntries(d, e[0].0, e[0].1);
      if Distinct(d) then
        PutDistinct(d, e[0].0, e[0].1);
        Update(d', e[1..])
      else
        Update(d', e[1..])
  }

  /** The entries of `Put(d, k, v)` are those of `d` and the new pair. */
  lemma {:induction false} PutEntries<K(!new), V(!new)>(d: Dict<K, V>, k: K, v: V)
    ensures forall x :: x in Put(d, k, v) ==> x in d || x == (k, v)
  {
    if d != [] && d[0].0 != k {
      PutEntries(d[1..], k, v);
      assert Put(d, k, v) == [d[0]] + Put(d[1..], k, v);
    }
  }

  /** For a key that `e` holds once, `Update` takes the value from `e`. */
  lemma {:induction false} UpdateGet<K(!new), V(!new)>(d: Dict<K, V>, e: Dict<K, V>, k: K)
    requires Distinct(e)
    ensures Get(Update(d, e), k) == if HasKey(e, k) then Get(e, k) else Get(d, k)
    decreases |e|
  {
    if e != [] {
      assert Keys(e) == [e[0].0] + Keys(e[1..]);
      var d' := Put(d, e[0].0, e[0].1);
      assert Distinct(e[1..]);
      UpdateGet(d', e[1..], k);
      if e[0].0 == k {
        assert !HasKey(e[1..], k);
      }
    }
  }

  /** The entries whose key is in `keep`, in their original order (the
      Python comprehension `dict((k, v) for k, v in d.items() if k in keep)`);
      `RestrictConcat` and `RestrictOne` pin the order down. */
  function Restrict<K(==,!new), V(!new)>(d: Dict<K, V>, keep: set<K>): (r: Dict<K, V>)
    ensures forall x :: x in r <==> x in d && x.0 in keep
    ensures Distinct(d) ==> Distinct(r)
    ensures |r| <= |d|
    ensures (forall i :: 0 <= i < |d| ==> d[i].0 !in keep) <==> r == []
  {
    if d == [] then []
    else
      var rest := Restrict(d[1..], keep);
      ConsMembers(d);
      if d[0].0 in keep then
        assert Distinct(d) ==> forall x :: x in rest ==> x.0 != d[0].0 by {
          if Distinct(d) { HeadKeyFresh(d); }
        }
        [d[0]] + rest
      else rest
  }

  /** The entries of a nonempty dictionary are its head and its tail's. */
  /** Restricting a concatenation restricts each part in place: the kept
      entries of the front come before those of the back. */
  lemma {:induction false} RestrictConcat<K(!new), V(!new)>(a: Dict<K, V>, b: Dict<K, V>, keep: set<K>)
    ensures Restrict(a + b, keep) == Restrict(a, keep) + Restrict(b, keep)
  {
    if a == [] {
      assert a + b == b;
    } else {
      assert (a + b)[0] == a[0];
      assert (a + b)[1..] == a[1..] + b;
      RestrictConcat(a[1..], b, keep);
    }
  }

  /** A single entry is kept exactly when its key is. */
  lemma RestrictOne<K(!new), V(!new)>(x: (K, V), keep: set<K>)
    ensures Restrict([x], keep) == if x.0 in keep then [x] else []
  {
    assert [x][1..] == [];
  }

  lemma ConsMembers<K(!new), V(!new)>(d: Dict<K, V>)
    requires d != []
    ensures forall x :: x in d <==> x == d[0] || x in d[1..]
  {
    assert d == [d[0]] + d[1..];
  }

  /** In a dictionary without repeated keys, the head key is not used again. */
  lemma HeadKeyFresh<K(!new), V(!new)>(d: Dict<K, V>)
    requires d != [] && Distinct(d)
    ensures forall x :: x in d[1..] ==> x.0 != d[0].0
  {
    forall x | x in d[1..] ensures x.0 != d[0].0 {
      var j :| 0 <= j < |d[1..]| && d[1..][j] == x;
      assert d[j + 1] == x;
    }
  }
}

=== FILE: errors.dfy ===
/** The failure kinds the record layer raises, and the Option/Result wrappers
    that carry them.  Every Python exception the modelled code can raise is
    one constructor of `Error`; raising becomes returning `Err`. */
module Errors {

  datatype Option<+T> = None | Some(value: T)

  /** The exception taxonomy of the library plus the three Python built-in
      errors that the modelled code can raise on its own. */
  datatype Error =
    | AdapterType                          // a registered object is not an adapter
    | AdapterNotExists(name: Option<string>)
    | AdapterExecute(status: int)          // non-200 HTTP status from the REST reader
    | AdapterConfigKey(key: string)
    | ModelType                            // adapter called with something that is not a model
    | ModelFieldName(field: string)        // a data key starting with '_'
    | RelationFieldNotExists(field: string)
    | SqlAdapterExecute(detail: string)    // integrity error, or nothing to insert/update
    | IndexError                           // `key[0]` / `resource[0]` on an empty string
    | TypeError                            // `issubclass` on a non-class, iterating a scalar
    | AttributeError(attr: string)         // deleting an attribute that does not exist

  datatype Result<+T> = Ok(value: T) | Err(error: Error) {

    predicate IsFailure() {
      Err?
    }

    function PropagateFailure<U>(): Result<U>
      requires Err?
    {
      Err(error)
    }

    function Extract(): T
      requires Ok?
    {
      value
    }
  }
}

=== FILE: jira.dfy ===
/** The JIRA reader adapter (pyar/adapters/jira.py): the request URL built
    from the configured host, the resource and the query parameters, and
    the records read back from the response.

    The HTTP request is a parameter: a server that answers a URL with a
    status code and an already decoded JSON body. */
module Jira {
  import opened Errors
  import opened Strings
  import opened Dicts
  import opened Model
  import opened Adapter

  /** `__add_last_slash(url)`: a slash is appended unless the text already
      ends with one (the empty text gets one). */
  function AddLastSlash(url: string): (r: string)
    ensures |r| > 0 && r[|r| - 1] == '/'
    ensures IsPrefix(url, r)
    ensures url != [] && url[|url| - 1] == '/' ==> r == url
    ensures (url == [] || url[|url| - 1] != '/') ==> |r| == |url| + 1
  {
    if url != [] && url[|url| - 1] == '/' then url
    else
      assert (url + "/")[..|url|] == url;
      url + "/"
  }

  /** Adding the last slash twice is adding it once. */
  lemma AddLastSlashIdempotent(url: string)
    ensures AddLastSlash(AddLastSlash(url)) == AddLastSlash(url)
  {
  }

  /** The configured host as text: a missing host is a config-key error and
      anything but a string cannot be sliced and extended. */
  function HostText(c: Config): (r: Result<string>)
    ensures !HasKey(c, "host") ==> r == Err(AdapterConfigKey("host"))
    ensures HasKey(c, "host") && Get(c, "host").value.VStr? ==> r == Ok(Get(c, "host").value.s)
    ensures HasKey(c, "host") && !Get(c, "host").value.VStr? ==> r == Err(TypeError)
  {
    var view :- GetConfig(c, Some("host"));
    match view
    case One(VStr(s)) => Ok(s)
    case _ => Err(TypeError)
  }

  /** The `key=value` pairs of the query, in parameter order, unencoded. */
  function QueryPairs(params: Dict<string, Value>): (r: seq<string>)
    ensures |r| == |params|
    ensures forall i :: 0 <= i < |params| ==> r[i] == params[i].0 + "=" + Str(params[i].1)
  {
    if params == [] then [] else [params[0].0 + "=" + Str(params[0].1)] + QueryPairs(params[1..])
  }

  /** The URL without its query: a resource without a leading slash goes
      under the host; one with a leading slash stands alone, minus that
      slash.  Either way it ends with a slash. */
  function BaseUrl(c: Config, resource: string): (r: Result<string>)
    requires resource != []
    ensures resource[0] == '/' ==> r == Ok(AddLastSlash(resource[1..]))
    ensures resource[0] != '/' ==> (r.Ok? <==> HostText(c).Ok?)
    ensures resource[0] != '/' && r.Ok? ==> r.value == AddLastSlash(AddLastSlash(HostText(c).value) + resource)
    ensures resource[0] != '/' && r.Err? ==> r.error == HostText(c).error
  {
    if resource[0] != '/' then
      var host :- HostText(c);
      Ok(AddLastSlash(AddLastSlash(host) + resource))
    else Ok(AddLastSlash(resource[1..]))
  }

  /** `get_url(resource, params)`: an empty resource cannot be indexed;
      otherwise the base URL and, when there are parameters, `?` and the
      pairs joined by `&`. */
  function GetUrl(c: Config, resource: string, params: Dict<string, Value>): (r: Result<string>)
    ensures resource == [] ==> r == Err(IndexError)
    ensures resource != [] ==> (r.Ok? <==> BaseUrl(c, resource).Ok?)
    ensures r.Ok? && params == [] ==> r.value == BaseUrl(c, resource).value
    ensures r.Ok? && params != [] ==> r.value == BaseUrl(c, resource).value + "?" + Join("&", QueryPairs(params))
  {
    if resource == [] then Err(IndexError)
    else
      var base :- BaseUrl(c, resource);
      if |params| > 0 then Ok(base + "?" + Join("&", QueryPairs(params))) else Ok(base)
  }

  /** A resource with a leading slash does not use the host: the URL is the
      same under any configuration, even one without a host. */
  lemma LeadingSlashIgnoresHost(c: Config, other: Config, resource: string, params: Dict<string, Value>)
    requires resource != [] && resource[0] == '/'
    ensures GetUrl(c, resource, params) == GetUrl(other, resource, params)
    ensures GetUrl(c, resource, params).Ok?
  {
  }

  /** A resource without a leading slash lies under the host: the URL starts
      with the host and a slash. */
  lemma RelativeUnderHost(c: Config, resource: string, params: Dict<string, Value>)
    requires resource != [] && resource[0] != '/'
    requires GetUrl(c, resource, params).Ok?
    ensures IsPrefix(AddLastSlash(HostText(c).value), GetUrl(c, resource, params).value)
  {
    BaseUnderHost(c, resource);
    if params != [] {
      QueryExtends(AddLastSlash(HostText(c).value), BaseUrl(c, resource).value, Join("&", QueryPairs(params)));
    }
  }

  /** The base URL of a relative resource starts with the host and a slash. */
  lemma BaseUnderHost(c: Config, resource: string)
    requires resource != [] && resource[0] != '/' && HostText(c).Ok?
    ensures IsPrefix(AddLastSlash(HostText(c).value), BaseUrl(c, resource).value)
  {
    var host := AddLastSlash(HostText(c).value);
    PrefixOfConcat(host, resource);
    PrefixTrans(host, host + resource, BaseUrl(c, resource).value);
  }

  /** Appending a query keeps every prefix of the base. */
  lemma QueryExtends(p: string, base: string, q: string)
    requires IsPrefix(p, base)
    ensures IsPrefix(p, base + "?" + q)
  {
    PrefixOfConcat(base, "?" + q);
    assert base + "?" + q == base + ("?" + q);
    PrefixTrans(p, base, base + "?" + q);
  }

  /** The query follows the base URL and its `?`. */
  lemma QueryTail(base: string, q: string)
    ensures IsPrefix(base + "?", base + "?" + q) && (base + "?" + q)[|base| + 1..] == q
  {
    assert (base + "?" + q)[..|base| + 1] == base + "?";
  }

  /** No pair holds an `&` when no key or value does. */
  lemma PairsFreeOf(params: Dict<string, Value>)
    requires forall i :: 0 <= i < |params| ==> '&' !in params[i].0 && '&' !in Str(params[i].1)
    ensures forall i :: 0 <= i < |QueryPairs(params)| ==> '&' !in QueryPairs(params)[i]
  {
    var pairs := QueryPairs(params);
    forall i | 0 <= i < |pairs| ensures '&' !in pairs[i] {
      assert pairs[i] == params[i].0 + "=" + Str(params[i].1);
    }
  }

  /** The query can be read back: when no key or value holds `&`, the text
      after `?` splits at `&` into the `key=value` pairs, in order. */
  lemma QueryRoundTrip(c: Config, resource: string, params: Dict<string, Value>)
    requires params != [] && GetUrl(c, resource, params).Ok?
    requires forall i :: 0 <= i < |params| ==> '&' !in params[i].0 && '&' !in Str(params[i].1)
    ensures var base := BaseUrl(c, resource).value;
            var url := GetUrl(c, resource, params).value;
            && IsPrefix(base + "?", url)
            && Split(url[|base| + 1..], '&') == QueryPairs(params)
  {
    var base := BaseUrl(c, resource).value;
    var pairs := QueryPairs(params);
    QueryTail(base, Join("&", pairs));
    PairsFreeOf(params);
    SplitJoin('&', pairs);
  }

  /** The HTTP side of a read: for a URL, the status code and the decoded
      JSON body. */
  datatype Server = Server(status: string -> int, body: string -> Value)

  /** The items of a decoded body: an object stands for itself, a list for
      its elements; iterating a string yields its characters, and anything
      else cannot be iterated. */
  function Items(body: Value): (r: Result<seq<Value>>)
    ensures body.VDict? ==> r == Ok([body])
    ensures body.VList? ==> r == Ok(body.items)
    ensures body.VStr? ==> r.Ok? && |r.value| == |body.s|
    ensures r.Err? <==> !(body.VDict? || body.VList? || body.VStr?)
    ensures r.Err? ==> r.error == TypeError
  {
    match body
    case VDict(_) => Ok([body])
    case VList(items) => Ok(items)
    case VStr(s) => Ok(Chars(s))
    case _ => Err(TypeError)
  }

  /** The characters of a string, each as a one-character string. */
  function Chars(s: string): (r: seq<Value>)
    ensures |r| == |s|
    ensures forall i :: 0 <= i < |s| ==> r[i] == VStr([s[i]])
  {
    if s == [] then [] else [VStr([s[0]])] + Chars(s[1..])
  }

  /** `model_cls(item, False)` for every item, in order; the first item
      that cannot become a record fails the read. */
  function HydrateItems(classes: Classes, cls: string, items: seq<Value>): (r: Result<seq<Record>>)
    ensures r.Ok? ==> |r.value| == |items|
    ensures r.Ok? ==> forall i :: 0 <= i < |items| ==> Ok(r.value[i]) == NewRecord(classes, cls, items[i], false)
    ensures r.Ok? <==> forall i :: 0 <= i < |items| ==> NewRecord(classes, cls, items[i], false).Ok?
  {
    if items == [] then Ok([])
    else
      var first := NewRecord(classes, cls, items[0], false);
      var rest := HydrateItems(classes, cls, items[1..]);
      AllItemsSplit(classes, cls, items);
      if first.Err? then Err(first.error)
      else
        match rest
        case Err(e) => Err(e)
        case Ok(recs) => Ok([first.value] + recs)
  }

  /** Every item can become a record exactly when the first can and every
      later one can. */
  lemma AllItemsSplit(classes: Classes, cls: string, items: seq<Value>)
    requires items != []
    ensures (forall i :: 0 <= i < |items| ==> NewRecord(classes, cls, items[i], false).Ok?)
            <==> NewRecord(classes, cls, items[0], false).Ok?
                 && forall i :: 0 <= i < |items| - 1 ==> NewRecord(classes, cls, items[1..][i], false).Ok?
  {
    if forall i :: 0 <= i < |items| ==> NewRecord(classes, cls, items[i], false).Ok? {
      forall j | 0 <= j < |items| - 1 ensures NewRecord(classes, cls, items[1..][j], false).Ok? {
        assert items[1..][j] == items[j + 1];
      }
    }
    if forall j :: 0 <= j < |items| - 1 ==> NewRecord(classes, cls, items[1..][j], false).Ok? {
      forall i | 1 <= i < |items| ensures NewRecord(classes, cls, items[i], false).Ok? {
        assert items[i] == items[1..][i - 1];
      }
    }
  }

  /** `read(model_cls, **kwargs)`: the `verify` setting and, when a user is
      configured, the credentials are looked up; then the URL is requested;
      a status other than 200 is an execute error carrying the status, and
      otherwise every item of the body becomes a record that is not new. */
  function Read(classes: Classes, c: Config, server: Server, cls: string, kwargs: Dict<string, Value>): (r: Result<seq<Record>>)
    ensures !HasKey(c, "verify") ==> r == Err(AdapterConfigKey("verify"))
    ensures r.Ok? ==> GetUrl(c, ResourceOf(classes, cls), kwargs).Ok?
    ensures r.Ok? ==> server.status(GetUrl(c, ResourceOf(classes, cls), kwargs).value) == 200
    ensures HasKey(c, "verify") && (HasKey(c, "user") ==> HasKey(c, "passwd")) && GetUrl(c, ResourceOf(classes, cls), kwargs).Ok? ==>
              var status := server.status(GetUrl(c, ResourceOf(classes, cls), kwargs).value);
              status != 200 ==> r == Err(AdapterExecute(status))
    ensures HasKey(c, "verify") && HasKey(c, "user") && !HasKey(c, "passwd") ==> r == Err(AdapterConfigKey("passwd"))
    ensures HasKey(c, "verify") && (HasKey(c, "user") ==> HasKey(c, "passwd")) && GetUrl(c, ResourceOf(classes, cls), kwargs).Err? ==>
              r == Err(GetUrl(c, ResourceOf(classes, cls), kwargs).error)
    ensures HasKey(c, "verify") && (HasKey(c, "user") ==> HasKey(c, "passwd")) && GetUrl(c, ResourceOf(classes, cls), kwargs).Ok? ==>
              var url := GetUrl(c, ResourceOf(classes, cls), kwargs).value;
              && (server.status(url) == 200 && Items(server.body(url)).Ok? ==>
                    r == HydrateItems(classes, cls, Items(server.body(url)).value))
              && (server.status(url) == 200 && Items(server.body(url)).Err? ==>
                    r == Err(Items(server.body(url)).error))
    ensures r.Ok? ==> forall i :: 0 <= i < |r.value| ==> r.value[i].cls == cls && !r.value[i].isNew
  {
    var _ :- GetConfig(c, Some("verify"));
    var _ :- if HasKey(c, "user") then Credentials(c) else Ok(One(VNone));
    var url :- GetUrl(c, ResourceOf(classes, cls), kwargs);
    var status := server.status(url);
    if status != 200 then Err(AdapterExecute(status))
    else
      var items :- Items(server.body(url));
      HydrateItems(classes, cls, items)
  }

  /** `read` as written: after the `verify` lookup it calls `has_config`,
      which no adapter class defines, so the attribute lookup fails before
      any request is made. */
  function ReadAsWritten(classes: Classes, c: Config, server: Server, cls: string, kwargs: Dict<string, Value>): (r: Result<seq<Record>>)
    ensures r.Err?
    ensures !HasKey(c, "verify") ==> r.error == AdapterConfigKey("verify")
    ensures HasKey(c, "verify") ==> r.error == AttributeError("has_config")
  {
    var _ :- GetConfig(c, Some("verify"));
    Err(AttributeError("has_config"))
  }

  /** Whenever the corrected read succeeds, the read as written has failed
      on the missing `has_config`. */
  lemma ReadAsWrittenFailsWhereReadSucceeds(classes: Classes, c: Config, server: Server, cls: string, kwargs: Dict<string, Value>)
    requires Read(classes, c, server, cls, kwargs).Ok?
    ensures ReadAsWritten(classes, c, server, cls, kwargs) == Err(AttributeError("has_config"))
  {
  }

  /** A concrete read that shows the difference: a configured host and
      `verify`, a resource `issue` and a server answering 200 with an empty
      list.  The corrected read returns no records; as written the read
      raises AttributeError. */
  lemma ReadAsWrittenWitness()
    ensures var classes := map["Issue" := ClassDecl(map[], Some("issue"), None)];
            var c := [("host", VStr("https://jira/")), ("verify", VBool(false))];
            var server := Server(_ => 200, _ => VList([]));
            && Read(classes, c, server, "Issue", []) == Ok([])
            && ReadAsWritten(classes, c, server, "Issue", []) == Err(AttributeError("has_config"))
  {
    var classes := map["Issue" := ClassDecl(map[], Some("issue"), None)];
    var c := [("host", VStr("https://jira/")), ("verify", VBool(false))];
    assert HasKey(c, "verify") && HasKey(c, "host") && !HasKey(c, "user") by {
      assert Keys(c) == ["host", "verify"];
    }
    assert ResourceOf(classes, "Issue") == "issue";
    assert HostText(c) == Ok("https://jira/");
    assert AddLastSlash("https://jira/") == "https://jira/";
    assert "https://jira/" + "issue" == "https://jira/issue";
    var url := "https://jira/issue";
    assert url[|url| - 1] == 'e';
    assert AddLastSlash(url) == "https://jira/issue/";
    assert BaseUrl(c, "issue") == Ok("https://jira/issue/");
    assert GetUrl(c, "issue", []) == Ok("https://jira/issue/");
  }

  /** The credentials lookup: the user, then the password. */
  function Credentials(c: Config): (r: Result<ConfigView>)
    ensures r.Ok? <==> HasKey(c, "user") && HasKey(c, "passwd")
    ensures !HasKey(c, "user") ==> r == Err(AdapterConfigKey("user"))
    ensures HasKey(c, "user") && !HasKey(c, "passwd") ==> r == Err(AdapterConfigKey("passwd"))
  {
    var _ :- GetConfig(c, Some("user"));
    GetConfig(c, Some("passwd"))
  }

  /** A single JSON object is read exactly as a list holding it. */
  lemma ObjectReadsAsList(classes: Classes, c: Config, server: Server, other: Server, cls: string, kwargs: Dict<string, Value>)
    requires GetUrl(c, ResourceOf(classes, cls), kwargs).Ok?
    requires var url := GetUrl(c, ResourceOf(classes, cls), kwargs).value;
             && server.body(url).VDict?
             && other.status(url) == server.status(url)
             && other.body(url) == VList([server.body(url)])
    ensures Read(classes, c, server, cls, kwargs) == Read(classes, c, other, cls, kwargs)
  {
  }

  /** A successful read of a list body yields one record per element, each
      holding that element's fields as its origin. */
  lemma ListReadsEachItem(classes: Classes, c: Config, server: Server, cls: string, kwargs: Dict<string, Value>)
    requires Read(classes, c, server, cls, kwargs).Ok?
    requires server.body(GetUrl(c, ResourceOf(classes, cls), kwargs).value).VList?
    ensures var items := server.body(GetUrl(c, ResourceOf(classes, cls), kwargs).value).items;
            var recs := Read(classes, c, server, cls, kwargs).value;
            && |recs| == |items|
            && forall i :: 0 <= i < |items| ==> recs[i].origin == if items[i].VDict? then items[i].entries else []
  {
    var items := server.body(GetUrl(c, ResourceOf(classes, cls), kwargs).value).items;
    var recs := Read(classes, c, server, cls, kwargs).value;
    assert HydrateItems(classes, cls, items) == Ok(recs);
    forall i | 0 <= i < |items|
      ensures recs[i].origin == if items[i].VDict? then items[i].entries else []
    {
      assert Ok(recs[i]) == NewRecord(classes, cls, items[i], false);
    }
  }
}

=== FILE: model.dfy ===
/** Record state of an active-record model instance (pyar/model.py):
    the plain field map, the nested model instances created when a field's
    class attribute is a model class, the origin snapshot and the `is_new`
    flag, together with the dictionary views and the resource-name rule.

    A Python model class is described by a `ClassDecl`: what each public
    class attribute is (only its kind matters to attribute assignment), the
    `_resource_` override and the `_pk_` override.  Classes are referred to
    by name through a `Classes` table. */
module Model {
  import opened Errors
  import opened Strings
  import opened Dicts

  /** The values a field can hold. */
  datatype Value =
    | VNone
    | VBool(b: bool)
    | VInt(i: int)
    | VStr(s: string)
    | VList(items: seq<Value>)
    | VDict(entries: seq<(string, Value)>)
    | VModel(rec: Record)
    | VClassAttr(attr: ClassAttr)  // a class attribute read through an instance

  /** One model instance.  `data` is the private field map, `nested` the
      instance attributes that hold model instances (what `get_data_models`
      collects), `origin` the dictionary given to the constructor. */
  datatype Record = Record(
    cls: string,
    isNew: bool,
    origin: seq<(string, Value)>,
    data: seq<(string, Value)>,
    nested: seq<(string, Record)>)

  /** What a class attribute of the same name as a field is. */
  datatype ClassAttr =
    | ModelClass(name: string)  // a model class: assignment wraps the value
    | NoneAttr                  // an attribute whose value is None
    | PlainClass                // a class that is not a model class
    | OtherAttr                 // any other value: a method, a descriptor, a constant

  datatype ClassDecl = ClassDecl(
    attrs: map<string, ClassAttr>,
    resource: Option<string>,   // `_resource_`
    pk: Option<string>)         // `_pk_`

  type Classes = map<string, ClassDecl>

  /** A field name is reserved when it starts with '_'. */
  predicate Reserved(key: string) {
    |key| > 0 && key[0] == '_'
  }

  function AttrOf(classes: Classes, cls: string, key: string): Option<ClassAttr> {
    if cls in classes && key in classes[cls].attrs then Some(classes[cls].attrs[key]) else None
  }

  /** The values Python counts as false: None, False, zero, and the empty
      string, list and dict. */
  const Falsy: set<Value> := {VNone, VBool(false), VInt(0), VStr(""), VList([]), VDict([]), VClassAttr(NoneAttr)}

  /** Python truthiness, which `set_is_new` applies through `bool(value)`.
      A model instance defines neither `__bool__` nor `__len__`, so it is true. */
  function Truthy(v: Value): (b: bool)
    ensures !b <==> v in Falsy
  {
    match v
    case VNone => false
    case VBool(b) => b
    case VInt(i) => i != 0
    case VStr(s) => s != ""
    case VList(items) => items != []
    case VDict(entries) => entries != []
    case VModel(_) => true
    case VClassAttr(a) => !a.NoneAttr?
  }

  /** `set_is_new(value)`: only the flag changes, and it is stored as a bool. */
  function SetIsNew(rec: Record, value: Value): (r: Record)
    ensures r.isNew <==> Truthy(value)
    ensures r.(isNew := rec.isNew) == rec
  {
    rec.(isNew := Truthy(value))
  }

  /** The state a partial `set_data` leaves: the record after the keys that
      were assigned, and the exception that stopped it, if any. */
  datatype Assigned = Assigned(rec: Record, failure: Option<Error>)

  /** The model entries of `nested`, as values. */
  function ModelEntries(nested: seq<(string, Record)>): (d: seq<(string, Value)>)
    ensures Keys(d) == Keys(nested)
    ensures forall i :: 0 <= i < |d| ==> d[i] == (nested[i].0, VModel(nested[i].1))
  {
    if nested == [] then [] else [(nested[0].0, VModel(nested[0].1))] + ModelEntries(nested[1..])
  }

  /** `Model(data, is_new)`: the origin is the given dictionary and its
      entries are assigned one by one; any other argument gives an empty
      record.  Nested construction uses the same rule, so one call can build
      a whole tree of records. */
  function NewRecord(classes: Classes, cls: string, data: Value, isNew: bool): (r: Result<Record>)
    ensures r.Ok? ==> r.value.cls == cls && r.value.isNew == isNew
    ensures r.Ok? ==> r.value.origin == if data.VDict? then data.entries else []
    ensures !data.VDict? ==> r == Ok(Record(cls, isNew, [], [], []))
    ensures data.VDict? && (exists e :: e in data.entries && Reserved(e.0)) ==> r.Err?
    ensures r.Err? && r.error.ModelFieldName? ==> Reserved(r.error.field)
    ensures r.Ok? ==> WellFormed(classes, r.value)
    decreases data, 1
  {
    if data.VDict? then
      var a := SetEntries(classes, Record(cls, isNew, data.entries, [], []), data, data.entries);
      if a.failure.Some? then Err(a.failure.value) else Ok(a.rec)
    else
      Ok(Record(cls, isNew, [], [], []))
  }

  /** The loop of `set_data` over the entries `es` of the dictionary `p`. */
  function SetEntries(classes: Classes, rec: Record, ghost p: Value, es: seq<(string, Value)>): (a: Assigned)
    requires p.VDict? && forall e :: e in es ==> e in p.entries
    ensures a.rec.cls == rec.cls && a.rec.isNew == rec.isNew && a.rec.origin == rec.origin
    ensures (exists e :: e in es && (e.0 == "" || Reserved(e.0))) ==> a.failure.Some?
    ensures a.failure.Some? && a.failure.value.ModelFieldName? ==> Reserved(a.failure.value.field)
    ensures WellFormed(classes, rec) ==> WellFormed(classes, a.rec)
    decreases p, 0, |es|
  {
    if es == [] then Assigned(rec, None)
    else
      var key := es[0].0;
      assert forall e :: e in es ==> e == es[0] || e in es[1..];
      if key == "" then Assigned(rec, Some(IndexError))
      else if key[0] == '_' then Assigned(rec, Some(ModelFieldName(key)))
      else
        assert es[0].1 < p by {
          assert es[0] in p.entries;
          var j :| 0 <= j < |p.entries| && p.entries[j] == es[0];
        }
        match SetAttr(classes, rec, key, es[0].1)
        case Err(e) => Assigned(rec, Some(e))
        case Ok(r) => SetEntries(classes, r, p, es[1..])
  }

  /** `set_data(data)`: assigns the entries in order and stops at the first
      key that is empty (IndexError), reserved (field-name error) or whose
      assignment fails; the keys before it stay assigned. */
  function SetData(classes: Classes, rec: Record, d: seq<(string, Value)>): (a: Assigned)
    ensures a.rec.cls == rec.cls && a.rec.isNew == rec.isNew && a.rec.origin == rec.origin
    ensures (exists e :: e in d && Reserved(e.0)) ==> a.failure.Some?
    ensures a.failure.Some? && a.failure.value.ModelFieldName? ==> Reserved(a.failure.value.field)
    ensures WellFormed(classes, rec) ==> WellFormed(classes, a.rec)
  {
    SetEntries(classes, rec, VDict(d), d)
  }

  /** `setattr(record, key, value)`.  A reserved name becomes a private
      instance attribute, which counts as a nested model only when it holds
      one.  A field whose class attribute is a model class receives a new
      instance of that class built from the value with the owner's current
      `is_new`, and leaves the plain map.  A class attribute that is some
      other non-None value makes `issubclass` raise.  Anything else is stored
      in the plain map. */
  function SetAttr(classes: Classes, rec: Record, key: string, value: Value): (r: Result<Record>)
    ensures key == "" ==> r == Err(IndexError)
    ensures r.Err? && r.error.ModelFieldName? ==> Reserved(r.error.field)
    ensures r.Ok? ==> r.value.cls == rec.cls && r.value.isNew == rec.isNew && r.value.origin == rec.origin
    ensures Reserved(key) ==> r.Ok? && r.value.data == rec.data
    ensures StoresPlain(classes, rec.cls, key) ==>
              r.Ok? && Get(r.value.data, key) == Some(value) && r.value.nested == rec.nested
    ensures Wraps(classes, rec.cls, key) ==>
              var inner := NewRecord(classes, AttrOf(classes, rec.cls, key).value.name, value, rec.isNew);
              && (r.Ok? <==> inner.Ok?)
              && (r.Ok? ==> Get(r.value.nested, key) == Some(inner.value) && !HasKey(r.value.data, key))
    ensures key != "" && !Reserved(key) && AttrOf(classes, rec.cls, key) == Some(OtherAttr) ==> r == Err(TypeError)
    ensures r.Ok? && WellFormed(classes, rec) ==> WellFormed(classes, r.value)
    decreases value, 2
  {
    if key == "" then Err(IndexError)
    else if key[0] == '_' then
      if value.VModel? then
        ShapeNestedPut(classes, rec, key, value.rec);
        Ok(rec.(nested := Put(rec.nested, key, value.rec)))
      else
        ShapeNestedRemove(classes, rec, key);
        Ok(rec.(nested := Remove(rec.nested, key)))
    else
      match AttrOf(classes, rec.cls, key)
      case Some(ModelClass(c)) =>
        var inner := NewRecord(classes, c, value, rec.isNew);
        if inner.Err? then Err(inner.error)
        else
          ShapeWrapped(classes, rec, key, inner.value);
          Ok(rec.(nested := Put(rec.nested, key, inner.value), data := Remove(rec.data, key)))
      case Some(OtherAttr) => Err(TypeError)
      case _ =>
        ShapePlain(classes, rec, key, value);
        Ok(rec.(data := Put(rec.data, key, value)))
  }

  /** The four stores of `setattr` keep `WellFormed`. */
  lemma ShapeNestedPut(classes: Classes, rec: Record, key: string, m: Record)
    requires Reserved(key)
    ensures WellFormed(classes, rec) ==> WellFormed(classes, rec.(nested := Put(rec.nested, key, m)))
  {
    PutHasKey(rec.nested, key, m);
  }

  lemma ShapeNestedRemove(classes: Classes, rec: Record, key: string)
    ensures WellFormed(classes, rec) ==> WellFormed(classes, rec.(nested := Remove(rec.nested, key)))
  {
    RemoveHasKey(rec.nested, key);
  }

  lemma ShapeWrapped(classes: Classes, rec: Record, key: string, m: Record)
    requires Wraps(classes, rec.cls, key)
    ensures WellFormed(classes, rec) ==>
              WellFormed(classes, rec.(nested := Put(rec.nested, key, m), data := Remove(rec.data, key)))
  {
    PutHasKey(rec.nested, key, m);
    RemoveHasKey(rec.data, key);
  }

  lemma ShapePlain(classes: Classes, rec: Record, key: string, value: Value)
    requires StoresPlain(classes, rec.cls, key)
    ensures WellFormed(classes, rec) ==> WellFormed(classes, rec.(data := Put(rec.data, key, value)))
  {
    PutHasKey(rec.data, key, value);
  }

  /** Assigning a field name touches no other field or nested model. */
  lemma SetAttrFrame(classes: Classes, rec: Record, key: string, value: Value, other: string)
    requires SetAttr(classes, rec, key, value).Ok? && !Reserved(key) && other != key
    ensures Get(SetAttr(classes, rec, key, value).value.data, other) == Get(rec.data, other)
    ensures Get(SetAttr(classes, rec, key, value).value.nested, other) == Get(rec.nested, other)
  {
  }

  /** `getattr(record, key)`: an instance attribute (a nested model) first;
      then a class attribute of that name, which shadows the field map; then
      `__getattr__`, which gives the plain field or None. */
  function GetAttr(classes: Classes, rec: Record, key: string): (v: Value)
    ensures HasKey(rec.nested, key) ==> v == VModel(Get(rec.nested, key).value)
    ensures !HasKey(rec.nested, key) && AttrOf(classes, rec.cls, key).Some? ==> v == ClassLevel(classes, rec.cls, key)
    ensures !HasKey(rec.nested, key) && AttrOf(classes, rec.cls, key).None? ==>
              v == if HasKey(rec.data, key) then Get(rec.data, key).value else VNone
  {
    match Get(rec.nested, key)
    case Some(m) => VModel(m)
    case None =>
      if AttrOf(classes, rec.cls, key).Some? then ClassLevel(classes, rec.cls, key)
      else
        match Get(rec.data, key)
        case Some(v) => v
        case None => VNone
  }

  /** What reading `key` gives when the instance has no attribute and no
      field of that name: the class attribute, None when it is None or
      when there is none. */
  function ClassLevel(classes: Classes, cls: string, key: string): (v: Value)
    ensures v.VNone? <==> AttrOf(classes, cls, key).None? || AttrOf(classes, cls, key) == Some(NoneAttr)
    ensures !v.VNone? ==> v == VClassAttr(AttrOf(classes, cls, key).value)
  {
    match AttrOf(classes, cls, key)
    case Some(NoneAttr) => VNone
    case Some(a) => VClassAttr(a)
    case None => VNone
  }

  /** The shape `setattr` keeps: the plain map holds no reserved name and no
      name of an instance attribute, and a public instance attribute exists
      only for a field whose class attribute is a model class. */
  ghost predicate WellFormed(classes: Classes, rec: Record) {
    && (forall k :: HasKey(rec.data, k) ==> !Reserved(k) && !HasKey(rec.nested, k))
    && (forall k :: HasKey(rec.nested, k) && !Reserved(k) ==> Wraps(classes, rec.cls, k))
  }

  /** Assigning a field and reading it back: the value itself when the class
      has no attribute of that name, the new nested instance for a model
      class, and otherwise the class attribute, which hides the stored field
      (None for an attribute declared None). */
  lemma SetAttrGetAttr(classes: Classes, rec: Record, key: string, value: Value)
    requires WellFormed(classes, rec) && !Reserved(key)
    requires SetAttr(classes, rec, key, value).Ok?
    ensures var v := GetAttr(classes, SetAttr(classes, rec, key, value).value, key);
            var attr := AttrOf(classes, rec.cls, key);
            && (attr.None? ==> v == value)
            && (Wraps(classes, rec.cls, key) ==> v == VModel(NewRecord(classes, attr.value.name, value, rec.isNew).value))
            && (attr == Some(NoneAttr) ==> v == VNone)
            && (attr == Some(PlainClass) ==> v == VClassAttr(PlainClass))
  {
  }

  /** `delattr(record, key)`: a plain field is removed from the map;
      otherwise the instance attribute goes, and there being none is an
      AttributeError.  Nothing else changes. */
  function DelAttr(rec: Record, key: string): (r: Result<Record>)
    ensures r.Ok? <==> HasKey(rec.data, key) || HasKey(rec.nested, key)
    ensures r.Err? ==> r.error == AttributeError(key)
    ensures HasKey(rec.data, key) ==> r.Ok? && !HasKey(r.value.data, key) && r.value.nested == rec.nested
    ensures !HasKey(rec.data, key) && HasKey(rec.nested, key) ==>
              r.Ok? && !HasKey(r.value.nested, key) && r.value.data == rec.data
    ensures r.Ok? ==> forall j :: j != key ==> Get(r.value.data, j) == Get(rec.data, j) && Get(r.value.nested, j) == Get(rec.nested, j)
    ensures r.Ok? ==> r.value.isNew == rec.isNew && r.value.cls == rec.cls && r.value.origin == rec.origin
  {
    if HasKey(rec.data, key) then Ok(rec.(data := Remove(rec.data, key)))
    else if HasKey(rec.nested, key) then Ok(rec.(nested := Remove(rec.nested, key)))
    else Err(AttributeError(key))
  }

  /** After a successful `delattr` of a well-formed record the name reads
      what the class gives, and the record keeps its shape. */
  lemma DelAttrThenGet(classes: Classes, rec: Record, key: string)
    requires WellFormed(classes, rec) && DelAttr(rec, key).Ok?
    ensures WellFormed(classes, DelAttr(rec, key).value)
    ensures GetAttr(classes, DelAttr(rec, key).value, key) == ClassLevel(classes, rec.cls, key)
  {
    var r := DelAttr(rec, key).value;
    if HasKey(rec.data, key) {
      RemoveHasKey(rec.data, key);
      assert r.nested == rec.nested && r.data == Remove(rec.data, key);
    } else {
      RemoveHasKey(rec.nested, key);
      assert r.data == rec.data && r.nested == Remove(rec.nested, key);
    }
    assert !HasKey(r.data, key) && !HasKey(r.nested, key);
  }

  /** `get_data(with_models)` with the evident intent: the plain field map,
      and with models also every nested model; the record is not touched. */
  function GetData(rec: Record, withModels: bool): (d: seq<(string, Value)>)
    ensures !withModels ==> d == rec.data
    ensures forall k :: HasKey(d, k) <==> HasKey(rec.data, k) || (withModels && HasKey(rec.nested, k))
    ensures forall x :: x in d ==> x in rec.data || (withModels && x.1.VModel? && (x.0, x.1.rec) in rec.nested)
  {
    if withModels then
      var m := ModelEntries(rec.nested);
      assert forall x :: x in m ==> x.1.VModel? && (x.0, x.1.rec) in rec.nested;
      Update(rec.data, m)
    else rec.data
  }

  /** `get_data(with_models)` as written: the nested models are merged into
      the live field map itself, so the record changes as a side effect. */
  function GetDataAsWritten(rec: Record, withModels: bool): (r: (Record, seq<(string, Value)>))
    ensures r.1 == GetData(rec, withModels)
    ensures r.0.data == r.1
  {
    var d := GetData(rec, withModels);
    (rec.(data := d), d)
  }

  /** Reading with models and then without shows the nested models in the
      plain view: a record whose field `owner` holds a nested model. */
  lemma GetDataAsWrittenLeaks()
    ensures var inner := Record("User", true, [], [], []);
            var rec := Record("Project", true, [], [], [("owner", inner)]);
            var (after, _) := GetDataAsWritten(rec, true);
            GetDataAsWritten(after, false).1 == [("owner", VModel(inner))] && GetData(rec, false) == []
  {
    var inner := Record("User", true, [], [], []);
    var rec := Record("Project", true, [], [], [("owner", inner)]);
    var m := [("owner", VModel(inner))];
    assert ModelEntries(rec.nested) == m;
    assert Put([], "owner", VModel(inner)) == m;
    assert m[1..] == [];
    assert Update([], m) == Update(m, []) == m;
    assert GetData(rec, true) == m;
    var after := rec.(data := m);
    assert GetDataAsWritten(rec, true) == (after, m);
    assert GetData(after, false) == m;
  }

  /** With models, the view holds every nested model under its name. */
  lemma {:induction false} GetDataHasNested(rec: Record, k: string)
    requires Distinct(rec.nested) && HasKey(rec.nested, k)
    ensures Get(GetData(rec, true), k) == Some(VModel(Get(rec.nested, k).value))
  {
    var m := ModelEntries(rec.nested);
    assert Distinct(m) by {
      forall i, j | 0 <= i < j < |m| ensures m[i].0 != m[j].0 {
        assert m[i].0 == rec.nested[i].0 && m[j].0 == rec.nested[j].0;
      }
    }
    UpdateGet(rec.data, m, k);
    var i :| 0 <= i < |rec.nested| && Keys(rec.nested)[i] == k;
    NestedGet(rec.nested, i);
    assert m[i] == (k, VModel(rec.nested[i].1));
    ValueGet(m, i);
  }

  /** In a dictionary without repeated keys, the entry at `i` is what `Get` finds. */
  lemma {:induction false} ValueGet(d: seq<(string, Value)>, i: nat)
    requires Distinct(d) && i < |d|
    ensures Get(d, d[i].0) == Some(d[i].1)
  {
    if i > 0 {
      assert Distinct(d[1..]);
      ValueGet(d[1..], i - 1);
    }
  }

  lemma {:induction false} NestedGet(d: seq<(string, Record)>, i: nat)
    requires Distinct(d) && i < |d|
    ensures Get(d, d[i].0) == Some(d[i].1)
  {
    if i > 0 {
      assert Distinct(d[1..]);
      NestedGet(d[1..], i - 1);
    }
  }

  /** Flattening of one value of the data view: a model becomes its own
      dictionary, anything else is kept. */
  function ConvertEntries(ghost rec: Record, withModels: bool, es: seq<(string, Value)>): (d: seq<(string, Value)>)
    requires forall x :: x in es ==> x.1.VModel? ==> x.1.rec < rec
    ensures Keys(d) == Keys(es)
    ensures forall i :: 0 <= i < |d| ==> !d[i].1.VModel?
    ensures forall i :: 0 <= i < |d| && !es[i].1.VModel? ==> d[i] == es[i]
    ensures forall i :: 0 <= i < |d| && es[i].1.VModel? ==> d[i].1.VDict?
    decreases rec, 0, |es|
  {
    if es == [] then []
    else
      var v := es[0].1;
      assert es[0] in es;
      var head := if v.VModel? then VDict(ToDict(v.rec, withModels)) else v;
      var rest := ConvertEntries(rec, withModels, es[1..]);
      assert Keys([(es[0].0, head)] + rest) == [es[0].0] + Keys(rest);
      assert Keys(es) == [es[0].0] + Keys(es[1..]);
      [(es[0].0, head)] + rest
  }

  /** `to_dict(with_models)`: the data view with every model replaced by its
      own `to_dict`, so no value of the result is a model instance. */
  function ToDict(rec: Record, withModels: bool): (d: seq<(string, Value)>)
    ensures Keys(d) == Keys(GetData(rec, withModels))
    ensures forall i :: 0 <= i < |d| ==> !d[i].1.VModel?
    ensures forall i :: 0 <= i < |d| && !GetData(rec, withModels)[i].1.VModel? ==> d[i] == GetData(rec, withModels)[i]
    decreases rec, 1
  {
    var view := GetData(rec, withModels);
    assert forall x :: x in view ==> x.1.VModel? ==> x.1.rec < rec by {
      forall x | x in view && x.1.VModel?
        ensures x.1.rec < rec
      {
        if x in rec.data {
          var j :| 0 <= j < |rec.data| && rec.data[j] == x;
        } else {
          assert (x.0, x.1.rec) in rec.nested;
          var j :| 0 <= j < |rec.nested| && rec.nested[j] == (x.0, x.1.rec);
          assert rec.nested[j].1 < rec;
        }
      }
    }
    ConvertEntries(rec, withModels, view)
  }

  /** Each nested model is replaced by exactly its own flattening. */
  lemma {:induction false} ToDictNested(rec: Record, withModels: bool, i: nat)
    requires i < |GetData(rec, withModels)| && GetData(rec, withModels)[i].1.VModel?
    ensures ToDict(rec, withModels)[i].1 == VDict(ToDict(GetData(rec, withModels)[i].1.rec, withModels))
  {
    var view := GetData(rec, withModels);
    assert forall x :: x in view ==> x.1.VModel? ==> x.1.rec < rec by {
      forall x | x in view && x.1.VModel?
        ensures x.1.rec < rec
      {
        if x in rec.data {
          var j :| 0 <= j < |rec.data| && rec.data[j] == x;
        } else {
          var j :| 0 <= j < |rec.nested| && rec.nested[j] == (x.0, x.1.rec);
          assert rec.nested[j].1 < rec;
        }
      }
    }
    ConvertAt(rec, withModels, view, i);
  }

  lemma {:induction false} ConvertAt(rec: Record, withModels: bool, es: seq<(string, Value)>, i: nat)
    requires forall x :: x in es ==> x.1.VModel? ==> x.1.rec < rec
    requires i < |es| && es[i].1.VModel?
    ensures ConvertEntries(rec, withModels, es)[i].1 == VDict(ToDict(es[i].1.rec, withModels))
  {
    if i > 0 {
      ConvertAt(rec, withModels, es[1..], i - 1);
    }
  }

  /** Assigning `key` stores the value in the plain field map. */
  predicate StoresPlain(classes: Classes, cls: string, key: string) {
    key != "" && !Reserved(key) && (AttrOf(classes, cls, key).None? || AttrOf(classes, cls, key).value in {NoneAttr, PlainClass})
  }

  /** Assigning `key` wraps the value in a new instance of a model class. */
  predicate Wraps(classes: Classes, cls: string, key: string) {
    key != "" && !Reserved(key) && AttrOf(classes, cls, key).Some? && AttrOf(classes, cls, key).value.ModelClass?
  }

  /** Whether the constructor can store every entry of `d` in the plain map:
      names are non-empty, not reserved, and no class attribute of the same
      name interferes. */
  predicate PlainFields(classes: Classes, cls: string, d: seq<(string, Value)>) {
    forall e :: e in d ==> StoresPlain(classes, cls, e.0)
  }

  /** Constructing a record from a dictionary of plain fields and reading it
      back: the field map is that dictionary, in order, the origin is the same
      dictionary, no nested model is made, and a name outside it reads None. */
  lemma NewRecordRoundTrip(classes: Classes, cls: string, d: seq<(string, Value)>, isNew: bool, other: string)
    requires Distinct(d) && PlainFields(classes, cls, d)
    requires !HasKey(d, other)
    ensures NewRecord(classes, cls, VDict(d), isNew) == Ok(Record(cls, isNew, d, d, []))
    ensures GetAttr(classes, Record(cls, isNew, d, d, []), other) == ClassLevel(classes, cls, other)
    ensures forall i :: 0 <= i < |d| && AttrOf(classes, cls, d[i].0).None? ==>
              GetAttr(classes, Record(cls, isNew, d, d, []), d[i].0) == d[i].1
  {
    forall i | 0 <= i < |d| ensures Get(d, d[i].0) == Some(d[i].1) {
      ValueGet(d, i);
    }
    var empty := Record(cls, isNew, d, [], []);
    assert empty.data + d == d;
    SetEntriesAppend(classes, empty, VDict(d), d);
  }

  /** The entry walk over fresh plain keys appends them to the field map. */
  lemma {:induction false} SetEntriesAppend(classes: Classes, rec: Record, p: Value, es: seq<(string, Value)>)
    requires p.VDict? && forall e :: e in es ==> e in p.entries
    requires Distinct(rec.data + es) && PlainFields(classes, rec.cls, es)
    ensures SetEntries(classes, rec, p, es) == Assigned(rec.(data := rec.data + es), None)
    decreases |es|
  {
    if es == [] {
      assert rec.data + es == rec.data;
    } else {
      var e := es[0];
      assert e in es;
      FreshHead(rec.data, es);
      var r := rec.(data := rec.data + [e]);
      assert SetEntries(classes, rec, p, es) == SetEntries(classes, r, p, es[1..]) by {
        SetAttrAppends(classes, rec, e.0, e.1);
        SetEntriesStep(classes, rec, p, es, r);
      }
      MoveHead(rec.data, es);
      TailMembers(es);
      SetEntriesAppend(classes, r, p, es[1..]);
    }
  }

  /** Moving the first entry of the rest to the end of the front. */
  lemma MoveHead(a: seq<(string, Value)>, es: seq<(string, Value)>)
    requires es != []
    ensures (a + [es[0]]) + es[1..] == a + es
  {
    assert es == [es[0]] + es[1..];
  }

  /** The tail's entries are entries of the whole. */
  lemma TailMembers(es: seq<(string, Value)>)
    requires es != []
    ensures forall x :: x in es[1..] ==> x in es
  {
  }

  /** In a dictionary without repeated keys, the key after a prefix is not in the prefix. */
  lemma FreshHead(a: seq<(string, Value)>, es: seq<(string, Value)>)
    requires es != [] && Distinct(a + es)
    ensures !HasKey(a, es[0].0)
  {
    forall j | 0 <= j < |a| ensures Keys(a)[j] != es[0].0 {
      assert (a + es)[j] == a[j] && (a + es)[|a|] == es[0];
    }
  }

  /** Storing a new plain field appends it to the field map. */
  lemma SetAttrAppends(classes: Classes, rec: Record, key: string, value: Value)
    requires StoresPlain(classes, rec.cls, key) && !HasKey(rec.data, key)
    ensures SetAttr(classes, rec, key, value) == Ok(rec.(data := rec.data + [(key, value)]))
  {
    PutShape(rec.data, key, value);
  }

  /** One step of the entry walk when the first assignment succeeds. */
  lemma SetEntriesStep(classes: Classes, rec: Record, p: Value, es: seq<(string, Value)>, r: Record)
    requires p.VDict? && forall e :: e in es ==> e in p.entries
    requires es != [] && es[0].0 != "" && !Reserved(es[0].0)
    requires SetAttr(classes, rec, es[0].0, es[0].1) == Ok(r)
    ensures SetEntries(classes, rec, p, es) == SetEntries(classes, r, p, es[1..])
  {
  }

  /** The `[A-Z][a-z]*` runs of a class name, left to right (`re.findall`). */
  function Words(name: string): (ws: seq<string>)
    ensures forall i :: 0 <= i < |ws| ==> IsWord(ws[i])
    decreases |name|
  {
    if name == [] then []
    else if IsUpper(name[0]) then
      var n := LowerRun(name[1..]);
      [name[..1 + n]] + Words(name[1 + n..])
    else Words(name[1..])
  }

  /** A capitalised word: one upper-case letter and then lower-case letters. */
  predicate IsWord(w: string) {
    |w| >= 1 && IsUpper(w[0]) && forall i :: 1 <= i < |w| ==> IsLower(w[i])
  }

  /** Length of the leading run of lower-case letters. */
  function LowerRun(s: string): (n: nat)
    ensures n <= |s|
    ensures forall i :: 0 <= i < n ==> IsLower(s[i])
    ensures n < |s| ==> !IsLower(s[n])
  {
    if s != [] && IsLower(s[0]) then 1 + LowerRun(s[1..]) else 0
  }

  function Concat(ws: seq<string>): string {
    if ws == [] then "" else ws[0] + Concat(ws[1..])
  }

  function LowerWords(ws: seq<string>): (r: seq<string>)
    ensures |r| == |ws|
    ensures forall i :: 0 <= i < |ws| ==> r[i] == LowerAll(ws[i])
  {
    if ws == [] then [] else [LowerAll(ws[0])] + LowerWords(ws[1..])
  }

  /** `get_resource()`: `_resource_` when set, otherwise the capitalised
      words of the class name, lower-cased and joined by '_'. */
  function GetResource(decl: ClassDecl, className: string): (r: string)
    ensures decl.resource.Some? ==> r == decl.resource.value
    ensures decl.resource.None? ==> forall i :: 0 <= i < |r| ==> !IsUpper(r[i])
  {
    match decl.resource
    case Some(res) => res
    case None =>
      var r := Join("_", LowerWords(Words(className)));
      JoinNoUpper(LowerWords(Words(className)));
      r
  }

  lemma {:induction false} JoinNoUpper(parts: seq<string>)
    requires forall i :: 0 <= i < |parts| ==> forall j :: 0 <= j < |parts[i]| ==> !IsUpper(parts[i][j])
    ensures forall j :: 0 <= j < |Join("_", parts)| ==> !IsUpper(Join("_", parts)[j])
  {
    if |parts| > 1 {
      JoinNoUpper(parts[1..]);
      assert Join("_", parts) == parts[0] + "_" + Join("_", parts[1..]);
    }
  }

  /** A class name made of capitalised words splits back into exactly those
      words, so the derived resource is their lower-cased `_` join. */
  lemma {:induction false} DerivedResourceOfWords(ws: seq<string>, decl: ClassDecl)
    requires forall i :: 0 <= i < |ws| ==> IsWord(ws[i])
    requires decl.resource.None?
    ensures GetResource(decl, Concat(ws)) == Join("_", LowerWords(ws))
  {
    WordsOfConcat(ws);
  }

  lemma {:induction false} WordsOfConcat(ws: seq<string>)
    requires forall i :: 0 <= i < |ws| ==> IsWord(ws[i])
    ensures Words(Concat(ws)) == ws
  {
    if ws != [] {
      var w := ws[0];
      var rest := Concat(ws[1..]);
      var name := w + rest;
      assert IsWord(w);
      WordsOfConcat(ws[1..]);
      assert rest == [] || IsUpper(rest[0]) by {
        if rest != [] { ConcatHead(ws[1..]); }
      }
      assert name[1..] == w[1..] + rest;
      LowerRunOfWord(w[1..], rest);
      assert name[..1 + (|w| - 1)] == w;
      assert name[1 + (|w| - 1)..] == rest;
    }
  }

  lemma {:induction false} ConcatHead(ws: seq<string>)
    requires forall i :: 0 <= i < |ws| ==> IsWord(ws[i])
    requires Concat(ws) != []
    ensures IsUpper(Concat(ws)[0])
  {
    assert ws != [];
    assert IsWord(ws[0]);
  }

  /** The lower-case run of a word's tail stops where the next word starts. */
  lemma {:induction false} LowerRunOfWord(tail: string, rest: string)
    requires forall i :: 0 <= i < |tail| ==> IsLower(tail[i])
    requires rest == [] || IsUpper(rest[0])
    ensures LowerRun(tail + rest) == |tail|
    decreases |tail|
  {
    if tail != [] {
      var s := tail + rest;
      assert s[0] == tail[0] && IsLower(s[0]);
      assert s[1..] == tail[1..] + rest;
      LowerRunOfWord(tail[1..], rest);
    } else {
      assert tail + rest == rest;
    }
  }

  /** The declaration of a class; a class the table does not list has no
      special attributes and no overrides. */
  function DeclOf(classes: Classes, cls: string): (d: ClassDecl)
    ensures cls !in classes ==> d == ClassDecl(map[], None, None)
    ensures cls in classes ==> d == classes[cls]
  {
    if cls in classes then classes[cls] else ClassDecl(map[], None, None)
  }

  /** The resource (table or REST collection) of a class. */
  function ResourceOf(classes: Classes, cls: string): (r: string)
    ensures DeclOf(classes, cls).resource.Some? ==> r == DeclOf(classes, cls).resource.value
  {
    GetResource(DeclOf(classes, cls), cls)
  }

  /** `find_one` of any model: the first record found, or None. */
  function FindOneOf(found: seq<Record>): (r: Option<Record>)
    ensures r.None? <==> found == []
    ensures r.Some? ==> r.value == found[0]
  {
    if |found| > 0 then Some(found[0]) else None
  }

  /** Python `str(v)`.  Containers render their items with `Repr`; a model
      instance renders as its class name in angle brackets. */
  function Str(v: Value): (r: string)
    ensures v.VStr? ==> r == v.s
    ensures v.VInt? && v.i >= 0 ==> r == NatToString(v.i) && DigitsValue(r) == v.i
    ensures v.VNone? ==> r == "None"
    decreases v, 0
  {
    match v
    case VNone => "None"
    case VBool(b) => if b then "True" else "False"
    case VInt(i) =>
      assert i >= 0 ==> DigitsValue(IntToString(i)) == i by {
        if i >= 0 { NatToStringRoundTrip(i); }
      }
      IntToString(i)
    case VStr(s) => s
    case VList(items) => "[" + Join(", ", seq(|items|, i requires 0 <= i < |items| => Repr(items[i]))) + "]"
    case VDict(entries) =>
      "{" + Join(", ", seq(|entries|, i requires 0 <= i < |entries| =>
        assert entries[i].1 < v by { assert entries[i] in entries; }
        Quote(entries[i].0) + ": " + Repr(entries[i].1))) + "}"
    case VModel(rec) => "<" + rec.cls + " object>"
    case VClassAttr(a) =>
      match a
      case ModelClass(c) => "<class '" + c + "'>"
      case NoneAttr => "None"
      case _ => "<class attribute>"
  }

  /** Python `repr(v)`: a string is quoted, anything else renders as `str`. */
  function Repr(v: Value): (r: string)
    ensures v.VStr? ==> r == Quote(v.s)
    ensures !v.VStr? ==> r == Str(v)
    decreases v, 1
  {
    if v.VStr? then Quote(v.s) else Str(v)
  }

  function Quote(s: string): string {
    "'" + s + "'"
  }
}

=== FILE: mysql.dfy ===
/** The MySQL adapter (pyar/adapters/mysql.py): SELECT assembly, the WHERE
    builder, `:name` parameter substitution, the column filter and the
    INSERT / UPDATE / DELETE statements, each paired with the effect of
    running it on the adapter's last-query slot.

    The database is a `Driver`: the column set of each table (what `SHOW
    COLUMNS` reports) and, for each statement text, whether it returns rows
    or raises an integrity error.  The driver library's escaping is an
    `Escaper`: `item` is its value escaping (quotes included), `str` its
    string escaping (no quotes). */
module MySql {
  import opened Errors
  import opened Strings
  import opened Dicts
  import opened Model
  import opened Adapter

  datatype Escaper = Escaper(item: Value -> string, str: string -> string)

  /** A result row: column name to value, in column order. */
  type Row = Dict<string, Value>

  /** What a statement leaves in the cursor. */
  datatype Cursor = Cursor(rows: seq<Row>, lastRowId: int)

  datatype Outcome = Done(cursor: Cursor) | Integrity(detail: string)

  datatype Driver = Driver(columns: string -> set<string>, run: string -> Outcome)

  /** The adapter's own state: the text of the last statement it issued. */
  datatype SqlState = SqlState(lastQuery: Option<string>)

  /** A result together with the adapter state after producing it. */
  datatype Step<T> = Step(result: Result<T>, state: SqlState)

  /** `execute(query)`: the statement becomes the last query before it
      runs; an integrity error becomes the adapter's execute error. */
  function Execute(d: Driver, st: SqlState, q: string): (r: Step<Cursor>)
    ensures r.state.lastQuery == Some(q)
    ensures r.result.Err? <==> d.run(q).Integrity?
    ensures r.result.Err? ==> r.result.error == SqlAdapterExecute(d.run(q).detail)
    ensures r.result.Ok? ==> r.result.value == d.run(q).cursor
  {
    match d.run(q)
    case Done(c) => Step(Ok(c), SqlState(Some(q)))
    case Integrity(detail) => Step(Err(SqlAdapterExecute(detail)), SqlState(Some(q)))
  }

  const StartStatement := "START TRANSACTION"
  const CommitStatement := "COMMIT"
  const RollbackStatement := "ROLLBACK"

  /** `start_transaction()`: executes START TRANSACTION. */
  function StartTransaction(d: Driver, st: SqlState): (r: Step<Cursor>)
    ensures r.state.lastQuery == Some(StartStatement)
    ensures r.result.Err? <==> d.run(StartStatement).Integrity?
  {
    Execute(d, st, StartStatement)
  }

  /** `commit_transaction()`: the connection commits and the last query
      reads COMMIT. */
  function Commit(st: SqlState): (r: SqlState)
    ensures r.lastQuery == Some(CommitStatement)
  {
    SqlState(Some(CommitStatement))
  }

  /** `rollback_transaction()`: the last query reads ROLLBACK. */
  function Rollback(st: SqlState): (r: SqlState)
    ensures r.lastQuery == Some(RollbackStatement)
  {
    SqlState(Some(RollbackStatement))
  }

  /** The named arguments of `read`; `kwargs` are passed separately. */
  datatype ReadOptions = ReadOptions(
    select: Option<string>,
    joins: Option<string>,
    where: Option<string>,
    having: Option<string>,
    limit: Option<int>,
    offset: Option<int>,
    distinct: bool,
    group: Option<string>,
    order: Option<string>,
    params: Dict<string, Value>,
    query: Option<string>)

  /** Every argument at its default. */
  function DefaultOptions(): (o: ReadOptions)
    ensures o.query.None? && o.select.None? && o.where.None? && o.params == []
  {
    ReadOptions(None, None, None, None, None, None, false, None, None, [], None)
  }

  // ---------------------------------------------------------------- WHERE

  /** The escaped members of an IN list: `escape_string(str(v))`, unquoted. */
  function InItems(esc: Escaper, items: seq<Value>): (r: seq<string>)
    ensures |r| == |items|
    ensures forall i :: 0 <= i < |items| ==> r[i] == esc.str(Str(items[i]))
  {
    if items == [] then [] else [esc.str(Str(items[0]))] + InItems(esc, items[1..])
  }

  /** One keyword filter: `res.key IN (v1,v2)` for a list, `res.key = :key`
      for anything else. */
  function Condition(esc: Escaper, res: string, key: string, value: Value): (r: string)
    ensures IsPrefix(res + "." + key + " ", r)
    ensures value.VList? ==> r == res + "." + key + " IN (" + Join([','], InItems(esc, value.items)) + ")"
    ensures !value.VList? ==> r == res + "." + key + " = :" + key
  {
    var head := res + "." + key + " ";
    var tail := if value.VList? then "IN (" + Join([','], InItems(esc, value.items)) + ")" else "= :" + key;
    assert (head + tail)[..|head|] == head;
    head + tail
  }

  /** The members of an IN list can be read back from the statement: as
      long as no escaped member holds a comma, splitting the list text at
      commas gives the members in order. */
  lemma InListRoundTrip(esc: Escaper, items: seq<Value>)
    requires items != []
    requires forall i :: 0 <= i < |items| ==> ',' !in esc.str(Str(items[i]))
    ensures Split(Join([','], InItems(esc, items)), ',') == InItems(esc, items)
  {
    SplitJoin(',', InItems(esc, items));
  }

  function Conditions(esc: Escaper, res: string, kwargs: Dict<string, Value>): (r: seq<string>)
    ensures |r| == |kwargs|
    ensures forall i :: 0 <= i < |kwargs| ==> r[i] == Condition(esc, res, kwargs[i].0, kwargs[i].1)
  {
    if kwargs == [] then []
    else [Condition(esc, res, kwargs[0].0, kwargs[0].1)] + Conditions(esc, res, kwargs[1..])
  }

  /** `__build_read_where(where, res, kwargs)`: the explicit condition and
      then the keyword filters, all joined by AND, behind " WHERE ";
      nothing at all when there is no condition. */
  function BuildWhere(esc: Escaper, where: Option<string>, res: string, kwargs: Dict<string, Value>): (w: string)
    ensures w == "" <==> (where.None? || where.value == "") && kwargs == []
    ensures w != "" ==> w == " WHERE " + Join(" AND ", WhereParts(where, Conditions(esc, res, kwargs)))
  {
    var part := WherePart(esc, where, res, kwargs);
    assert (part == "" <==> (where.None? || where.value == "") && kwargs == [])
        && (part != "" ==> part == Join(" AND ", WhereParts(where, Conditions(esc, res, kwargs)))) by {
      WherePartIsJoin(esc, where, res, kwargs);
    }
    if |part| > 0 then " WHERE " + part else ""
  }

  /** The text behind " WHERE ": the explicit condition, " AND " when both
      it and keyword filters are present, then the filters joined by AND. */
  function WherePart(esc: Escaper, where: Option<string>, res: string, kwargs: Dict<string, Value>): string {
    var explicit := if where.Some? then where.value else "";
    var sep := if |explicit| > 0 && |kwargs| > 0 then " AND " else "";
    explicit + sep + Join(" AND ", Conditions(esc, res, kwargs))
  }

  /** The incremental construction is one AND-join of all the conjuncts. */
  lemma WherePartIsJoin(esc: Escaper, where: Option<string>, res: string, kwargs: Dict<string, Value>)
    ensures var part := WherePart(esc, where, res, kwargs);
            && (part == "" <==> (where.None? || where.value == "") && kwargs == [])
            && (part != "" ==> part == Join(" AND ", WhereParts(where, Conditions(esc, res, kwargs))))
  {
    var conds := Conditions(esc, res, kwargs);
    var explicit := if where.Some? then where.value else "";
    if conds != [] {
      JoinHead(" AND ", conds);
      assert IsPrefix(res + "." + kwargs[0].0 + " ", conds[0]);
    }
    if |explicit| > 0 && conds != [] {
      JoinConcat(" AND ", [explicit], conds);
      assert [explicit] + conds == WhereParts(where, conds);
    } else if |explicit| > 0 {
      assert WhereParts(where, conds) == [explicit];
    } else {
      assert WhereParts(where, conds) == conds;
    }
  }

  /** The conjuncts of the WHERE clause, in order: the explicit condition if
      it is not empty, then one per keyword filter. */
  function WhereParts(where: Option<string>, conds: seq<string>): (r: seq<string>)
    ensures |r| == |conds| + (if where.Some? && where.value != "" then 1 else 0)
  {
    if where.Some? && where.value != "" then [where.value] + conds else conds
  }

  // --------------------------------------------------------------- SELECT

  /** The SELECT template: `SELECT[ DISTINCT] proj FROM res[ joins]
      [where][ GROUP BY g][ HAVING h][ LIMIT n][ OFFSET n]`, with `res.*`
      as the default projection.  The ordering argument is not used. */
  function SelectQuery(opts: ReadOptions, res: string, where: string): (q: string)
    ensures IsPrefix(SelectHead(opts, res), q)
  {
    var head := SelectHead(opts, res);
    var tail :=
      (if opts.joins.Some? then " " + opts.joins.value else "")
      + where
      + (if opts.group.Some? then " GROUP BY " + opts.group.value else "")
      + (if opts.having.Some? then " HAVING " + opts.having.value else "")
      + (if opts.limit.Some? then " LIMIT " + IntToString(opts.limit.value) else "")
      + (if opts.offset.Some? then " OFFSET " + IntToString(opts.offset.value) else "");
    assert (head + tail)[..|head|] == head;
    head + tail
  }

  /** `SELECT[ DISTINCT] proj FROM res`. */
  function SelectHead(opts: ReadOptions, res: string): (h: string)
    ensures opts.select.None? && !opts.distinct ==> h == "SELECT " + res + ".* FROM " + res
    ensures opts.select.None? && opts.distinct ==> h == "SELECT DISTINCT " + res + ".* FROM " + res
    ensures opts.select.Some? && !opts.distinct ==> h == "SELECT " + opts.select.value + " FROM " + res
  {
    "SELECT"
    + (if opts.distinct then " DISTINCT" else "")
    + (if opts.select.Some? then " " + opts.select.value + " " else " " + res + ".* ")
    + "FROM " + res
  }

  /** The ordering argument never reaches the statement. */
  lemma SelectIgnoresOrder(opts: ReadOptions, res: string, where: string, order: Option<string>)
    ensures SelectQuery(opts.(order := order), res, where) == SelectQuery(opts, res, where)
  {
  }

  /** With nothing but a limit, the statement is the default projection of
      the table followed by the limit. */
  lemma SelectWithLimit(res: string, n: int)
    ensures SelectQuery(DefaultOptions().(limit := Some(n)), res, "")
            == "SELECT " + res + ".* FROM " + res + " LIMIT " + IntToString(n)
  {
  }

  // --------------------------------------------------------- substitution

  /** The first parameter whose `:name` matches at the start of `q`: the
      regular-expression alternation tries the names in dictionary order. */
  function FirstMatch(ps: Dict<string, string>, q: string): (r: Option<nat>)
    ensures r.Some? ==> r.value < |ps| && IsPrefix(":" + ps[r.value].0, q)
    ensures r.Some? ==> forall j :: 0 <= j < r.value ==> !IsPrefix(":" + ps[j].0, q)
    ensures r.None? ==> forall j :: 0 <= j < |ps| ==> !IsPrefix(":" + ps[j].0, q)
  {
    if ps == [] then None
    else if IsPrefix(":" + ps[0].0, q) then Some(0)
    else
      match FirstMatch(ps[1..], q)
      case Some(i) => Some(i + 1)
      case None => None
  }

  /** `pattern.sub(...)` with the pattern `:k1|:k2|...`: scanning left to
      right, each `:name` that matches is replaced by that parameter's
      (already escaped) value, and the scan resumes after it. */
  function Substitute(q: string, ps: Dict<string, string>): (r: string)
    ensures ps == [] ==> r == q
    ensures ':' !in q ==> r == q
    decreases |q|
  {
    if q == [] then ""
    else
      match FirstMatch(ps, q)
      case Some(i) =>
        assert q[0] == ':' by { assert q[..1 + |ps[i].0|] == ":" + ps[i].0; }
        ps[i].1 + Substitute(q[1 + |ps[i].0|..], ps)
      case None =>
        assert q == [q[0]] + q[1..];
        [q[0]] + Substitute(q[1..], ps)
  }

  /** No placeholder starts at a character other than a colon. */
  lemma NoPlaceholderAt(q: string, ps: Dict<string, string>)
    requires q != [] && q[0] != ':'
    ensures FirstMatch(ps, q).None?
  {
    forall j | 0 <= j < |ps| ensures !IsPrefix(":" + ps[j].0, q) {
      var p := ":" + ps[j].0;
      if |p| <= |q| {
        assert q[..|p|][0] == q[0] && p[0] == ':';
      }
    }
  }

  /** Colon-free text in front of the rest is copied as it is. */
  lemma {:induction false} SubstitutePrefix(a: string, b: string, ps: Dict<string, string>)
    requires ':' !in a
    ensures Substitute(a + b, ps) == a + Substitute(b, ps)
    decreases |a|
  {
    if a == [] {
      assert a + b == b;
    } else {
      var q := a + b;
      assert q[0] == a[0] && q[1..] == a[1..] + b;
      CopiedCharacter(q, ps);
      assert ':' !in a[1..];
      SubstitutePrefix(a[1..], b, ps);
      ConsTail(a, Substitute(b, ps));
    }
  }

  /** A character other than a colon is copied and the scan moves on. */
  lemma CopiedCharacter(q: string, ps: Dict<string, string>)
    requires q != [] && q[0] != ':'
    ensures Substitute(q, ps) == [q[0]] + Substitute(q[1..], ps)
  {
    NoPlaceholderAt(q, ps);
  }

  /** A nonempty string is its head in front of its tail. */
  lemma ConsTail(a: string, t: string)
    requires a != []
    ensures [a[0]] + (a[1..] + t) == a + t
  {
    assert [a[0]] + a[1..] == a;
  }

  /** Text without a colon holds no placeholder and passes unchanged. */
  lemma SubstituteNoColon(q: string, ps: Dict<string, string>)
    requires ':' !in q
    ensures Substitute(q, ps) == q
  {
    SubstitutePrefix(q, [], ps);
    assert q + [] == q;
  }

  /** A placeholder that only one parameter name matches is replaced by
      that parameter's value. */
  lemma SubstitutePlaceholder(k: string, rest: string, ps: Dict<string, string>)
    requires HasKey(ps, k)
    requires forall j :: 0 <= j < |ps| && IsPrefix(":" + ps[j].0, ":" + k + rest) ==> ps[j].0 == k
    ensures Substitute(":" + k + rest, ps) == Get(ps, k).value + Substitute(rest, ps)
  {
    var q := ":" + k + rest;
    var j0 :| 0 <= j0 < |ps| && Keys(ps)[j0] == k;
    assert q[..|":" + k|] == ":" + k;
    assert IsPrefix(":" + ps[j0].0, q);
    var i := FirstMatch(ps, q).value;
    assert ps[i].0 == k;
    GetFirst(ps, k, i);
    assert q[1 + |k|..] == rest;
  }

  /** A statement text cut into colon-free text and `:name` placeholders. */
  datatype Piece = Text(text: string) | Slot(name: string)

  /** The text a sequence of pieces spells. */
  function Render(pieces: seq<Piece>): string {
    if pieces == [] then ""
    else match pieces[0]
      case Text(t) => t + Render(pieces[1..])
      case Slot(k) => ":" + k + Render(pieces[1..])
  }

  /** The pieces with every placeholder replaced by its parameter's value. */
  function Fill(pieces: seq<Piece>, ps: Dict<string, string>): string
    requires Bound(pieces, ps)
  {
    if pieces == [] then ""
    else match pieces[0]
      case Text(t) => t + Fill(pieces[1..], ps)
      case Slot(k) => Get(ps, k).value + Fill(pieces[1..], ps)
  }

  /** No text piece holds a colon. */
  predicate ColonFreeTexts(pieces: seq<Piece>) {
    forall i :: 0 <= i < |pieces| && pieces[i].Text? ==> ':' !in pieces[i].text
  }

  /** Every placeholder names a parameter. */
  predicate Bound(pieces: seq<Piece>, ps: Dict<string, string>) {
    forall i :: 0 <= i < |pieces| && pieces[i].Slot? ==> HasKey(ps, pieces[i].name)
  }

  /** No parameter name is a proper prefix of another, so the alternation
      cannot pick a shorter name where a longer one was meant. */
  predicate PrefixFree<V(!new)>(ps: Dict<string, V>) {
    forall i, j :: 0 <= i < |ps| && 0 <= j < |ps| && IsPrefix(ps[i].0, ps[j].0) ==> ps[i].0 == ps[j].0
  }

  /** Substituting a prefix-free parameter set into colon-free text and
      bound placeholders replaces every placeholder by its value and
      copies the rest. */
  lemma {:induction false} SubstituteRender(pieces: seq<Piece>, ps: Dict<string, string>)
    requires ColonFreeTexts(pieces) && Bound(pieces, ps) && PrefixFree(ps)
    ensures Substitute(Render(pieces), ps) == Fill(pieces, ps)
  {
    if pieces != [] {
      var rest := pieces[1..];
      assert ColonFreeTexts(rest) && Bound(rest, ps) by {
        forall i | 0 <= i < |rest| ensures rest[i] == pieces[i + 1] { }
      }
      SubstituteRender(rest, ps);
      match pieces[0]
      case Text(t) =>
        assert ':' !in t;
        SubstitutePrefix(t, Render(rest), ps);
      case Slot(k) =>
        assert HasKey(ps, k);
        PrefixFreeMatch(ps, k, Render(rest));
        SubstitutePlaceholder(k, Render(rest), ps);
    }
  }

  /** In a prefix-free parameter set only `k` itself matches at `:k`. */
  lemma PrefixFreeMatch(ps: Dict<string, string>, k: string, rest: string)
    requires PrefixFree(ps) && HasKey(ps, k)
    ensures forall j :: 0 <= j < |ps| && IsPrefix(":" + ps[j].0, ":" + k + rest) ==> ps[j].0 == k
  {
    forall j | 0 <= j < |ps| && IsPrefix(":" + ps[j].0, ":" + k + rest)
      ensures ps[j].0 == k
    {
      OnlyMatch(ps, j, k, rest);
    }
  }

  /** The one name of a prefix-free parameter set that matches at `:k` is `k`. */
  lemma OnlyMatch(ps: Dict<string, string>, j: nat, k: string, rest: string)
    requires PrefixFree(ps) && HasKey(ps, k) && j < |ps|
    requires IsPrefix(":" + ps[j].0, ":" + k + rest)
    ensures ps[j].0 == k
  {
    var j0 := KeyIndex(ps, k);
    MatchComparable(ps[j].0, k, rest);
  }

  /** A name that matches at `:k` and `k` are prefixes of each other, one
      way round. */
  lemma MatchComparable(a: string, k: string, rest: string)
    requires IsPrefix(":" + a, ":" + k + rest)
    ensures IsPrefix(a, k) || IsPrefix(k, a)
  {
    DropColon(a, k, rest);
    PrefixOfConcat(k, rest);
    PrefixesCompare(a, k, k + rest);
  }

  /** Where a present key sits. */
  lemma KeyIndex(ps: Dict<string, string>, k: string) returns (i: nat)
    requires HasKey(ps, k)
    ensures i < |ps| && ps[i].0 == k
  {
    i :| 0 <= i < |ps| && Keys(ps)[i] == k;
  }

  /** A colon in front of both sides does not change prefixing. */
  lemma DropColon(a: string, k: string, rest: string)
    requires IsPrefix(":" + a, ":" + k + rest)
    ensures IsPrefix(a, k + rest)
  {
    var s := ":" + k + rest;
    assert s[1..] == k + rest;
    assert s[..1 + |a|][1..] == s[1..][..|a|];
  }

  /** Two prefixes of one string are prefixes of each other, one way round. */
  lemma PrefixesCompare(a: string, b: string, s: string)
    requires IsPrefix(a, s) && IsPrefix(b, s)
    ensures IsPrefix(a, b) || IsPrefix(b, a)
  {
    if |a| <= |b| {
      assert b[..|a|] == s[..|b|][..|a|] == s[..|a|];
    } else {
      assert a[..|b|] == s[..|a|][..|b|] == s[..|b|];
    }
  }

  /** `Get` finds the first entry with the key. */
  lemma {:induction false} GetFirst(ps: Dict<string, string>, k: string, i: nat)
    requires i < |ps| && ps[i].0 == k
    requires forall j :: 0 <= j < i ==> ps[j].0 != k
    ensures Get(ps, k) == Some(ps[i].1)
  {
    if i > 0 {
      GetFirst(ps[1..], k, i - 1);
    }
  }

  /** `escape_dict(d)`: every value escaped, keys and order kept. */
  function EscapeDict(esc: Escaper, d: Dict<string, Value>): (r: Dict<string, string>)
    ensures Keys(r) == Keys(d)
    ensures forall i :: 0 <= i < |d| ==> r[i].1 == esc.item(d[i].1)
  {
    if d == [] then [] else [(d[0].0, esc.item(d[0].1))] + EscapeDict(esc, d[1..])
  }

  // ----------------------------------------------------------------- read

  /** The statement `read` executes: the raw query when one is given, the
      SELECT template otherwise; then the keyword filters are merged into
      the parameters and, when there are any, the `:name` placeholders are
      substituted with their escaped values. */
  function ReadStatement(esc: Escaper, res: string, opts: ReadOptions, kwargs: Dict<string, Value>): (q: string)
    ensures opts.params == [] && kwargs == [] ==>
              q == if opts.query.Some? then opts.query.value else SelectQuery(opts, res, BuildWhere(esc, opts.where, res, []))
  {
    var base := if opts.query.Some? then opts.query.value
                else SelectQuery(opts, res, BuildWhere(esc, opts.where, res, kwargs));
    var params := Dicts.Update(opts.params, kwargs);
    if |params| > 0 then Substitute(base, EscapeDict(esc, params)) else base
  }

  /** The parameters `read` binds: the keyword filters over the given
      parameters, each value escaped. */
  function Bindings(esc: Escaper, params: Dict<string, Value>, kwargs: Dict<string, Value>): (b: Dict<string, string>)
    ensures Keys(b) == Keys(Dicts.Update(params, kwargs))
  {
    EscapeDict(esc, Dicts.Update(params, kwargs))
  }

  /** A name is bound to the escaped keyword filter of that name when there
      is one, else to the escaped parameter. */
  lemma MergedParam(esc: Escaper, params: Dict<string, Value>, kwargs: Dict<string, Value>, k: string)
    requires Distinct(kwargs)
    ensures var v := if HasKey(kwargs, k) then Get(kwargs, k) else Get(params, k);
            Get(Bindings(esc, params, kwargs), k) == if v.Some? then Some(esc.item(v.value)) else None
  {
    UpdateGet(params, kwargs, k);
    EscapeDictGet(esc, Dicts.Update(params, kwargs), k);
  }

  /** Escaping keeps which value `Get` finds. */
  lemma {:induction false} EscapeDictGet(esc: Escaper, d: Dict<string, Value>, k: string)
    ensures Get(EscapeDict(esc, d), k) == if HasKey(d, k) then Some(esc.item(Get(d, k).value)) else None
  {
    if d != [] {
      EscapeDictGet(esc, d[1..], k);
      assert EscapeDict(esc, d)[1..] == EscapeDict(esc, d[1..]);
      assert Keys(d) == [d[0].0] + Keys(d[1..]);
    }
  }

  /** Escaping keeps the names, so it keeps them prefix-free. */
  lemma EscapePrefixFree(esc: Escaper, d: Dict<string, Value>)
    requires PrefixFree(d)
    ensures PrefixFree(EscapeDict(esc, d))
  {
    var e := EscapeDict(esc, d);
    forall i, j | 0 <= i < |e| && 0 <= j < |e| && IsPrefix(e[i].0, e[j].0) ensures e[i].0 == e[j].0 {
      assert e[i].0 == Keys(e)[i] == Keys(d)[i] == d[i].0;
      assert e[j].0 == Keys(e)[j] == Keys(d)[j] == d[j].0;
    }
  }

  /** A raw query of colon-free text and `:name` placeholders, each naming
      a parameter or keyword filter, with prefix-free merged names: `read`
      executes it with every placeholder replaced by its bound value. */
  lemma RawQueryFilled(esc: Escaper, res: string, opts: ReadOptions, kwargs: Dict<string, Value>, pieces: seq<Piece>)
    requires opts.query == Some(Render(pieces)) && ColonFreeTexts(pieces)
    requires forall i :: 0 <= i < |pieces| && pieces[i].Slot? ==>
               HasKey(opts.params, pieces[i].name) || HasKey(kwargs, pieces[i].name)
    requires PrefixFree(Dicts.Update(opts.params, kwargs))
    ensures Bound(pieces, Bindings(esc, opts.params, kwargs))
    ensures ReadStatement(esc, res, opts, kwargs) == Fill(pieces, Bindings(esc, opts.params, kwargs))
  {
    var b := Bindings(esc, opts.params, kwargs);
    assert Bound(pieces, b) by {
      forall i | 0 <= i < |pieces| && pieces[i].Slot? ensures HasKey(b, pieces[i].name) {
        assert HasKey(Dicts.Update(opts.params, kwargs), pieces[i].name);
      }
    }
    EscapePrefixFree(esc, Dicts.Update(opts.params, kwargs));
    SubstituteRender(pieces, b);
  }

  /** A raw query bypasses the template: none of the template arguments
      reach the statement. */
  lemma RawQueryBypass(esc: Escaper, res: string, opts: ReadOptions, other: ReadOptions, kwargs: Dict<string, Value>)
    requires opts.query.Some? && other.query == opts.query && other.params == opts.params
    ensures ReadStatement(esc, res, opts, kwargs) == ReadStatement(esc, res, other, kwargs)
  {
  }

  /** Fetching one record by one scalar filter (`find_by_id`, or a
      relation without a through hop): the statement filters on the key and
      carries the escaped value in place of the placeholder, with a limit of
      one row. */
  lemma SingleFilterStatement(esc: Escaper, res: string, key: string, value: Value)
    requires ':' !in res && ':' !in key && !value.VList?
    ensures ReadStatement(esc, res, DefaultOptions().(limit := Some(1)), [(key, value)])
            == "SELECT " + res + ".* FROM " + res + " WHERE " + res + "." + key + " = "
               + esc.item(value) + " LIMIT 1"
  {
    var head := "SELECT " + res + ".* FROM " + res + " WHERE " + res + "." + key + " = ";
    SingleFilterRead(esc, res, key, value);
    SingleFilterSelect(esc, res, key, value);
    FilterHeadColonFree(res, key);
    SubstituteOne(head, key, esc.item(value), " LIMIT 1");
  }

  /** One scalar keyword filter: the statement is the template with the
      escaped filter substituted. */
  lemma SingleFilterRead(esc: Escaper, res: string, key: string, value: Value)
    ensures var opts := DefaultOptions().(limit := Some(1));
            ReadStatement(esc, res, opts, [(key, value)])
            == Substitute(SelectQuery(opts, res, BuildWhere(esc, None, res, [(key, value)])), [(key, esc.item(value))])
  {
    SingleFilterParams(esc, key, value);
  }

  /** The statement up to the placeholder holds no colon of its own. */
  lemma FilterHeadColonFree(res: string, key: string)
    requires ':' !in res && ':' !in key
    ensures ':' !in "SELECT " + res + ".* FROM " + res + " WHERE " + res + "." + key + " = "
  {
  }

  /** A read with an explicit join, an explicit condition holding one
      `:name` placeholder and that one parameter: the statement is the
      template with the escaped value in place of the placeholder. */
  lemma BoundConditionStatement(esc: Escaper, res: string, joins: string, pre: string, name: string, value: Value, post: string)
    requires ':' !in res && ':' !in joins && ':' !in pre && ':' !in name && ':' !in post
    ensures ReadStatement(esc, res, DefaultOptions().(joins := Some(joins), where := Some(pre + ":" + name + post), params := [(name, value)]), [])
            == "SELECT " + res + ".* FROM " + res + " " + joins + " WHERE " + pre + esc.item(value) + post
  {
    var cond := pre + ":" + name + post;
    var opts := DefaultOptions().(joins := Some(joins), where := Some(cond), params := [(name, value)]);
    var head := "SELECT " + res + ".* FROM " + res + " " + joins + " WHERE " + pre;
    BoundConditionParts(esc, res, joins, pre, name, value, post);
    JoinedHeadColonFree(res, joins, pre);
    SubstituteOne(head, name, esc.item(value), post);
  }

  /** The statement up to the condition holds no colon of its own. */
  lemma JoinedHeadColonFree(res: string, joins: string, pre: string)
    requires ':' !in res && ':' !in joins && ':' !in pre
    ensures ':' !in "SELECT " + res + ".* FROM " + res + " " + joins + " WHERE " + pre
  {
  }

  /** The statement of a read with one bound condition, before
      substitution, and its one escaped parameter. */
  lemma BoundConditionParts(esc: Escaper, res: string, joins: string, pre: string, name: string, value: Value, post: string)
    ensures var cond := pre + ":" + name + post;
            var opts := DefaultOptions().(joins := Some(joins), where := Some(cond), params := [(name, value)]);
            ReadStatement(esc, res, opts, [])
            == Substitute("SELECT " + res + ".* FROM " + res + " " + joins + " WHERE " + pre + (":" + name + post), [(name, esc.item(value))])
  {
    var cond := pre + ":" + name + post;
    var opts := DefaultOptions().(joins := Some(joins), where := Some(cond), params := [(name, value)]);
    var ps := [(name, esc.item(value))];
    var w := " WHERE " + cond;
    assert ReadStatement(esc, res, opts, []) == Substitute(SelectQuery(opts, res, BuildWhere(esc, Some(cond), res, [])), ps) by {
      assert EscapeDict(esc, [(name, value)]) == ps;
    }
    assert BuildWhere(esc, Some(cond), res, []) == w by {
      assert WhereParts(Some(cond), []) == [cond];
    }
    assert SelectQuery(opts, res, w) == SelectHead(opts, res) + (" " + joins + w) by {
      SelectJoinsWhere(opts, res, w);
    }
    assert SelectHead(opts, res) == "SELECT " + res + ".* FROM " + res;
    Reassociate("SELECT " + res + ".* FROM " + res, " ", joins, " WHERE ", pre, ":", name, post);
  }

  /** A SELECT with joins and a condition and nothing else is the head,
      the joins and the WHERE clause. */
  lemma SelectJoinsWhere(opts: ReadOptions, res: string, w: string)
    requires opts.joins.Some? && opts.group.None? && opts.having.None? && opts.limit.None? && opts.offset.None?
    ensures SelectQuery(opts, res, w) == SelectHead(opts, res) + (" " + opts.joins.value + w)
  {
    var t := " " + opts.joins.value + w;
    assert t + "" + "" + "" + "" == t;
  }

  /** Concatenation regrouped. */
  lemma Reassociate(h: string, s: string, j: string, w: string, p: string, c: string, n: string, t: string)
    ensures h + (s + j + (w + (p + c + n + t))) == h + s + j + w + p + (c + n + t)
  {
  }

  /** Colon-free text, one placeholder for the only parameter and
      colon-free text after it: the value takes the placeholder's place. */
  lemma SubstituteOne(head: string, name: string, v: string, post: string)
    requires ':' !in head && ':' !in name && ':' !in post
    ensures Substitute(head + (":" + name + post), [(name, v)]) == head + v + post
  {
    assert head + (v + post) == head + v + post;
    var ps := [(name, v)];
    SubstitutePrefix(head, ":" + name + post, ps);
    assert HasKey(ps, name) by { assert Keys(ps)[0] == name; }
    SubstitutePlaceholder(name, post, ps);
    SubstituteNoColon(post, ps);
  }

  /** One scalar keyword filter and no explicit parameters: the parameter
      map is that filter, escaped. */
  lemma SingleFilterParams(esc: Escaper, key: string, value: Value)
    ensures Dicts.Update([], [(key, value)]) == [(key, value)]
    ensures EscapeDict(esc, [(key, value)]) == [(key, esc.item(value))]
  {
    var kwargs := [(key, value)];
    assert Put([], key, value) == kwargs;
    assert kwargs[1..] == [];
  }

  /** One scalar keyword filter with a limit of one row. */
  lemma SingleFilterSelect(esc: Escaper, res: string, key: string, value: Value)
    requires !value.VList?
    ensures SelectQuery(DefaultOptions().(limit := Some(1)), res, BuildWhere(esc, None, res, [(key, value)]))
            == "SELECT " + res + ".* FROM " + res + " WHERE " + res + "." + key + " = " + (":" + key + " LIMIT 1")
  {
    var kwargs := [(key, value)];
    var cond := res + "." + key + " = :" + key;
    assert Conditions(esc, res, kwargs) == [cond];
    assert WhereParts(None, [cond]) == [cond];
    assert BuildWhere(esc, None, res, kwargs) == " WHERE " + cond;
    assert IntToString(1) == "1";
  }

  /** Every row becomes a record of the class that is not new; a row that
      cannot be a record (a reserved column name) fails the read. */
  function Hydrate(classes: Classes, cls: string, rows: seq<Row>): (r: Result<seq<Record>>)
    ensures r.Ok? ==> |r.value| == |rows|
    ensures r.Ok? ==> forall i :: 0 <= i < |rows| ==> Ok(r.value[i]) == NewRecord(classes, cls, VDict(rows[i]), false)
    ensures r.Ok? ==> forall i :: 0 <= i < |rows| ==> r.value[i].cls == cls && !r.value[i].isNew
    ensures r.Err? ==> exists i :: 0 <= i < |rows| && NewRecord(classes, cls, VDict(rows[i]), false).Err?
  {
    if rows == [] then Ok([])
    else
      var first := NewRecord(classes, cls, VDict(rows[0]), false);
      if first.Err? then Err(first.error)
      else
        match Hydrate(classes, cls, rows[1..])
        case Err(e) => Err(e)
        case Ok(rest) => Ok([first.value] + rest)
  }

  /** `read(model_cls, ...)` with the guard that accepts a model class:
      build the statement, execute it and hydrate the rows. */
  function Read(classes: Classes, d: Driver, esc: Escaper, st: SqlState, target: Arg,
                opts: ReadOptions, kwargs: Dict<string, Value>): (r: Step<seq<Record>>)
    ensures !target.ModelClassObject? ==> r == Step(Err(ModelType), st)
    ensures target.ModelClassObject? ==>
              r.state.lastQuery == Some(ReadStatement(esc, ResourceOf(classes, target.cls), opts, kwargs))
    ensures target.ModelClassObject? ==>
              var q := ReadStatement(esc, ResourceOf(classes, target.cls), opts, kwargs);
              && (d.run(q).Done? ==> r.result == Hydrate(classes, target.cls, d.run(q).cursor.rows))
              && (d.run(q).Integrity? ==> r.result == Err(SqlAdapterExecute(d.run(q).detail)))
    ensures r.result.Ok? ==> forall i :: 0 <= i < |r.result.value| ==> !r.result.value[i].isNew && r.result.value[i].cls == target.cls
  {
    match ReadGuard(target)
    case Err(e) => Step(Err(e), st)
    case Ok(cls) =>
      var ex := Execute(d, st, ReadStatement(esc, ResourceOf(classes, cls), opts, kwargs));
      match ex.result
      case Err(e) => Step(Err(e), ex.state)
      case Ok(cursor) => Step(Hydrate(classes, cls, cursor.rows), ex.state)
  }

  // ---------------------------------------------------------------- write

  /** `__get_model_data(model)`: the plain fields, escaped, restricted to
      the table's columns, in field order. */
  function ModelData(esc: Escaper, rec: Record, columns: set<string>): (r: Dict<string, string>)
    ensures forall x :: x in r <==> x in EscapeDict(esc, GetData(rec, false)) && x.0 in columns
    ensures Distinct(rec.data) ==> Distinct(r)
    ensures r == [] <==> forall i :: 0 <= i < |rec.data| ==> rec.data[i].0 !in columns
  {
    var escaped := EscapeDict(esc, GetData(rec, false));
    EscapeDictKeys(esc, rec.data);
    Restrict(escaped, columns)
  }

  /** Escaping a concatenation escapes each part in place. */
  lemma {:induction false} EscapeDictConcat(esc: Escaper, a: Dict<string, Value>, b: Dict<string, Value>)
    ensures EscapeDict(esc, a + b) == EscapeDict(esc, a) + EscapeDict(esc, b)
  {
    if a == [] {
      assert a + b == b;
    } else {
      assert (a + b)[0] == a[0];
      assert (a + b)[1..] == a[1..] + b;
      EscapeDictConcat(esc, a[1..], b);
    }
  }

  /** The column data of a record whose fields are split in two: the column
      data of the front fields, then that of the back fields. */
  lemma ModelDataConcat(esc: Escaper, rec: Record, columns: set<string>, front: Dict<string, Value>, back: Dict<string, Value>)
    requires rec.data == front + back
    ensures ModelData(esc, rec, columns) == ModelData(esc, rec.(data := front), columns) + ModelData(esc, rec.(data := back), columns)
  {
    EscapeDictConcat(esc, front, back);
    RestrictConcat(EscapeDict(esc, front), EscapeDict(esc, back), columns);
  }

  /** The column data of one field: the field with its escaped value when
      it names a column, and nothing otherwise. */
  lemma ModelDataOne(esc: Escaper, rec: Record, columns: set<string>, key: string, value: Value)
    requires rec.data == [(key, value)]
    ensures ModelData(esc, rec, columns) == if key in columns then [(key, esc.item(value))] else []
  {
    assert EscapeDict(esc, rec.data) == [(key, esc.item(value))];
    RestrictOne((key, esc.item(value)), columns);
  }

  /** Field order survives into the column data: two column fields appear
      with their escaped values in the order they have in the record, each
      surrounded by the column data of the fields around it. */
  lemma ModelDataKeepsOrder(esc: Escaper, rec: Record, columns: set<string>,
                            pre: Dict<string, Value>, a: string, va: Value, mid: Dict<string, Value>,
                            b: string, vb: Value, post: Dict<string, Value>)
    requires rec.data == pre + [(a, va)] + mid + [(b, vb)] + post
    requires a in columns && b in columns
    ensures ModelData(esc, rec, columns)
            == ModelData(esc, rec.(data := pre), columns) + [(a, esc.item(va))] + ModelData(esc, rec.(data := mid), columns)
               + [(b, esc.item(vb))] + ModelData(esc, rec.(data := post), columns)
  {
    var p1 := pre + [(a, va)];
    var p2 := p1 + mid;
    var p3 := p2 + [(b, vb)];
    ModelDataConcat(esc, rec, columns, p3, post);
    ModelDataConcat(esc, rec.(data := p3), columns, p2, [(b, vb)]);
    ModelDataConcat(esc, rec.(data := p2), columns, p1, mid);
    ModelDataConcat(esc, rec.(data := p1), columns, pre, [(a, va)]);
    ModelDataOne(esc, rec.(data := [(a, va)]), columns, a, va);
    ModelDataOne(esc, rec.(data := [(b, vb)]), columns, b, vb);
  }

  /** Escaping keeps the keys where they were. */
  lemma EscapeDictKeys(esc: Escaper, d: Dict<string, Value>)
    ensures |EscapeDict(esc, d)| == |d|
    ensures forall i :: 0 <= i < |d| ==> EscapeDict(esc, d)[i].0 == d[i].0
    ensures Distinct(d) ==> Distinct(EscapeDict(esc, d))
  {
    var e := EscapeDict(esc, d);
    assert Keys(e) == Keys(d);
    forall i | 0 <= i < |d| ensures e[i].0 == d[i].0 {
      assert Keys(e)[i] == Keys(d)[i];
    }
  }

  function ShowColumns(res: string): string {
    "SHOW COLUMNS FROM " + res
  }

  /** `INSERT INTO res (k1,k2,...) VALUES (v1,v2,...)`: the column list and
      the value list are the names and the escaped values of the data, in
      the same order, which `InsertListsRoundTrip` splits back. */
  function InsertStatement(res: string, data: Dict<string, string>): (q: string)
    ensures IsPrefix("INSERT INTO " + res + " (", q)
    ensures q == "INSERT INTO " + res + " (" + Join([','], Keys(data)) + ") VALUES (" + Join([','], Values(data)) + ")"
  {
    var head := "INSERT INTO " + res + " (";
    var q := head + Join([','], Keys(data)) + ") VALUES (" + Join([','], Values(data)) + ")";
    assert q[..|head|] == head;
    q
  }

  /** The column and value lists of an INSERT split back into the columns
      and values of the data, position by position, as long as neither a
      name nor an escaped value holds a comma. */
  lemma InsertListsRoundTrip(data: Dict<string, string>)
    requires data != []
    requires forall i :: 0 <= i < |data| ==> ',' !in data[i].0 && ',' !in data[i].1
    ensures var cols := Split(Join([','], Keys(data)), ',');
            var vals := Split(Join([','], Values(data)), ',');
            |cols| == |vals| == |data| &&
            forall i :: 0 <= i < |data| ==> (cols[i], vals[i]) == data[i]
  {
    SplitJoin(',', Keys(data));
    SplitJoin(',', Values(data));
  }

  function Assignments(data: Dict<string, string>): (r: seq<string>)
    ensures |r| == |data|
    ensures forall i :: 0 <= i < |data| ==> r[i] == data[i].0 + " = " + data[i].1
  {
    if data == [] then [] else [data[0].0 + " = " + data[0].1] + Assignments(data[1..])
  }

  /** `UPDATE res SET k = v, ... WHERE pk = id`: one `name = value`
      assignment per column of the data, in order, and a condition on the
      key alone. */
  function UpdateStatement(res: string, data: Dict<string, string>, pk: string, id: string): (q: string)
    ensures IsPrefix("UPDATE " + res + " SET ", q)
    ensures IsSuffix(" WHERE " + pk + " = " + id, q)
    ensures q == "UPDATE " + res + " SET " + Join(", ", Assignments(data)) + " WHERE " + pk + " = " + id
  {
    var head := "UPDATE " + res + " SET ";
    var cond := " WHERE " + pk + " = " + id;
    var q := head + Join(", ", Assignments(data)) + cond;
    assert q[..|head|] == head;
    assert q[|q| - |cond|..] == cond;
    q
  }

  /** `DELETE FROM res WHERE pk = id LIMIT 1`: a condition on the key alone,
      and at most one row goes. */
  function DeleteStatement(res: string, pk: string, id: string): (q: string)
    ensures IsPrefix("DELETE FROM " + res + " WHERE ", q)
    ensures |q| >= 8 && q[|q| - 8..] == " LIMIT 1"
    ensures q == "DELETE FROM " + res + " WHERE " + pk + " = " + id + " LIMIT 1"
    ensures q[|"DELETE FROM " + res + " WHERE "|..|q| - 8] == pk + " = " + id
  {
    var head := "DELETE FROM " + res + " WHERE ";
    var cond := pk + " = " + id;
    var q := head + cond + " LIMIT 1";
    assert q[..|head|] == head;
    assert q[|head|..|q| - 8] == cond;
    q
  }

  /** The primary key of a class, `id` unless `_pk_` says otherwise. */
  function PkOf(classes: Classes, cls: string): (pk: string)
    ensures DeclOf(classes, cls).pk.None? ==> pk == "id"
    ensures DeclOf(classes, cls).pk.Some? ==> pk == DeclOf(classes, cls).pk.value
  {
    match DeclOf(classes, cls).pk
    case Some(p) => p
    case None => "id"
  }

  /** The key text of a record: `escape_string(str(get_id()))`.  When the
      class declares nothing under the key name and the record holds no
      instance attribute of it, the text comes from the stored key field,
      and an unset key reads as `None`. */
  function IdText(classes: Classes, esc: Escaper, rec: Record): (t: string)
    ensures var pk := PkOf(classes, rec.cls);
            !HasKey(rec.nested, pk) && AttrOf(classes, rec.cls, pk).None? ==>
              && (HasKey(rec.data, pk) ==> t == esc.str(Str(Get(rec.data, pk).value)))
              && (!HasKey(rec.data, pk) ==> t == esc.str("None"))
    ensures var pk := PkOf(classes, rec.cls);
            !HasKey(rec.nested, pk) && AttrOf(classes, rec.cls, pk).None? && Get(rec.data, pk).Some? &&
            Get(rec.data, pk).value.VInt? && Get(rec.data, pk).value.i >= 0 ==>
              t == esc.str(NatToString(Get(rec.data, pk).value.i))
  {
    esc.str(Str(GetAttr(classes, rec, PkOf(classes, rec.cls))))
  }

  /** `create(model)`: after the guard, the column lookup (which becomes the
      last query), the filtered data and, when there is any, the INSERT. */
  function Create(classes: Classes, d: Driver, esc: Escaper, st: SqlState, arg: Arg): (r: Step<Cursor>)
    ensures !arg.ModelInstance? ==> r == Step(Err(ModelType), st)
    ensures arg.ModelInstance? ==>
              var res := ResourceOf(classes, arg.rec.cls);
              var data := ModelData(esc, arg.rec, d.columns(res));
              && (data == [] ==> r == Step(Err(SqlAdapterExecute("Nothing to insert.")), SqlState(Some(ShowColumns(res)))))
              && (data != [] ==> r == Execute(d, st, InsertStatement(res, data)))
  {
    match WriteGuard(arg)
    case Err(e) => Step(Err(e), st)
    case Ok(rec) =>
      var res := ResourceOf(classes, rec.cls);
      var shown := SqlState(Some(ShowColumns(res)));
      var data := ModelData(esc, rec, d.columns(res));
      if data == [] then Step(Err(SqlAdapterExecute("Nothing to insert.")), shown)
      else Execute(d, shown, InsertStatement(res, data))
  }

  /** `update(model)`: as `create`, with an UPDATE keyed by the primary key. */
  function Update(classes: Classes, d: Driver, esc: Escaper, st: SqlState, arg: Arg): (r: Step<Cursor>)
    ensures !arg.ModelInstance? ==> r == Step(Err(ModelType), st)
    ensures arg.ModelInstance? ==>
              var res := ResourceOf(classes, arg.rec.cls);
              var data := ModelData(esc, arg.rec, d.columns(res));
              && (data == [] ==> r == Step(Err(SqlAdapterExecute("Nothing to update.")), SqlState(Some(ShowColumns(res)))))
              && (data != [] ==> r == Execute(d, st, UpdateStatement(res, data, PkOf(classes, arg.rec.cls), IdText(classes, esc, arg.rec))))
  {
    match WriteGuard(arg)
    case Err(e) => Step(Err(e), st)
    case Ok(rec) =>
      var res := ResourceOf(classes, rec.cls);
      var shown := SqlState(Some(ShowColumns(res)));
      var data := ModelData(esc, rec, d.columns(res));
      if data == [] then Step(Err(SqlAdapterExecute("Nothing to update.")), shown)
      else Execute(d, shown, UpdateStatement(res, data, PkOf(classes, rec.cls), IdText(classes, esc, rec)))
  }

  /** `delete(model)`: the DELETE statement, no column lookup. */
  function Delete(classes: Classes, d: Driver, esc: Escaper, st: SqlState, arg: Arg): (r: Step<Cursor>)
    ensures !arg.ModelInstance? ==> r == Step(Err(ModelType), st)
    ensures arg.ModelInstance? ==>
              r == Execute(d, st, DeleteStatement(ResourceOf(classes, arg.rec.cls), PkOf(classes, arg.rec.cls), IdText(classes, esc, arg.rec)))
  {
    match WriteGuard(arg)
    case Err(e) => Step(Err(e), st)
    case Ok(rec) =>
      Execute(d, st, DeleteStatement(ResourceOf(classes, rec.cls), PkOf(classes, rec.cls), IdText(classes, esc, rec)))
  }

  /** A record none of whose fields is a column issues no INSERT: the last
      query is the column lookup. */
  lemma NothingToInsertIssuesNoInsert(classes: Classes, d: Driver, esc: Escaper, st: SqlState, rec: Record)
    requires forall x :: x in rec.data ==> x.0 !in d.columns(ResourceOf(classes, rec.cls))
    ensures Create(classes, d, esc, st, ModelInstance(rec)).result == Err(SqlAdapterExecute("Nothing to insert."))
    ensures Create(classes, d, esc, st, ModelInstance(rec)).state.lastQuery == Some(ShowColumns(ResourceOf(classes, rec.cls)))
  {
  }
}

=== FILE: registry.dfy ===
/** The process-wide adapter registry (pyar/base.py): adapters by name,
    with the default adapter kept under the name `None`. */
module Registry {
  import opened Errors

  /** Adapter name (or the default slot) to adapter. */
  type Registry<A> = map<Option<string>, A>

  /** What `add_adapter` is handed: an adapter, or an object that is not
      one. */
  datatype Candidate<A> = IsAdapter(adapter: A) | NotAdapter

  /** `add_adapter(adapter, name)`: a non-adapter is rejected and the
      registry is left as it was; otherwise the name now maps to the
      adapter, replacing any earlier one. */
  function AddAdapter<A>(reg: Registry<A>, c: Candidate<A>, name: Option<string>): (r: Result<Registry<A>>)
    ensures r.Err? <==> c.NotAdapter?
    ensures r.Err? ==> r.error == AdapterType
    ensures r.Ok? ==> name in r.value && r.value[name] == c.adapter
    ensures r.Ok? ==> forall n :: n != name ==> (n in r.value <==> n in reg) && (n in reg ==> r.value[n] == reg[n])
  {
    match c
    case NotAdapter => Err(AdapterType)
    case IsAdapter(a) => Ok(reg[name := a])
  }

  /** `get_adapter(name)`: an unregistered name is an error naming it. */
  function GetAdapter<A>(reg: Registry<A>, name: Option<string>): (r: Result<A>)
    ensures r.Ok? <==> name in reg
    ensures r.Ok? ==> r.value == reg[name]
    ensures r.Err? ==> r.error == AdapterNotExists(name)
  {
    if name in reg then Ok(reg[name]) else Err(AdapterNotExists(name))
  }

  /** Registering and then looking up: the same name gives the adapter
      just added, every other name gives what it gave before. */
  lemma AddThenGet<A>(reg: Registry<A>, a: A, name: Option<string>, other: Option<string>)
    requires other != name
    ensures GetAdapter(AddAdapter(reg, IsAdapter(a), name).value, name) == Ok(a)
    ensures GetAdapter(AddAdapter(reg, IsAdapter(a), name).value, other) == GetAdapter(reg, other)
  {
  }

  /** Registering twice under one name keeps only the second adapter. */
  lemma ReRegisterReplaces<A>(reg: Registry<A>, a: A, b: A, name: Option<string>)
    ensures AddAdapter(AddAdapter(reg, IsAdapter(a), name).value, IsAdapter(b), name)
            == AddAdapter(reg, IsAdapter(b), name)
  {
    assert reg[name := a][name := b] == reg[name := b];
  }

  /** Omitting the name registers the default adapter, which is what a
      model with no adapter name is served by. */
  lemma DefaultSlot<A>(reg: Registry<A>, a: A)
    ensures GetAdapter(AddAdapter(reg, IsAdapter(a), None).value, None) == Ok(a)
  {
  }

}

=== FILE: relations.dfy ===
/** Relation descriptors (pyar/sql_model.py, `Relation` and its three
    kinds): key defaulting, the owner's relation value, the filters that
    select the related records (directly or through a join resource), the
    load itself and the per-owner cache.

    A descriptor's options are taken afresh on every load; the owner's
    identity is a number standing for `hash(owner)`. */
module Relations {
  import opened Errors
  import opened Strings
  import opened Dicts
  import opened Model
  import MySql
  import opened SqlModel

  /** The three relation kinds. */
  datatype Kind = HasMany | HasOne | BelongTo

  /** The join-resource hop of a through relation: its model class and its
      three keys, each unset unless configured. */
  datatype Through = Through(cls: string, relationKey: Option<string>, foreignKey: Option<string>, throughRelationKey: Option<string>)

  /** A declared relation: its kind, the target model class, the two keys
      (unset unless configured), the optional through hop, and the query
      options and extra filters passed on to the finder. */
  datatype Relation = Relation(
    kind: Kind,
    target: string,
    foreignKey: Option<string>,
    relationKey: Option<string>,
    through: Option<Through>,
    opts: MySql.ReadOptions,
    kwargs: Dict<string, Value>)

  /** `<resource>_<pk>`: how one class's key is named in another's table. */
  function KeyColumn(classes: Classes, cls: string): string {
    ResourceOf(classes, cls) + "_" + MySql.PkOf(classes, cls)
  }

  /** The configured value, or the default when unset. */
  function OrDefault(configured: Option<string>, default: string): (k: string)
    ensures configured.Some? ==> k == configured.value
    ensures configured.None? ==> k == default
  {
    if configured.Some? then configured.value else default
  }

  /** The owner's field holding the relation value: for has-many and
      has-one the owner's key, for belongs-to the target's key column. */
  function RelationKey(classes: Classes, rel: Relation, owner: string): (k: string)
    ensures rel.relationKey.Some? ==> k == rel.relationKey.value
    ensures rel.relationKey.None? && rel.kind.BelongTo? ==> k == KeyColumn(classes, rel.target)
    ensures rel.relationKey.None? && !rel.kind.BelongTo? ==> k == MySql.PkOf(classes, owner)
  {
    OrDefault(rel.relationKey, if rel.kind.BelongTo? then KeyColumn(classes, rel.target) else MySql.PkOf(classes, owner))
  }

  /** The target's field matched against the relation value: for has-many
      and has-one the owner's key column, for belongs-to the target's key. */
  function ForeignKey(classes: Classes, rel: Relation, owner: string): (k: string)
    ensures rel.foreignKey.Some? ==> k == rel.foreignKey.value
    ensures rel.foreignKey.None? && rel.kind.BelongTo? ==> k == MySql.PkOf(classes, rel.target)
    ensures rel.foreignKey.None? && !rel.kind.BelongTo? ==> k == KeyColumn(classes, owner)
  {
    OrDefault(rel.foreignKey, if rel.kind.BelongTo? then MySql.PkOf(classes, rel.target) else KeyColumn(classes, owner))
  }

  /** The defaults of the two sides of one association agree: a has-many
      (or has-one) from A to B and a belongs-to from B to A match the same
      pair of columns, the other way round. */
  lemma DefaultKeysPairUp(classes: Classes, forward: Relation, backward: Relation, a: string, b: string)
    requires !forward.kind.BelongTo? && forward.target == b && forward.foreignKey.None? && forward.relationKey.None?
    requires backward.kind.BelongTo? && backward.target == a && backward.foreignKey.None? && backward.relationKey.None?
    ensures ForeignKey(classes, forward, a) == RelationKey(classes, backward, b)
    ensures RelationKey(classes, forward, a) == ForeignKey(classes, backward, b)
  {
  }

  /** `_get_relation_value()`: the owner's relation-key field; None there
      means the relation cannot be resolved. */
  function RelationValue(classes: Classes, rel: Relation, owner: Record): (r: Result<Value>)
    ensures r.Ok? <==> GetAttr(classes, owner, RelationKey(classes, rel, owner.cls)) != VNone
    ensures r.Ok? ==> r.value == GetAttr(classes, owner, RelationKey(classes, rel, owner.cls))
    ensures r.Err? ==> r.error == RelationFieldNotExists(RelationKey(classes, rel, owner.cls))
  {
    var key := RelationKey(classes, rel, owner.cls);
    var v := GetAttr(classes, owner, key);
    if v.VNone? then Err(RelationFieldNotExists(key)) else Ok(v)
  }

  /** The finder arguments a load uses. */
  datatype Filters = Filters(opts: MySql.ReadOptions, kwargs: Dict<string, Value>)

  /** `LEFT JOIN thr ON (thr.rk = target.fk)`. */
  function ThroughJoin(thr: string, rk: string, target: string, fk: string): string {
    "LEFT JOIN " + thr + " ON (" + thr + "." + rk + " = " + target + "." + fk + ")"
  }

  /** The parameter the owner's value is bound to in a through relation. */
  const ForeignKeyParam := "foreign_key"

  /** `(thr.trk = `, the text in front of the placeholder. */
  function ConditionHead(thr: string, trk: string): string {
    "(" + thr + "." + trk + " = "
  }

  /** `(thr.trk = :foreign_key)`. */
  function ThroughCondition(thr: string, trk: string): string {
    ConditionHead(thr, trk) + ":" + ForeignKeyParam + ")"
  }

  /** An option extended by a fragment: the fragment alone when the option
      is unset, else the option, the separator and the fragment. */
  function Extend(prev: Option<string>, sep: string, fragment: string): (r: string)
    ensures prev.None? ==> r == fragment
    ensures prev.Some? ==> IsPrefix(prev.value + sep, r)
    ensures IsSuffix(fragment, r)
  {
    var head := if prev.Some? then prev.value + sep else "";
    assert (head + fragment)[..|head|] == head;
    assert (head + fragment)[|head + fragment| - |fragment|..] == fragment;
    head + fragment
  }

  /** The through hop's three keys after defaulting: the target's key
      column, the target's key, and the owner's key column. */
  function ThroughKeys(classes: Classes, rel: Relation, t: Through, owner: string): (keys: (string, string, string))
    ensures keys.0 == OrDefault(t.relationKey, KeyColumn(classes, rel.target))
    ensures keys.1 == OrDefault(t.foreignKey, MySql.PkOf(classes, rel.target))
    ensures keys.2 == OrDefault(t.throughRelationKey, KeyColumn(classes, owner))
  {
    (OrDefault(t.relationKey, KeyColumn(classes, rel.target)),
     OrDefault(t.foreignKey, MySql.PkOf(classes, rel.target)),
     OrDefault(t.throughRelationKey, KeyColumn(classes, owner)))
  }

  /** `_prepare_filters()`.  Without a through hop the target is filtered
      on its foreign key; with one, the join resource is LEFT JOINed to the
      target and filtered on the owner's value, bound as `:foreign_key`. */
  function PrepareFilters(classes: Classes, rel: Relation, owner: string, value: Value): (f: Filters)
    ensures rel.through.None? ==>
              && f.opts == rel.opts
              && Get(f.kwargs, ForeignKey(classes, rel, owner)) == Some(value)
              && forall k :: k != ForeignKey(classes, rel, owner) ==> Get(f.kwargs, k) == Get(rel.kwargs, k)
    ensures rel.through.Some? ==>
              var t := rel.through.value;
              var keys := ThroughKeys(classes, rel, t, owner);
              var thr := ResourceOf(classes, t.cls);
              && f.kwargs == rel.kwargs
              && f.opts.joins == Some(Extend(rel.opts.joins, " ", ThroughJoin(thr, keys.0, ResourceOf(classes, rel.target), keys.1)))
              && f.opts.where == Some(Extend(rel.opts.where, " AND ", ThroughCondition(thr, keys.2)))
              && Get(f.opts.params, ForeignKeyParam) == Some(value)
              && (forall k :: k != ForeignKeyParam ==> Get(f.opts.params, k) == Get(rel.opts.params, k))
              && f.opts.(joins := rel.opts.joins, where := rel.opts.where, params := rel.opts.params) == rel.opts
  {
    match rel.through
    case None => Filters(rel.opts, Put(rel.kwargs, ForeignKey(classes, rel, owner), value))
    case Some(t) =>
      var keys := ThroughKeys(classes, rel, t, owner);
      var thr := ResourceOf(classes, t.cls);
      var joins := Extend(rel.opts.joins, " ", ThroughJoin(thr, keys.0, ResourceOf(classes, rel.target), keys.1));
      var where := Extend(rel.opts.where, " AND ", ThroughCondition(thr, keys.2));
      Filters(rel.opts.(joins := Some(joins), where := Some(where), params := Put(rel.opts.params, ForeignKeyParam, value)), rel.kwargs)
  }

  /** What a load yields: a list for has-many, one record or None
      otherwise. */
  datatype Loaded = Listed(records: seq<Record>) | First(found: Option<Record>)

  /** The finder options a load passes on: every declared option but
      `having`, which the relation stores and never forwards. */
  function LoadOptions(opts: MySql.ReadOptions): (o: MySql.ReadOptions)
    ensures o.having.None?
    ensures o.(having := opts.having) == opts
  {
    opts.(having := None)
  }

  /** `load()`: the relation value, the filters, then `find` for has-many
      and `find_one` for the other kinds. */
  function Load(classes: Classes, d: MySql.Driver, esc: MySql.Escaper, w: World, rel: Relation, owner: Record): (r: Found<Loaded>)
    ensures GetAttr(classes, owner, RelationKey(classes, rel, owner.cls)) == VNone ==>
              r == Found(Err(RelationFieldNotExists(RelationKey(classes, rel, owner.cls))), w)
    ensures r.result.Ok? ==> (r.result.value.Listed? <==> rel.kind.HasMany?)
    ensures r.result.Ok? && r.result.value.Listed? ==>
              forall i :: 0 <= i < |r.result.value.records| ==> !r.result.value.records[i].isNew
    ensures r.result.Ok? && r.result.value.First? && r.result.value.found.Some? ==> !r.result.value.found.value.isNew
    ensures RelationValue(classes, rel, owner).Ok? && rel.kind.HasMany? ==>
              var f := PrepareFilters(classes, rel, owner.cls, RelationValue(classes, rel, owner).value);
              var found := Find(classes, d, esc, w, rel.target, LoadOptions(f.opts), f.kwargs);
              && r.world == found.world
              && (found.result.Ok? ==> r.result == Ok(Listed(found.result.value)))
              && (found.result.Err? ==> r.result == Err(found.result.error))
    ensures RelationValue(classes, rel, owner).Ok? && !rel.kind.HasMany? ==>
              var f := PrepareFilters(classes, rel, owner.cls, RelationValue(classes, rel, owner).value);
              var one := FindOne(classes, d, esc, w, rel.target, LoadOptions(f.opts), f.kwargs);
              && r.world == one.world
              && (one.result.Ok? ==> r.result == Ok(First(one.result.value)))
              && (one.result.Err? ==> r.result == Err(one.result.error))
  {
    match RelationValue(classes, rel, owner)
    case Err(e) => Found(Err(e), w)
    case Ok(v) => LoadOf(classes, d, esc, w, rel, PrepareFilters(classes, rel, owner.cls, v))
  }

  /** A has-one or belongs-to relation asks for one row, whatever limit it
      was declared with. */
  lemma LoadOneIgnoresLimit(classes: Classes, d: MySql.Driver, esc: MySql.Escaper, w: World, rel: Relation, owner: Record, limit: Option<int>)
    requires !rel.kind.HasMany?
    ensures Load(classes, d, esc, w, rel.(opts := rel.opts.(limit := limit)), owner) == Load(classes, d, esc, w, rel, owner)
  {
    var v := RelationValue(classes, rel, owner);
    FiltersIgnoreLimit(classes, rel, owner, limit);
    if v.Ok? {
      var f := PrepareFilters(classes, rel, owner.cls, v.value);
      FindOneLimitsToOne(classes, d, esc, w, rel.target, LoadOptions(f.opts), f.kwargs, limit);
    }
  }

  /** A relation's declared `having` never reaches the statement: the load
      is the same whatever it was declared with. */
  lemma LoadIgnoresHaving(classes: Classes, d: MySql.Driver, esc: MySql.Escaper, w: World, rel: Relation, owner: Record, having: Option<string>)
    ensures Load(classes, d, esc, w, rel.(opts := rel.opts.(having := having)), owner) == Load(classes, d, esc, w, rel, owner)
  {
    var other := rel.(opts := rel.opts.(having := having));
    FiltersIgnoreHaving(classes, rel, owner, having);
    var v := RelationValue(classes, rel, owner);
    if v.Ok? {
      var f := PrepareFilters(classes, rel, owner.cls, v.value);
      var g := PrepareFilters(classes, other, owner.cls, v.value);
      assert g == f.(opts := f.opts.(having := having));
      LoadOfIgnoresHaving(classes, d, esc, w, rel, f, having);
    }
  }

  /** The declared `having` changes nothing in the relation value and only
      the `having` of the prepared filters. */
  lemma FiltersIgnoreHaving(classes: Classes, rel: Relation, owner: Record, having: Option<string>)
    ensures var other := rel.(opts := rel.opts.(having := having));
            && RelationValue(classes, other, owner) == RelationValue(classes, rel, owner)
            && forall v :: PrepareFilters(classes, other, owner.cls, v)
                           == PrepareFilters(classes, rel, owner.cls, v).(opts := PrepareFilters(classes, rel, owner.cls, v).opts.(having := having))
  {
    var other := rel.(opts := rel.opts.(having := having));
    assert RelationKey(classes, other, owner.cls) == RelationKey(classes, rel, owner.cls);
  }

  /** The finder step never reads the filters' `having`. */
  lemma LoadOfIgnoresHaving(classes: Classes, d: MySql.Driver, esc: MySql.Escaper, w: World, rel: Relation, f: Filters, having: Option<string>)
    ensures LoadOf(classes, d, esc, w, rel.(opts := rel.opts.(having := having)), f.(opts := f.opts.(having := having)))
            == LoadOf(classes, d, esc, w, rel, f)
  {
    assert LoadOptions(f.opts.(having := having)) == LoadOptions(f.opts);
  }

  /** The finder step of a load on given filters: `find` for has-many,
      `find_one` for the other kinds. */
  function LoadOf(classes: Classes, d: MySql.Driver, esc: MySql.Escaper, w: World, rel: Relation, f: Filters): Found<Loaded> {
    if rel.kind.HasMany? then
      var found := Find(classes, d, esc, w, rel.target, LoadOptions(f.opts), f.kwargs);
      match found.result
      case Err(e) => Found(Err(e), found.world)
      case Ok(records) => Found(Ok(Listed(records)), found.world)
    else
      var one := FindOne(classes, d, esc, w, rel.target, LoadOptions(f.opts), f.kwargs);
      match one.result
      case Err(e) => Found(Err(e), one.world)
      case Ok(first) => Found(Ok(First(first)), one.world)
  }

  /** The declared limit changes nothing in the relation value and only the
      limit in the prepared filters. */
  lemma FiltersIgnoreLimit(classes: Classes, rel: Relation, owner: Record, limit: Option<int>)
    ensures var other := rel.(opts := rel.opts.(limit := limit));
            && RelationValue(classes, other, owner) == RelationValue(classes, rel, owner)
            && forall v :: PrepareFilters(classes, other, owner.cls, v)
                           == PrepareFilters(classes, rel, owner.cls, v).(opts := PrepareFilters(classes, rel, owner.cls, v).opts.(limit := limit))
  {
    var other := rel.(opts := rel.opts.(limit := limit));
    assert RelationKey(classes, other, owner.cls) == RelationKey(classes, rel, owner.cls);
  }

  /** A belongs-to (or has-one) relation with default options and no
      through hop reads `SELECT t.* FROM t WHERE t.fk = <value> LIMIT 1`,
      the owner's escaped relation value in place of the placeholder. */
  lemma DirectLoadStatement(classes: Classes, d: MySql.Driver, esc: MySql.Escaper, w: World, rel: Relation, owner: Record)
    requires !rel.kind.HasMany? && rel.through.None? && rel.opts == MySql.DefaultOptions() && rel.kwargs == []
    requires var v := GetAttr(classes, owner, RelationKey(classes, rel, owner.cls)); !v.VNone? && !v.VList?
    requires ':' !in ResourceOf(classes, rel.target) && ':' !in ForeignKey(classes, rel, owner.cls)
    ensures var res := ResourceOf(classes, rel.target);
            var v := GetAttr(classes, owner, RelationKey(classes, rel, owner.cls));
            Load(classes, d, esc, w, rel, owner).world.adapter.lastQuery
            == Some("SELECT " + res + ".* FROM " + res + " WHERE " + res + "." + ForeignKey(classes, rel, owner.cls) + " = "
                    + esc.item(v) + " LIMIT 1")
  {
    var v := GetAttr(classes, owner, RelationKey(classes, rel, owner.cls));
    var fk := ForeignKey(classes, rel, owner.cls);
    assert PrepareFilters(classes, rel, owner.cls, v).kwargs == [(fk, v)];
    MySql.SingleFilterStatement(esc, ResourceOf(classes, rel.target), fk, v);
  }

  /** The join and the condition head add no placeholder of their own. */
  lemma ThroughTextsColonFree(thr: string, rk: string, target: string, fk: string, trk: string)
    requires ':' !in thr && ':' !in rk && ':' !in target && ':' !in fk && ':' !in trk
    ensures ':' !in ThroughJoin(thr, rk, target, fk) && ':' !in ConditionHead(thr, trk)
  {
  }

  /** A has-many load with a value to bind is a `find` with the prepared
      filters. */
  lemma HasManyLoadIsFind(classes: Classes, d: MySql.Driver, esc: MySql.Escaper, w: World, rel: Relation, owner: Record)
    requires rel.kind.HasMany?
    requires GetAttr(classes, owner, RelationKey(classes, rel, owner.cls)) != VNone
    ensures var f := PrepareFilters(classes, rel, owner.cls, GetAttr(classes, owner, RelationKey(classes, rel, owner.cls)));
            Load(classes, d, esc, w, rel, owner).world == Find(classes, d, esc, w, rel.target, LoadOptions(f.opts), f.kwargs).world
  {
  }

  /** With default options and no keyword filters, a through relation's
      filters are its join, the bound condition and its one parameter. */
  lemma ThroughFilters(classes: Classes, rel: Relation, ownerCls: string, v: Value)
    requires rel.through.Some? && rel.opts == MySql.DefaultOptions() && rel.kwargs == []
    ensures var keys := ThroughKeys(classes, rel, rel.through.value, ownerCls);
            var thr := ResourceOf(classes, rel.through.value.cls);
            var res := ResourceOf(classes, rel.target);
            PrepareFilters(classes, rel, ownerCls, v).opts
            == MySql.DefaultOptions().(joins := Some(ThroughJoin(thr, keys.0, res, keys.1)),
                                        where := Some(ConditionHead(thr, keys.2) + ":" + ForeignKeyParam + ")"),
                                        params := [(ForeignKeyParam, v)])
  {
    assert Put([], ForeignKeyParam, v) == [(ForeignKeyParam, v)];
  }

  /** A has-many-through relation with default options reads
      `SELECT t.* FROM t LEFT JOIN thr ON (thr.rk = t.fk) WHERE (thr.trk = <value>)`,
      the owner's escaped relation value bound in place of `:foreign_key`. */
  lemma ThroughLoadStatement(classes: Classes, d: MySql.Driver, esc: MySql.Escaper, w: World, rel: Relation, owner: Record)
    requires rel.kind.HasMany? && rel.through.Some? && rel.opts == MySql.DefaultOptions() && rel.kwargs == []
    requires GetAttr(classes, owner, RelationKey(classes, rel, owner.cls)) != VNone
    requires var keys := ThroughKeys(classes, rel, rel.through.value, owner.cls);
             var thr := ResourceOf(classes, rel.through.value.cls);
             && ':' !in ResourceOf(classes, rel.target) && ':' !in thr
             && ':' !in keys.0 && ':' !in keys.1 && ':' !in keys.2
    ensures var res := ResourceOf(classes, rel.target);
            var keys := ThroughKeys(classes, rel, rel.through.value, owner.cls);
            var thr := ResourceOf(classes, rel.through.value.cls);
            var v := GetAttr(classes, owner, RelationKey(classes, rel, owner.cls));
            Load(classes, d, esc, w, rel, owner).world.adapter.lastQuery
            == Some("SELECT " + res + ".* FROM " + res + " " + ThroughJoin(thr, keys.0, res, keys.1)
                    + " WHERE " + ConditionHead(thr, keys.2) + esc.item(v) + ")")
  {
    var res := ResourceOf(classes, rel.target);
    var keys := ThroughKeys(classes, rel, rel.through.value, owner.cls);
    var thr := ResourceOf(classes, rel.through.value.cls);
    var v := GetAttr(classes, owner, RelationKey(classes, rel, owner.cls));
    var joins := ThroughJoin(thr, keys.0, res, keys.1);
    var pre := ConditionHead(thr, keys.2);
    var f := PrepareFilters(classes, rel, owner.cls, v);
    ThroughFilters(classes, rel, owner.cls, v);
    ThroughTextsColonFree(thr, keys.0, res, keys.1, keys.2);
    HasManyLoadIsFind(classes, d, esc, w, rel, owner);
    BoundFind(classes, d, esc, w, rel.target, joins, pre, v);
  }

  /** A `find` with a join and a condition bound to one value records the
      statement with the escaped value in place. */
  lemma BoundFind(classes: Classes, d: MySql.Driver, esc: MySql.Escaper, w: World, target: string,
                  joins: string, pre: string, v: Value)
    requires ':' !in ResourceOf(classes, target) && ':' !in joins && ':' !in pre
    ensures var res := ResourceOf(classes, target);
            var opts := MySql.DefaultOptions().(joins := Some(joins), where := Some(pre + ":" + ForeignKeyParam + ")"),
                                                params := [(ForeignKeyParam, v)]);
            Find(classes, d, esc, w, target, opts, []).world.adapter.lastQuery
            == Some("SELECT " + res + ".* FROM " + res + " " + joins + " WHERE " + pre + esc.item(v) + ")")
  {
    MySql.BoundConditionStatement(esc, ResourceOf(classes, target), joins, pre, ForeignKeyParam, v, ")");
  }

  /** A relation descriptor: the declaration and the loads so far, by
      owner. */
  datatype Descriptor = Descriptor(rel: Relation, cache: map<nat, Loaded>)

  /** A resolution's result, the world after it and the descriptor after
      it. */
  datatype Resolved = Resolved(result: Result<Loaded>, world: World, desc: Descriptor)

  /** `__get_data(owner)`: a cached owner gets its cached value with no
      query; otherwise the relation is loaded and, when the load succeeds,
      cached for that owner. */
  function Resolve(classes: Classes, d: MySql.Driver, esc: MySql.Escaper, w: World, desc: Descriptor, owner: Record, id: nat): (r: Resolved)
    ensures id in desc.cache ==> r == Resolved(Ok(desc.cache[id]), w, desc)
    ensures r.desc.rel == desc.rel
    ensures r.result.Ok? ==> id in r.desc.cache && r.desc.cache[id] == r.result.value
    ensures r.result.Err? ==> r.desc == desc
    ensures forall other :: other != id ==> (other in r.desc.cache <==> other in desc.cache)
    ensures forall other :: other != id && other in desc.cache ==> r.desc.cache[other] == desc.cache[other]
  {
    if id in desc.cache then Resolved(Ok(desc.cache[id]), w, desc)
    else
      var l := Load(classes, d, esc, w, desc.rel, owner);
      match l.result
      case Err(e) => Resolved(Err(e), l.world, desc)
      case Ok(v) => Resolved(Ok(v), l.world, desc.(cache := desc.cache[id := v]))
  }

  /** A relation is loaded at most once per owner: resolving it again for
      the same owner gives the same value without touching the world or the
      descriptor. */
  lemma ResolveOnce(classes: Classes, d: MySql.Driver, esc: MySql.Escaper, w: World, desc: Descriptor, owner: Record, id: nat,
                    d2: MySql.Driver, w2: World, owner2: Record)
    requires Resolve(classes, d, esc, w, desc, owner, id).result.Ok?
    ensures var first := Resolve(classes, d, esc, w, desc, owner, id);
            Resolve(classes, d2, esc, w2, first.desc, owner2, id) == Resolved(first.result, w2, first.desc)
  {
  }

  /** A failed load is not remembered: the next resolution for that owner
      loads again. */
  lemma FailureNotCached(classes: Classes, d: MySql.Driver, esc: MySql.Escaper, w: World, desc: Descriptor, owner: Record, id: nat, w2: World)
    requires Resolve(classes, d, esc, w, desc, owner, id).result.Err?
    ensures id !in desc.cache
    ensures Resolve(classes, d, esc, w2, Resolve(classes, d, esc, w, desc, owner, id).desc, owner, id)
            == Resolve(classes, d, esc, w2, desc, owner, id)
  {
  }
}

=== FILE: sql_model.dfy ===
/** The SQL model (pyar/sql_model.py, finder and write path): `find`,
    `find_one`, `count`, `find_by_id`, and the transactional `create`,
    `update` (optionally cascading into related models) and `delete`, each
    a transition of the adapter's last query, the per-class last query and
    the record.

    The per-class `_last_query` is a map from class name to the `'; '`
    joined trail of statements the last write of that class issued. */
module SqlModel {
  import opened Errors
  import opened Strings
  import opened Dicts
  import opened Model
  import opened Adapter
  import MySql

  /** Everything a call can change besides the record itself. */
  datatype World = World(adapter: MySql.SqlState, classLast: map<string, string>)

  /** A result and the world after it. */
  datatype Found<T> = Found(result: Result<T>, world: World)

  /** A write's result, the record after it and the world after it. */
  datatype Written = Written(result: Result<bool>, rec: Record, world: World)

  // --------------------------------------------------------------- finder

  /** `find(...)`: the adapter reads, then the class remembers the adapter's
      last query; a failing read leaves the class's last query alone. */
  function Find(classes: Classes, d: MySql.Driver, esc: MySql.Escaper, w: World, cls: string,
                opts: MySql.ReadOptions, kwargs: Dict<string, Value>): (r: Found<seq<Record>>)
    ensures r.world.adapter.lastQuery == Some(MySql.ReadStatement(esc, ResourceOf(classes, cls), opts, kwargs))
    ensures r.result.Ok? ==> r.world.classLast == w.classLast[cls := MySql.ReadStatement(esc, ResourceOf(classes, cls), opts, kwargs)]
    ensures r.result.Err? ==> r.world.classLast == w.classLast
    ensures var q := MySql.ReadStatement(esc, ResourceOf(classes, cls), opts, kwargs);
            && (d.run(q).Done? ==> r.result == MySql.Hydrate(classes, cls, d.run(q).cursor.rows))
            && (d.run(q).Integrity? ==> r.result == Err(SqlAdapterExecute(d.run(q).detail)))
    ensures r.result.Ok? ==> forall i :: 0 <= i < |r.result.value| ==> !r.result.value[i].isNew
  {
    var step := MySql.Read(classes, d, esc, w.adapter, ModelClassObject(cls), opts, kwargs);
    var w1 := w.(adapter := step.state);
    match step.result
    case Err(e) => Found(Err(e), w1)
    case Ok(found) => Found(Ok(found), w1.(classLast := w.classLast[cls := step.state.lastQuery.value]))
  }

  /** `find_one(...)`: `find` with a limit of one row, and its first record
      or None. */
  function FindOne(classes: Classes, d: MySql.Driver, esc: MySql.Escaper, w: World, cls: string,
                   opts: MySql.ReadOptions, kwargs: Dict<string, Value>): (r: Found<Option<Record>>)
    ensures var f := Find(classes, d, esc, w, cls, opts.(limit := Some(1)), kwargs);
            && r.world == f.world
            && (r.result.Ok? <==> f.result.Ok?)
            && (r.result.Ok? ==> r.result.value == FindOneOf(f.result.value))
  {
    var f := Find(classes, d, esc, w, cls, opts.(limit := Some(1)), kwargs);
    match f.result
    case Err(e) => Found(Err(e), f.world)
    case Ok(found) => Found(Ok(FindOneOf(found)), f.world)
  }

  /** Whatever limit the caller passes, `find_one` asks for one row. */
  lemma FindOneLimitsToOne(classes: Classes, d: MySql.Driver, esc: MySql.Escaper, w: World, cls: string,
                           opts: MySql.ReadOptions, kwargs: Dict<string, Value>, limit: Option<int>)
    ensures FindOne(classes, d, esc, w, cls, opts.(limit := limit), kwargs) == FindOne(classes, d, esc, w, cls, opts, kwargs)
    ensures FindOne(classes, d, esc, w, cls, opts, kwargs).world.adapter.lastQuery
            == Some(MySql.ReadStatement(esc, ResourceOf(classes, cls), opts.(limit := Some(1)), kwargs))
  {
    assert opts.(limit := limit).(limit := Some(1)) == opts.(limit := Some(1));
  }

  const CountSelect := "COUNT(*) AS count_rows"

  /** The options `count` sends: its own projection and one row; every
      other option is the caller's. */
  function CountOptions(opts: MySql.ReadOptions): (o: MySql.ReadOptions)
    ensures o.select == Some(CountSelect) && o.limit == Some(1)
    ensures o.(select := opts.select, limit := opts.limit) == opts
  {
    opts.(select := Some(CountSelect), limit := Some(1))
  }

  /** `count(...)`: the `count_rows` column of the single row, or 0 when no
      row comes back. */
  function Count(classes: Classes, d: MySql.Driver, esc: MySql.Escaper, w: World, cls: string,
                 opts: MySql.ReadOptions, kwargs: Dict<string, Value>): (r: Found<Value>)
    ensures var one := FindOne(classes, d, esc, w, cls, CountOptions(opts), kwargs);
            && r.world == one.world
            && (r.result.Ok? <==> one.result.Ok?)
            && (one.result.Ok? && one.result.value.None? ==> r.result.value == VInt(0))
            && (one.result.Ok? && one.result.value.Some? ==> r.result.value == GetAttr(classes, one.result.value.value, "count_rows"))
  {
    var one := FindOne(classes, d, esc, w, cls, CountOptions(opts), kwargs);
    match one.result
    case Err(e) => Found(Err(e), one.world)
    case Ok(None) => Found(Ok(VInt(0)), one.world)
    case Ok(Some(rec)) => Found(Ok(GetAttr(classes, rec, "count_rows")), one.world)
  }

  /** The statement `count` executes selects the row count, whatever
      projection or limit the caller had in mind. */
  lemma CountStatement(classes: Classes, d: MySql.Driver, esc: MySql.Escaper, w: World, cls: string,
                       opts: MySql.ReadOptions, kwargs: Dict<string, Value>, select: Option<string>, limit: Option<int>)
    ensures Count(classes, d, esc, w, cls, opts.(select := select, limit := limit), kwargs) == Count(classes, d, esc, w, cls, opts, kwargs)
    ensures Count(classes, d, esc, w, cls, opts, kwargs).world.adapter.lastQuery
            == Some(MySql.ReadStatement(esc, ResourceOf(classes, cls), opts.(select := Some(CountSelect), limit := Some(1)), kwargs))
  {
    assert CountOptions(opts.(select := select, limit := limit)) == CountOptions(opts);
    assert CountOptions(opts).(limit := Some(1)) == opts.(select := Some(CountSelect), limit := Some(1));
  }

  /** The filter value of `find_by_id`: a list as it is, anything else as
      its `str`. */
  function IdFilter(id: Value): (v: Value)
    ensures id.VList? ==> v == id
    ensures !id.VList? ==> v == VStr(Str(id))
  {
    if id.VList? then id else VStr(Str(id))
  }

  /** `find_by_id(id)`: `find_one` filtered on the primary key alone, with
      the key's text (or list) as the filter value and one row asked for;
      what comes back is a stored record. */
  function FindById(classes: Classes, d: MySql.Driver, esc: MySql.Escaper, w: World, cls: string, id: Value): (r: Found<Option<Record>>)
    ensures r.world.adapter.lastQuery
            == Some(MySql.ReadStatement(esc, ResourceOf(classes, cls), MySql.DefaultOptions().(limit := Some(1)),
                                        [(MySql.PkOf(classes, cls), IdFilter(id))]))
    ensures r.result.Ok? && r.result.value.Some? ==> !r.result.value.value.isNew
    ensures var q := MySql.ReadStatement(esc, ResourceOf(classes, cls), MySql.DefaultOptions().(limit := Some(1)),
                                         [(MySql.PkOf(classes, cls), IdFilter(id))]);
            && (d.run(q).Done? ==>
                  var found := MySql.Hydrate(classes, cls, d.run(q).cursor.rows);
                  r.result == if found.Ok? then Ok(FindOneOf(found.value)) else Err(found.error))
            && (d.run(q).Integrity? ==> r.result == Err(SqlAdapterExecute(d.run(q).detail)))
  {
    FindOne(classes, d, esc, w, cls, MySql.DefaultOptions(), [(MySql.PkOf(classes, cls), IdFilter(id))])
  }

  /** Looking a record up by an integer key executes exactly
      `SELECT res.* FROM res WHERE res.pk = <escaped key text> LIMIT 1`. */
  lemma FindByIdIntegerStatement(classes: Classes, d: MySql.Driver, esc: MySql.Escaper, w: World, cls: string, n: int)
    requires ':' !in ResourceOf(classes, cls) && ':' !in MySql.PkOf(classes, cls)
    ensures var res := ResourceOf(classes, cls);
            var pk := MySql.PkOf(classes, cls);
            FindById(classes, d, esc, w, cls, VInt(n)).world.adapter.lastQuery
            == Some("SELECT " + res + ".* FROM " + res + " WHERE " + res + "." + pk + " = "
                    + esc.item(VStr(IntToString(n))) + " LIMIT 1")
  {
    assert Str(VInt(n)) == IntToString(n);
    MySql.SingleFilterStatement(esc, ResourceOf(classes, cls), MySql.PkOf(classes, cls), VStr(IntToString(n)));
  }

  /** `find_by_query(query, params, ...)`: `find` with a raw query. */
  function FindByQuery(classes: Classes, d: MySql.Driver, esc: MySql.Escaper, w: World, cls: string,
                       query: string, params: Dict<string, Value>, kwargs: Dict<string, Value>): (r: Found<seq<Record>>)
    ensures r.result.Ok? ==> forall i :: 0 <= i < |r.result.value| ==> !r.result.value[i].isNew
    ensures params == [] && kwargs == [] ==> r.world.adapter.lastQuery == Some(query)
    ensures var q := MySql.ReadStatement(esc, ResourceOf(classes, cls), MySql.DefaultOptions().(query := Some(query), params := params), kwargs);
            && (d.run(q).Done? ==> r.result == MySql.Hydrate(classes, cls, d.run(q).cursor.rows))
            && (d.run(q).Integrity? ==> r.result == Err(SqlAdapterExecute(d.run(q).detail)))
  {
    Find(classes, d, esc, w, cls, MySql.DefaultOptions().(query := Some(query), params := params), kwargs)
  }

  // ----------------------------------------------------------- write path

  /** The statement text the adapter reports as its last query. */
  function LastText(st: MySql.SqlState): string {
    if st.lastQuery.Some? then st.lastQuery.value else "None"
  }

  /** A trail closed by COMMIT or ROLLBACK when transactional. */
  function Finish(transactional: bool, trail: seq<string>, closing: string): (t: seq<string>)
    ensures |t| == |trail| + (if transactional then 1 else 0)
    ensures t[..|trail|] == trail
    ensures transactional ==> t[|trail|] == closing
  {
    trail + (if transactional then [closing] else [])
  }

  /** The trail of a write that got as far as statement `s`: the
      transaction brackets around it when transactional. */
  function Bracketed(transactional: bool, s: string, closing: string): (t: seq<string>)
    ensures transactional ==> t == [MySql.StartStatement, s, closing]
    ensures !transactional ==> t == [s]
  {
    if transactional then [MySql.StartStatement, s, closing] else [s]
  }

  /** `create(transactional)`.  A failing statement (including "Nothing to
      insert.") is appended to the trail, followed by ROLLBACK when
      transactional; the class remembers the trail and the error is raised
      again, the record untouched.  On success the record is no longer new
      and its primary key is the insert id; a failure to store that key
      escapes without any bookkeeping. */
  function Create(classes: Classes, d: MySql.Driver, esc: MySql.Escaper, w: World, rec: Record, transactional: bool): (r: Written)
    ensures r.rec.cls == rec.cls
    ensures r.result.Ok? ==> !r.rec.isNew
  {
    if transactional then
      var s := MySql.StartTransaction(d, w.adapter);
      if s.result.Err? then Written(Err(s.result.error), rec, w.(adapter := s.state))
      else CreateBody(classes, d, esc, w.(adapter := s.state), rec, true, [MySql.StartStatement])
    else CreateBody(classes, d, esc, w, rec, false, [])
  }

  /** The `try` block of `create` and what follows it. */
  function CreateBody(classes: Classes, d: MySql.Driver, esc: MySql.Escaper, w: World, rec: Record,
                      transactional: bool, trail: seq<string>): (r: Written)
    ensures r.rec.cls == rec.cls
    ensures r.result.Ok? ==> !r.rec.isNew
  {
    var c := MySql.Create(classes, d, esc, w.adapter, ModelInstance(rec));
    match c.result
    case Err(e) =>
      if e.SqlAdapterExecute? then
        var f := Fail(w.(adapter := c.state), rec.cls, transactional, trail, e);
        Written(f.result, rec, f.world)
      else Written(Err(e), rec, w.(adapter := c.state))
    case Ok(cursor) => Inserted(classes, w.(adapter := c.state), rec, transactional, trail, cursor.lastRowId)
  }

  /** What `create` does after a successful INSERT: the record stops being
      new and takes the insert id as its key, and the trail is stored,
      followed by COMMIT when transactional. */
  function Inserted(classes: Classes, w: World, rec: Record, transactional: bool, trail: seq<string>, id: int): (r: Written)
    ensures r.rec.cls == rec.cls && !r.rec.isNew
    ensures r.result.Err? ==> r.world == w
    ensures r.result.Ok? ==>
              && r.world.classLast == w.classLast[rec.cls := Join("; ", Finish(transactional, trail + [LastText(w.adapter)], MySql.CommitStatement))]
              && r.world.adapter.lastQuery == if transactional then Some(MySql.CommitStatement) else w.adapter.lastQuery
  {
    var marked := SetIsNew(rec, VBool(false));
    match SetAttr(classes, marked, MySql.PkOf(classes, rec.cls), VInt(id))
    case Err(e) => Written(Err(e), marked, w)
    case Ok(stored) =>
      var st := if transactional then MySql.Commit(w.adapter) else w.adapter;
      var full := Finish(transactional, trail + [LastText(w.adapter)], MySql.CommitStatement);
      Written(Ok(true), stored, World(st, w.classLast[rec.cls := Join("; ", full)]))
  }

  /** Storing the insert id under a plain key field succeeds: the field
      map holds the id, and reading the field gives it unless a class
      attribute of that name hides it. */
  lemma InsertedKey(classes: Classes, w: World, rec: Record, transactional: bool, trail: seq<string>, id: int)
    requires StoresPlain(classes, rec.cls, MySql.PkOf(classes, rec.cls))
    requires !HasKey(rec.nested, MySql.PkOf(classes, rec.cls))
    ensures var r := Inserted(classes, w, rec, transactional, trail, id);
            var pk := MySql.PkOf(classes, rec.cls);
            && r.result == Ok(true)
            && Get(r.rec.data, pk) == Some(VInt(id))
            && GetAttr(classes, r.rec, pk) == if AttrOf(classes, rec.cls, pk).None? then VInt(id) else ClassLevel(classes, rec.cls, pk)
  {
    var marked := SetIsNew(rec, VBool(false));
    assert marked.cls == rec.cls && marked.nested == rec.nested;
  }

  /** The world after the optional START TRANSACTION, when it succeeds. */
  function Begun(d: MySql.Driver, w: World, transactional: bool): (w0: World)
    ensures w0.classLast == w.classLast
    ensures transactional ==> w0.adapter.lastQuery == Some(MySql.StartStatement)
  {
    if transactional then w.(adapter := MySql.StartTransaction(d, w.adapter).state) else w
  }

  /** The trail after the optional START TRANSACTION. */
  function Opening(transactional: bool): (t: seq<string>)
    ensures transactional ==> t == [MySql.StartStatement]
    ensures !transactional ==> t == []
  {
    if transactional then [MySql.StartStatement] else []
  }

  /** The trail of a write that begins with the optional START TRANSACTION
      is the bracketed statement. */
  lemma OpeningClosed(transactional: bool, s: string, closing: string)
    ensures Finish(transactional, Opening(transactional) + [s], closing) == Bracketed(transactional, s, closing)
  {
    if transactional {
      assert [MySql.StartStatement] + [s] + [closing] == [MySql.StartStatement, s, closing];
    } else {
      assert [] + [s] + [] == [s];
    }
  }

  /** A successful insert: the trail is the INSERT, bracketed by START
      TRANSACTION and COMMIT when transactional; the record is no longer new
      and, for a plain key field, stores the insert id, which reading the
      field gives unless a class attribute of that name hides it. */
  lemma CreateSucceeds(classes: Classes, d: MySql.Driver, esc: MySql.Escaper, w: World, rec: Record, transactional: bool)
    requires var res := ResourceOf(classes, rec.cls);
             var data := MySql.ModelData(esc, rec, d.columns(res));
             && data != []
             && d.run(MySql.InsertStatement(res, data)).Done?
             && (transactional ==> d.run(MySql.StartStatement).Done?)
    requires StoresPlain(classes, rec.cls, MySql.PkOf(classes, rec.cls))
    requires !HasKey(rec.nested, MySql.PkOf(classes, rec.cls))
    ensures var res := ResourceOf(classes, rec.cls);
            var insert := MySql.InsertStatement(res, MySql.ModelData(esc, rec, d.columns(res)));
            var r := Create(classes, d, esc, w, rec, transactional);
            && r.result == Ok(true)
            && !r.rec.isNew
            && var pk := MySql.PkOf(classes, rec.cls);
            && var id := d.run(insert).cursor.lastRowId;
            && Get(r.rec.data, pk) == Some(VInt(id))
            && GetAttr(classes, r.rec, pk) == (if AttrOf(classes, rec.cls, pk).None? then VInt(id) else ClassLevel(classes, rec.cls, pk))
            && r.world.classLast[rec.cls] == Join("; ", Bracketed(transactional, insert, MySql.CommitStatement))
  {
    var res := ResourceOf(classes, rec.cls);
    var insert := MySql.InsertStatement(res, MySql.ModelData(esc, rec, d.columns(res)));
    var id := d.run(insert).cursor.lastRowId;
    var w0 := Begun(d, w, transactional);
    var trail := Opening(transactional);
    assert Create(classes, d, esc, w, rec, transactional) == CreateBody(classes, d, esc, w0, rec, transactional, trail);
    var c := MySql.Create(classes, d, esc, w0.adapter, ModelInstance(rec));
    assert c.result == Ok(d.run(insert).cursor) && c.state.lastQuery == Some(insert);
    var w1 := w0.(adapter := c.state);
    assert CreateBody(classes, d, esc, w0, rec, transactional, trail) == Inserted(classes, w1, rec, transactional, trail, id);
    InsertedKey(classes, w1, rec, transactional, trail, id);
    assert LastText(w1.adapter) == insert;
    OpeningClosed(transactional, insert, MySql.CommitStatement);
  }

  /** A failing insert: the trail ends with the failing statement, then
      ROLLBACK when transactional; the record keeps its `is_new`. */
  lemma CreateFails(classes: Classes, d: MySql.Driver, esc: MySql.Escaper, w: World, rec: Record, transactional: bool)
    requires var res := ResourceOf(classes, rec.cls);
             var data := MySql.ModelData(esc, rec, d.columns(res));
             && (data == [] || d.run(MySql.InsertStatement(res, data)).Integrity?)
             && (transactional ==> d.run(MySql.StartStatement).Done?)
    ensures var res := ResourceOf(classes, rec.cls);
            var data := MySql.ModelData(esc, rec, d.columns(res));
            var failing := if data == [] then MySql.ShowColumns(res) else MySql.InsertStatement(res, data);
            var r := Create(classes, d, esc, w, rec, transactional);
            && r.result.Err? && r.result.error.SqlAdapterExecute?
            && r.rec == rec
            && rec.cls in r.world.classLast
            && r.world.classLast[rec.cls] == Join("; ", Bracketed(transactional, failing, MySql.RollbackStatement))
  {
    var res := ResourceOf(classes, rec.cls);
    var data := MySql.ModelData(esc, rec, d.columns(res));
    var failing := if data == [] then MySql.ShowColumns(res) else MySql.InsertStatement(res, data);
    var w0 := Begun(d, w, transactional);
    var trail := Opening(transactional);
    assert Create(classes, d, esc, w, rec, transactional) == CreateBody(classes, d, esc, w0, rec, transactional, trail);
    var c := MySql.Create(classes, d, esc, w0.adapter, ModelInstance(rec));
    assert c.result.Err? && c.result.error.SqlAdapterExecute? && c.state.lastQuery == Some(failing);
    var f := Fail(w0.(adapter := c.state), rec.cls, transactional, trail, c.result.error);
    assert CreateBody(classes, d, esc, w0, rec, transactional, trail) == Written(f.result, rec, f.world);
    OpeningClosed(transactional, failing, MySql.RollbackStatement);
  }

  /** A record and the related records its relation fields hold, as loaded
      when `update` asks for them. */
  datatype Node = Node(rec: Record, relations: seq<(string, Related)>)

  /** What a relation field holds: one model, a list of models, or None. */
  datatype Related = Single(node: Node) | Many(records: seq<Record>) | Nothing

  /** `update(transactional, with_relations)`.  With relations, every
      relation field holding one model is updated in turn, not
      transactionally and with its own relations, and that class's last
      query joins the trail before COMMIT.  A failure anywhere inside is
      handled as in `create`.  The record itself is not changed. */
  function Update(classes: Classes, d: MySql.Driver, esc: MySql.Escaper, w: World, node: Node,
                  transactional: bool, withRelations: bool): (r: Found<bool>)
    ensures r.result.Ok? ==> node.rec.cls in r.world.classLast
    decreases node, 2
  {
    if transactional then
      var s := MySql.StartTransaction(d, w.adapter);
      if s.result.Err? then Found(Err(s.result.error), w.(adapter := s.state))
      else UpdateBody(classes, d, esc, w.(adapter := s.state), node, true, withRelations, [MySql.StartStatement])
    else UpdateBody(classes, d, esc, w, node, false, withRelations, [])
  }

  /** The `try` block of `update` and what follows it. */
  function UpdateBody(classes: Classes, d: MySql.Driver, esc: MySql.Escaper, w: World, node: Node,
                      transactional: bool, withRelations: bool, trail: seq<string>): (r: Found<bool>)
    ensures r.result.Ok? ==> node.rec.cls in r.world.classLast
    decreases node, 1
  {
    var u := MySql.Update(classes, d, esc, w.adapter, ModelInstance(node.rec));
    match u.result
    case Err(e) =>
      if e.SqlAdapterExecute? then Fail(w.(adapter := u.state), node.rec.cls, transactional, trail, e)
      else Found(Err(e), w.(adapter := u.state))
    case Ok(_) =>
      var updated := trail + [LastText(u.state)];
      var w1 := w.(adapter := u.state);
      var cascade := if withRelations then UpdateRelations(classes, d, esc, w1, node, 0, updated)
                     else Cascade(Ok(true), w1, updated);
      Settle(node.rec.cls, transactional, cascade)
  }

  /** The end of `update` once the relation loop is over: a failure is
      handled by the `except` block, success commits when transactional and
      stores the trail. */
  function Settle(cls: string, transactional: bool, cascade: Cascade): (r: Found<bool>)
    ensures r.result.Ok? <==> cascade.result.Ok?
    ensures r.result.Ok? ==>
              r.world.classLast == cascade.world.classLast[cls := Join("; ", Finish(transactional, cascade.trail, MySql.CommitStatement))]
    ensures r.result.Err? && r.result.error.SqlAdapterExecute? ==> r == Fail(cascade.world, cls, transactional, cascade.trail, r.result.error)
  {
    match cascade.result
    case Err(e) =>
      if e.SqlAdapterExecute? then Fail(cascade.world, cls, transactional, cascade.trail, e)
      else Found(Err(e), cascade.world)
    case Ok(_) =>
      var st := if transactional then MySql.Commit(cascade.world.adapter) else cascade.world.adapter;
      Found(Ok(true), World(st, cascade.world.classLast[cls := Join("; ", Finish(transactional, cascade.trail, MySql.CommitStatement))]))
  }

  /** The `except` block: the failing statement, ROLLBACK when
      transactional, the trail stored, the same error raised. */
  function Fail(w: World, cls: string, transactional: bool, trail: seq<string>, e: Error): (r: Found<bool>)
    ensures r.result == Err(e)
    ensures r.world.classLast == w.classLast[cls := Join("; ", Finish(transactional, trail + [LastText(w.adapter)], MySql.RollbackStatement))]
    ensures transactional ==> r.world.adapter.lastQuery == Some(MySql.RollbackStatement)
    ensures !transactional ==> r.world.adapter == w.adapter
  {
    var st := if transactional then MySql.Rollback(w.adapter) else w.adapter;
    var full := Finish(transactional, trail + [LastText(w.adapter)], MySql.RollbackStatement);
    Found(Err(e), World(st, w.classLast[cls := Join("; ", full)]))
  }

  /** The cascade's running state: its result, the world and the trail. */
  datatype Cascade = Cascade(result: Result<bool>, world: World, trail: seq<string>)

  /** The relation loop of `update`, from the `i`-th relation field on. */
  function UpdateRelations(classes: Classes, d: MySql.Driver, esc: MySql.Escaper, w: World, node: Node,
                           i: nat, trail: seq<string>): (r: Cascade)
    requires i <= |node.relations|
    ensures r.result.Ok? ==> |r.trail| >= |trail| && r.trail[..|trail|] == trail
    decreases node, 0, |node.relations| - i
  {
    if i == |node.relations| then Cascade(Ok(true), w, trail)
    else
      match node.relations[i].1
      case Single(n) =>
        assert n < node by {
          assert node.relations[i].1 < node.relations[i];
        }
        var u := Update(classes, d, esc, w, n, false, true);
        if u.result.Err? then Cascade(Err(u.result.error), u.world, trail)
        else
          var next := UpdateRelations(classes, d, esc, u.world, node, i + 1, trail + [u.world.classLast[n.rec.cls]]);
          assert next.result.Ok? ==> next.trail[..|trail|] == trail by {
            if next.result.Ok? {
              assert next.trail[..|trail| + 1][..|trail|] == next.trail[..|trail|];
            }
          }
          next
      case _ => UpdateRelations(classes, d, esc, w, node, i + 1, trail)
  }

  /** List-valued and empty relation fields are skipped: when no relation
      field holds a single model, updating with relations is updating
      without them. */
  lemma UpdateSkipsNonModels(classes: Classes, d: MySql.Driver, esc: MySql.Escaper, w: World, node: Node, transactional: bool)
    requires forall i :: 0 <= i < |node.relations| ==> !node.relations[i].1.Single?
    ensures Update(classes, d, esc, w, node, transactional, true) == Update(classes, d, esc, w, node, transactional, false)
  {
    if !transactional || MySql.StartTransaction(d, w.adapter).result.Ok? {
      var w0 := Begun(d, w, transactional);
      var trail := Opening(transactional);
      assert Update(classes, d, esc, w, node, transactional, true) == UpdateBody(classes, d, esc, w0, node, transactional, true, trail);
      assert Update(classes, d, esc, w, node, transactional, false) == UpdateBody(classes, d, esc, w0, node, transactional, false, trail);
      var u := MySql.Update(classes, d, esc, w0.adapter, ModelInstance(node.rec));
      if u.result.Ok? {
        SkipAll(classes, d, esc, w0.(adapter := u.state), node, 0, trail + [LastText(u.state)]);
      }
    }
  }

  lemma {:induction false} SkipAll(classes: Classes, d: MySql.Driver, esc: MySql.Escaper, w: World, node: Node, i: nat, trail: seq<string>)
    requires i <= |node.relations|
    requires forall j :: i <= j < |node.relations| ==> !node.relations[j].1.Single?
    ensures UpdateRelations(classes, d, esc, w, node, i, trail) == Cascade(Ok(true), w, trail)
    decreases |node.relations| - i
  {
    if i < |node.relations| {
      SkipAll(classes, d, esc, w, node, i + 1, trail);
    }
  }

  lemma FinishFour(a: string, b: string, c: string, closing: string)
    ensures Finish(true, [a] + [b] + [c], closing) == [a, b, c, closing]
  {
  }

  /** Updating one record that has a single related model: the trail is
      START TRANSACTION, its UPDATE, then either the related class's own
      trail and COMMIT, or, when the related update fails, the adapter's
      last query and ROLLBACK, the same error raised. */
  lemma UpdateCascadeTrail(classes: Classes, d: MySql.Driver, esc: MySql.Escaper, w: World, node: Node)
    requires |node.relations| == 1 && node.relations[0].1.Single?
    requires d.run(MySql.StartStatement).Done?
    requires var res := ResourceOf(classes, node.rec.cls);
             var data := MySql.ModelData(esc, node.rec, d.columns(res));
             data != [] && d.run(MySql.UpdateStatement(res, data, MySql.PkOf(classes, node.rec.cls), MySql.IdText(classes, esc, node.rec))).Done?
    ensures var res := ResourceOf(classes, node.rec.cls);
            var data := MySql.ModelData(esc, node.rec, d.columns(res));
            var upd := MySql.UpdateStatement(res, data, MySql.PkOf(classes, node.rec.cls), MySql.IdText(classes, esc, node.rec));
            var w1 := World(MySql.SqlState(Some(upd)), w.classLast);
            var n := node.relations[0].1.node;
            var inner := Update(classes, d, esc, w1, n, false, true);
            var r := Update(classes, d, esc, w, node, true, true);
            && (inner.result.Ok? ==>
                  r.result == Ok(true)
                  && r.world.classLast[node.rec.cls]
                     == Join("; ", [MySql.StartStatement, upd, inner.world.classLast[n.rec.cls], MySql.CommitStatement]))
            && (inner.result.Err? && inner.result.error.SqlAdapterExecute? ==>
                  r.result == inner.result
                  && r.world.adapter.lastQuery == Some(MySql.RollbackStatement)
                  && node.rec.cls in r.world.classLast
                  && r.world.classLast[node.rec.cls]
                     == Join("; ", [MySql.StartStatement, upd, LastText(inner.world.adapter), MySql.RollbackStatement]))
  {
    var res := ResourceOf(classes, node.rec.cls);
    var data := MySql.ModelData(esc, node.rec, d.columns(res));
    var upd := MySql.UpdateStatement(res, data, MySql.PkOf(classes, node.rec.cls), MySql.IdText(classes, esc, node.rec));
    var w1 := World(MySql.SqlState(Some(upd)), w.classLast);
    var trail := [MySql.StartStatement] + [upd];
    var w0 := Begun(d, w, true);
    assert Update(classes, d, esc, w, node, true, true) == UpdateBody(classes, d, esc, w0, node, true, true, [MySql.StartStatement]);
    UpdateBodyRuns(classes, d, esc, w0, node, true, [MySql.StartStatement]);
    var n := node.relations[0].1.node;
    var inner := Update(classes, d, esc, w1, n, false, true);
    OneRelationCascade(classes, d, esc, w1, node, trail);
    if inner.result.Ok? {
      FinishFour(MySql.StartStatement, upd, inner.world.classLast[n.rec.cls], MySql.CommitStatement);
    } else {
      FinishFour(MySql.StartStatement, upd, LastText(inner.world.adapter), MySql.RollbackStatement);
    }
  }

  /** When the UPDATE runs, the rest of `update` is the relation loop,
      started from the trail with the UPDATE added, and its settling. */
  lemma UpdateBodyRuns(classes: Classes, d: MySql.Driver, esc: MySql.Escaper, w: World, node: Node,
                       transactional: bool, trail: seq<string>)
    requires var res := ResourceOf(classes, node.rec.cls);
             var data := MySql.ModelData(esc, node.rec, d.columns(res));
             data != [] && d.run(MySql.UpdateStatement(res, data, MySql.PkOf(classes, node.rec.cls), MySql.IdText(classes, esc, node.rec))).Done?
    ensures var res := ResourceOf(classes, node.rec.cls);
            var data := MySql.ModelData(esc, node.rec, d.columns(res));
            var upd := MySql.UpdateStatement(res, data, MySql.PkOf(classes, node.rec.cls), MySql.IdText(classes, esc, node.rec));
            var w1 := World(MySql.SqlState(Some(upd)), w.classLast);
            UpdateBody(classes, d, esc, w, node, transactional, true, trail)
            == Settle(node.rec.cls, transactional, UpdateRelations(classes, d, esc, w1, node, 0, trail + [upd]))
  {
    var u := MySql.Update(classes, d, esc, w.adapter, ModelInstance(node.rec));
    assert u.result.Ok? && LastText(u.state) == u.state.lastQuery.value;
  }

  /** A successful update with no related model to cascade to: the trail
      is the UPDATE, bracketed by START TRANSACTION and COMMIT when
      transactional. */
  /** The column data an update of `rec` writes. */
  function ColumnData(classes: Classes, d: MySql.Driver, esc: MySql.Escaper, rec: Record): Dict<string, string> {
    MySql.ModelData(esc, rec, d.columns(ResourceOf(classes, rec.cls)))
  }

  /** The UPDATE statement of `rec`, keyed by its primary key. */
  function UpdateText(classes: Classes, d: MySql.Driver, esc: MySql.Escaper, rec: Record): string {
    MySql.UpdateStatement(ResourceOf(classes, rec.cls), ColumnData(classes, d, esc, rec),
                          MySql.PkOf(classes, rec.cls), MySql.IdText(classes, esc, rec))
  }

  lemma UpdateSucceeds(classes: Classes, d: MySql.Driver, esc: MySql.Escaper, w: World, node: Node,
                       transactional: bool, withRelations: bool)
    requires ColumnData(classes, d, esc, node.rec) != []
    requires d.run(UpdateText(classes, d, esc, node.rec)).Done?
    requires transactional ==> d.run(MySql.StartStatement).Done?
    requires withRelations ==> forall i :: 0 <= i < |node.relations| ==> !node.relations[i].1.Single?
    ensures var r := Update(classes, d, esc, w, node, transactional, withRelations);
            && r.result == Ok(true)
            && node.rec.cls in r.world.classLast
            && r.world.classLast[node.rec.cls] == Join("; ", Bracketed(transactional, UpdateText(classes, d, esc, node.rec), MySql.CommitStatement))
            && (transactional ==> r.world.adapter.lastQuery == Some(MySql.CommitStatement))
  {
    var res := ResourceOf(classes, node.rec.cls);
    var data := MySql.ModelData(esc, node.rec, d.columns(res));
    var upd := MySql.UpdateStatement(res, data, MySql.PkOf(classes, node.rec.cls), MySql.IdText(classes, esc, node.rec));
    if withRelations {
      UpdateSkipsNonModels(classes, d, esc, w, node, transactional);
    }
    var w0 := Begun(d, w, transactional);
    var trail := Opening(transactional);
    assert Update(classes, d, esc, w, node, transactional, false) == UpdateBody(classes, d, esc, w0, node, transactional, false, trail);
    var u := MySql.Update(classes, d, esc, w0.adapter, ModelInstance(node.rec));
    assert u.result.Ok? && u.state.lastQuery == Some(upd);
    var w1 := w0.(adapter := u.state);
    assert UpdateBody(classes, d, esc, w0, node, transactional, false, trail)
           == Settle(node.rec.cls, transactional, Cascade(Ok(true), w1, trail + [upd]));
    OpeningClosed(transactional, upd, MySql.CommitStatement);
  }

  /** A failing update (nothing to write, or a rejected UPDATE): the error
      is an execution error and the trail ends with the failing statement,
      then ROLLBACK when transactional. */
  lemma UpdateFails(classes: Classes, d: MySql.Driver, esc: MySql.Escaper, w: World, node: Node,
                    transactional: bool, withRelations: bool)
    requires var res := ResourceOf(classes, node.rec.cls);
             var data := MySql.ModelData(esc, node.rec, d.columns(res));
             && (data == [] || d.run(MySql.UpdateStatement(res, data, MySql.PkOf(classes, node.rec.cls), MySql.IdText(classes, esc, node.rec))).Integrity?)
             && (transactional ==> d.run(MySql.StartStatement).Done?)
    ensures var res := ResourceOf(classes, node.rec.cls);
            var data := MySql.ModelData(esc, node.rec, d.columns(res));
            var failing := if data == [] then MySql.ShowColumns(res)
                           else MySql.UpdateStatement(res, data, MySql.PkOf(classes, node.rec.cls), MySql.IdText(classes, esc, node.rec));
            var r := Update(classes, d, esc, w, node, transactional, withRelations);
            && r.result.Err? && r.result.error.SqlAdapterExecute?
            && node.rec.cls in r.world.classLast
            && r.world.classLast[node.rec.cls] == Join("; ", Bracketed(transactional, failing, MySql.RollbackStatement))
            && (transactional ==> r.world.adapter.lastQuery == Some(MySql.RollbackStatement))
  {
    var res := ResourceOf(classes, node.rec.cls);
    var data := MySql.ModelData(esc, node.rec, d.columns(res));
    var failing := if data == [] then MySql.ShowColumns(res)
                   else MySql.UpdateStatement(res, data, MySql.PkOf(classes, node.rec.cls), MySql.IdText(classes, esc, node.rec));
    var w0 := Begun(d, w, transactional);
    var trail := Opening(transactional);
    assert Update(classes, d, esc, w, node, transactional, withRelations)
           == UpdateBody(classes, d, esc, w0, node, transactional, withRelations, trail);
    var u := MySql.Update(classes, d, esc, w0.adapter, ModelInstance(node.rec));
    assert u.result.Err? && u.result.error.SqlAdapterExecute? && u.state.lastQuery == Some(failing);
    OpeningClosed(transactional, failing, MySql.RollbackStatement);
  }

  /** The relation loop over one single-model relation: the related
      record's update, then its class's trail entry on success. */
  lemma OneRelationCascade(classes: Classes, d: MySql.Driver, esc: MySql.Escaper, w: World, node: Node, trail: seq<string>)
    requires |node.relations| == 1 && node.relations[0].1.Single?
    ensures var n := node.relations[0].1.node;
            var inner := Update(classes, d, esc, w, n, false, true);
            UpdateRelations(classes, d, esc, w, node, 0, trail)
            == if inner.result.Ok? then Cascade(Ok(true), inner.world, trail + [inner.world.classLast[n.rec.cls]])
               else Cascade(Err(inner.result.error), inner.world, trail)
  {
    var n := node.relations[0].1.node;
    var inner := Update(classes, d, esc, w, n, false, true);
    if inner.result.Ok? {
      var x := inner.world.classLast[n.rec.cls];
      assert UpdateRelations(classes, d, esc, w, node, 0, trail) == UpdateRelations(classes, d, esc, inner.world, node, 1, trail + [x]);
    }
  }

  /** `delete()`: the DELETE statement becomes the class's last query, the
      connection commits (there is no rollback path), the record is new
      again and its key field is gone; a missing key field raises after all
      of that.  A failing DELETE escapes with nothing recorded. */
  function Delete(classes: Classes, d: MySql.Driver, esc: MySql.Escaper, w: World, rec: Record): (r: Written)
    ensures var del := MySql.DeleteStatement(ResourceOf(classes, rec.cls), MySql.PkOf(classes, rec.cls), MySql.IdText(classes, esc, rec));
            && (d.run(del).Integrity? ==> r.result == Err(SqlAdapterExecute(d.run(del).detail)) && r.rec == rec
                                          && r.world.classLast == w.classLast && r.world.adapter.lastQuery == Some(del))
            && (d.run(del).Done? ==>
                  && r.rec.isNew
                  && r.world.classLast == w.classLast[rec.cls := del]
                  && r.world.adapter.lastQuery == Some(MySql.CommitStatement)
                  && (r.result.Ok? <==> HasKey(rec.data, MySql.PkOf(classes, rec.cls)) || HasKey(rec.nested, MySql.PkOf(classes, rec.cls)))
                  && (r.result.Err? ==> r.result.error == AttributeError(MySql.PkOf(classes, rec.cls)))
                  && (r.result.Err? ==> r.rec == SetIsNew(rec, VBool(true))))
    ensures var pk := MySql.PkOf(classes, rec.cls);
            r.result.Ok? ==>
              && r.rec == DelAttr(SetIsNew(rec, VBool(true)), pk).value
              && !HasKey(r.rec.data, pk)
              && (HasKey(rec.data, pk) ==> r.rec.nested == rec.nested)
              && (!HasKey(rec.data, pk) ==> !HasKey(r.rec.nested, pk) && r.rec.data == rec.data)
              && (forall k :: k != pk ==> Get(r.rec.data, k) == Get(rec.data, k) && Get(r.rec.nested, k) == Get(rec.nested, k))
              && r.rec.cls == rec.cls && r.rec.origin == rec.origin
  {
    var dl := MySql.Delete(classes, d, esc, w.adapter, ModelInstance(rec));
    match dl.result
    case Err(e) => Written(Err(e), rec, w.(adapter := dl.state))
    case Ok(_) =>
      var w1 := World(MySql.Commit(dl.state), w.classLast[rec.cls := LastText(dl.state)]);
      var reset := SetIsNew(rec, VBool(true));
      match DelAttr(reset, MySql.PkOf(classes, rec.cls))
      case Err(e) => Written(Err(e), reset, w1)
      case Ok(gone) => Written(Ok(true), gone, w1)
  }

  /** After a successful delete of a well-formed record the key reads what
      the class gives (None unless the class declares the key), the record
      is new again and keeps its shape. */
  lemma DeleteThenGet(classes: Classes, d: MySql.Driver, esc: MySql.Escaper, w: World, rec: Record)
    requires WellFormed(classes, rec)
    requires Delete(classes, d, esc, w, rec).result.Ok?
    ensures var after := Delete(classes, d, esc, w, rec).rec;
            && after.isNew
            && WellFormed(classes, after)
            && GetAttr(classes, after, MySql.PkOf(classes, rec.cls)) == ClassLevel(classes, rec.cls, MySql.PkOf(classes, rec.cls))
  {
    var reset := SetIsNew(rec, VBool(true));
    assert WellFormed(classes, reset) by {
      assert reset.data == rec.data && reset.nested == rec.nested && reset.cls == rec.cls;
    }
    DelAttrThenGet(classes, reset, MySql.PkOf(classes, rec.cls));
  }

  /** `save(transactional, with_relations)`: a new record is created (the
      relation flag does not apply), any other is updated. */
  function Save(classes: Classes, d: MySql.Driver, esc: MySql.Escaper, w: World, node: Node,
                transactional: bool, withRelations: bool): (r: Written)
    ensures node.rec.isNew ==> r == Create(classes, d, esc, w, node.rec, transactional)
    ensures !node.rec.isNew ==> r.rec == node.rec
    ensures !node.rec.isNew ==>
              var u := Update(classes, d, esc, w, node, transactional, withRelations);
              r == Written(u.result, node.rec, u.world)
  {
    if node.rec.isNew then Create(classes, d, esc, w, node.rec, transactional)
    else
      var u := Update(classes, d, esc, w, node, transactional, withRelations);
      Written(u.result, node.rec, u.world)
  }

  /** After a successful save of a new record, saving it again updates. */
  lemma SaveThenSaveUpdates(classes: Classes, d: MySql.Driver, esc: MySql.Escaper, w: World, node: Node,
                            transactional: bool, withRelations: bool)
    requires node.rec.isNew
    requires Save(classes, d, esc, w, node, transactional, withRelations).result.Ok?
    ensures var first := Save(classes, d, esc, w, node, transactional, withRelations);
            var again := Save(classes, d, esc, first.world, node.(rec := first.rec), transactional, withRelations);
            var u := Update(classes, d, esc, first.world, node.(rec := first.rec), transactional, withRelations);
            again == Written(u.result, first.rec, u.world)
  {
  }
}

=== FILE: strings.dfy ===
/** String helpers shared by the statement and URL builders: Python's
    `str.join`, ASCII case tests, and decimal rendering of integers (Python's
    `str(int)`). */
module Strings {

  /** Python `sep.join(parts)`. */
  function Join(sep: string, parts: seq<string>): (r: string)
    ensures parts == [] ==> r == ""
    ensures |parts| == 1 ==> r == parts[0]
  {
    if parts == [] then ""
    else if |parts| == 1 then parts[0]
    else parts[0] + sep + Join(sep, parts[1..])
  }

  /** Joining one more part appends exactly one separator and that part:
      the join can be built up incrementally, as the WHERE builder does. */
  lemma {:induction false} JoinSnoc(sep: string, parts: seq<string>, x: string)
    ensures Join(sep, parts + [x]) == if parts == [] then x else Join(sep, parts) + sep + x
  {
    if parts == [] {
      assert parts + [x] == [x];
    } else if |parts| == 1 {
      assert parts + [x] == [parts[0], x];
      assert (parts + [x])[1..] == [x];
    } else {
      assert (parts + [x])[1..] == parts[1..] + [x];
      JoinSnoc(sep, parts[1..], x);
    }
  }

  /** Joining two non-empty lists with the same separator. */
  lemma {:induction false} JoinConcat(sep: string, a: seq<string>, b: seq<string>)
    requires a != [] && b != []
    ensures Join(sep, a + b) == Join(sep, a) + sep + Join(sep, b)
  {
    if |a| == 1 {
      assert (a + b)[1..] == b;
    } else {
      assert (a + b)[1..] == a[1..] + b;
      JoinConcat(sep, a[1..], b);
    }
  }

  predicate IsUpper(c: char) {
    'A' <= c <= 'Z'
  }

  predicate IsLower(c: char) {
    'a' <= c <= 'z'
  }

  predicate IsDigit(c: char) {
    '0' <= c <= '9'
  }

  /** Python `str.lower` restricted to ASCII letters. */
  function ToLower(c: char): (r: char)
    ensures IsUpper(c) ==> IsLower(r) && r as int - 'a' as int == c as int - 'A' as int
    ensures !IsUpper(c) ==> r == c
  {
    if IsUpper(c) then (c as int - 'A' as int + 'a' as int) as char else c
  }

  function LowerAll(s: string): (r: string)
    ensures |r| == |s|
    ensures forall i :: 0 <= i < |s| ==> r[i] == ToLower(s[i])
  {
    if s == [] then [] else [ToLower(s[0])] + LowerAll(s[1..])
  }

  function DigitChar(d: nat): (c: char)
    requires d < 10
    ensures IsDigit(c)
  {
    ('0' as int + d) as char
  }

  /** Python `str(n)` for a natural number: decimal digits, no leading zero. */
  function NatToString(n: nat): (r: string)
    ensures |r| >= 1
    ensures forall i :: 0 <= i < |r| ==> IsDigit(r[i])
    ensures |r| > 1 ==> r[0] != '0'
    decreases n
  {
    if n < 10 then [DigitChar(n)] else NatToString(n / 10) + [DigitChar(n % 10)]
  }

  /** Python `str(i)` for any integer. */
  function IntToString(i: int): (r: string)
    ensures |r| >= 1
    ensures i < 0 <==> r[0] == '-'
  {
    if i < 0 then "-" + NatToString(-i) else NatToString(i)
  }

  /** The value of a string of decimal digits, the reading direction of
      `NatToString`. */
  function DigitsValue(s: string): nat
    requires forall i :: 0 <= i < |s| ==> IsDigit(s[i])
  {
    if s == [] then 0
    else
      assert IsDigit(s[|s| - 1]);
      DigitsValue(s[..|s| - 1]) * 10 + (s[|s| - 1] as int - '0' as int)
  }

  /** Reading back the decimal rendering gives the number again. */
  lemma {:induction false} NatToStringRoundTrip(n: nat)
    ensures DigitsValue(NatToString(n)) == n
    decreases n
  {
    var s := NatToString(n);
    if n < 10 {
      assert s[..|s| - 1] == [];
    } else {
      NatToStringRoundTrip(n / 10);
      assert s[..|s| - 1] == NatToString(n / 10);
    }
  }

  /** Index of the first occurrence of `c`. */
  function IndexOf(s: string, c: char): (i: nat)
    requires c in s
    ensures i < |s| && s[i] == c && c !in s[..i]
  {
    if s[0] == c then 0
    else
      assert c in s[1..] by {
        var j :| 0 <= j < |s| && s[j] == c;
        assert s[1..][j - 1] == c;
      }
      var i := 1 + IndexOf(s[1..], c);
      assert s[..i] == [s[0]] + s[1..][..i - 1];
      i
  }

  /** Python `s.split(c)` for a one-character separator. */
  function Split(s: string, c: char): (parts: seq<string>)
    ensures |parts| >= 1
    ensures forall i :: 0 <= i < |parts| ==> c !in parts[i]
    decreases |s|
  {
    if c !in s then [s]
    else
      var i := IndexOf(s, c);
      [s[..i]] + Split(s[i + 1..], c)
  }

  /** Splitting a join at a separator that no part contains gives the parts
      back. */
  lemma {:induction false} SplitJoin(c: char, parts: seq<string>)
    requires parts != []
    requires forall i :: 0 <= i < |parts| ==> c !in parts[i]
    ensures Split(Join([c], parts), c) == parts
  {
    if |parts| > 1 {
      var rest := Join([c], parts[1..]);
      assert Join([c], parts) == parts[0] + [c] + rest;
      SplitCons(c, parts[0], rest);
      SplitJoin(c, parts[1..]);
      assert parts == [parts[0]] + parts[1..];
    }
  }

  /** Text free of `c`, then `c`: the split cuts there. */
  lemma SplitCons(c: char, p: string, r: string)
    requires c !in p
    ensures Split(p + [c] + r, c) == [p] + Split(r, c)
  {
    var s := p + [c] + r;
    assert s[|p|] == c;
    assert s[..|p|] == p;
    FirstIndex(s, c, |p|);
    assert s[|p| + 1..] == r;
  }

  /** A position holding `c` with no `c` before it is the first index. */
  lemma FirstIndex(s: string, c: char, k: nat)
    requires k < |s| && s[k] == c && c !in s[..k]
    ensures IndexOf(s, c) == k
  {
    var i := IndexOf(s, c);
    forall j | 0 <= j < k ensures s[j] != c {
      assert s[..k][j] == s[j];
    }
    forall j | 0 <= j < i ensures s[j] != c {
      assert s[..i][j] == s[j];
    }
  }

  /** Joining the pieces of a split restores the string. */
  lemma {:induction false} JoinSplit(c: char, s: string)
    ensures Join([c], Split(s, c)) == s
    decreases |s|
  {
    if c in s {
      var i := IndexOf(s, c);
      var rest := Split(s[i + 1..], c);
      JoinSplit(c, s[i + 1..]);
      assert Split(s, c) == [s[..i]] + rest;
      JoinCons([c], s[..i], rest);
      CutAt(s, i);
    }
  }

  /** Joining a part in front of a non-empty list. */
  lemma JoinCons(sep: string, p: string, rest: seq<string>)
    requires rest != []
    ensures Join(sep, [p] + rest) == p + sep + Join(sep, rest)
  {
    assert ([p] + rest)[1..] == rest;
  }

  /** A string is what precedes a position, the character there, and what
      follows. */
  lemma CutAt(s: string, i: nat)
    requires i < |s|
    ensures s == s[..i] + [s[i]] + s[i + 1..]
  {
  }

  predicate IsPrefix(p: string, s: string) {
    |p| <= |s| && s[..|p|] == p
  }

  /** A prefix of a prefix is a prefix. */
  lemma PrefixTrans(a: string, b: string, c: string)
    requires IsPrefix(a, b) && IsPrefix(b, c)
    ensures IsPrefix(a, c)
  {
    assert c[..|b|][..|a|] == c[..|a|];
  }

  /** A string is a prefix of itself followed by anything. */
  lemma PrefixOfConcat(a: string, b: string)
    ensures IsPrefix(a, a + b)
  {
    assert (a + b)[..|a|] == a;
  }

  predicate IsSuffix(p: string, s: string) {
    |p| <= |s| && s[|s| - |p|..] == p
  }

  /** A join starts with its first part. */
  lemma {:induction false} JoinHead(sep: string, parts: seq<string>)
    requires parts != []
    ensures IsPrefix(parts[0], Join(sep, parts))
  {
    if |parts| > 1 {
      assert Join(sep, parts) == parts[0] + (sep + Join(sep, parts[1..]));
    }
  }
}
